=== FILE: README.md ===
# Interview-preparation services: the deterministic core in Dafny

This project models the pure logic inside the Python services of an
interview-preparation back end, and proves properties of it. The services
are:

- the attire scorer (`yolo_dressing_service.py`);
- the Gemini attire analyser (`gemini_dressing_service.py`);
- the mock-interview evaluator (`mock-interview-service/app.py`);
- the two resume analysers (`backend/resume-analysis-service/app.py` and
  `resume-analysis-service/app.py`);
- the saved-analysis history handlers (`history_api.py` and the
  backend service).

Around their AI, HTTP and storage calls these services do string
processing, set arithmetic and small integer scores. That logic is
written here as pure functions over immutable data. Each external call
becomes a parameter:

- the language models' reply texts;
- `json.loads`, as a function `string -> Option<Json>`;
- the pasted-answer patterns, as a predicate;
- the grammar checker's matches;
- the text extracted from an upload;
- the Firestore collection, as a map from document id to document.

Modules, one per file:

| module | file | what it models |
|---|---|---|
| `Values` | values.dfy | `Option`, a JSON value type, Python truthiness, `dict.get`, `a or b` |
| `Text` | text.dfy | the Python string methods the services use: `strip`, `lower`, `split`, `find`, `rfind`, `count`, slicing |
| `Attire` | attire.dfy | class-id resolution, `heuristic_score`, and the casual-attire guard and fallback of `analyze_image_bytes` |
| `OllamaReply` | ollama_reply.dfy | the `SCORE:` parse of `call_ollama_for_scoring` |
| `GeminiAttire` | gemini_attire.dfy | fence stripping, default-filling and the `/analyze-dressing` input checks |
| `InterviewText` | interview_text.dfy | `_strip_code_fence`, `_attempt_repair_json`, the history-summary short paths, the reply clean-up, block extraction and brace repair |
| `InterviewEvaluate` | interview_evaluate.dfy | `is_ai_question`, the request checks, question counting, the completion override and the reading of the evaluation |
| `ResumeAnalysis` | resume_analysis.dfy | the backend `/analyze-resume`: extension check, skills, score, similarity, ATS keywords, grammar snippets, preview |
| `ResumeLegacy` | resume_legacy.dfy | the first `/analyze-resume`: two extensions, 20 points per skill, 500-character preview |
| `ResumeHistory` | resume_history.dfy | the delete and list handlers of `history_api.py` and of the backend service |

Python's `round` of a ratio is modelled exactly, as round-half-to-even on
rationals. Other percentages are kept as a numerator and denominator pair
(`Percentage(part, whole)`). Whitespace is the set of characters
`str.isspace` accepts. Lower-casing is ASCII lower-casing: it folds A-Z
only, where Python's `lower()` folds every cased character. `AiQuestion`
explains why this is exact for the markers it looks for; "## Left out"
names the members where it is not.

## Model

| member | source | states |
|---|---|---|
| Values.Get | backend/mock-interview-service/app.py:207-212 | `dict.get(key, default)`: the stored value when the key is present, else the default |
| Values.Or | backend/mock-interview-service/app.py:208 | `a or b`: a when it is truthy, otherwise b |
| Values.PyEqReflexive | resume-analysis-service/history_api.py:25 | every value equals itself under Python's `==` |
| Values.PyEqSymmetric | resume-analysis-service/history_api.py:25 | Python's `==` on JSON values is symmetric |
| Values.BoolsAreNumbers | resume-analysis-service/history_api.py:25 | true equals 1 and false equals 0, also inside lists; true differs from "1" and from 2 |
| Text.LStrip | backend/dressing-analysis-service/gemini_dressing_service.py:99 | the result is a suffix of the input that does not start with whitespace |
| Text.LStripDropsSpace | backend/dressing-analysis-service/gemini_dressing_service.py:99 | every character removed by the left strip is whitespace |
| Text.RStripDropsSpace | backend/dressing-analysis-service/gemini_dressing_service.py:108 | every character removed by the right strip is whitespace |
| Text.StripPadding | backend/dressing-analysis-service/gemini_dressing_service.py:108 | stripping whitespace padding off a trimmed body gives back exactly the body |
| Text.Lower | backend/resume-analysis-service/app.py:111 | ASCII lower-casing: same length, each capital ASCII letter folded, every other character kept |
| Text.Find | backend/mock-interview-service/app.py:297 | `find`: -1 when the character is absent, otherwise the index of its first occurrence |
| Text.RFind | backend/mock-interview-service/app.py:298 | `rfind`: -1 when absent, otherwise the index of its last occurrence |
| Text.Count | backend/mock-interview-service/app.py:308-309 | `count` is at most the length and is 0 exactly when the character is absent |
| Text.CountAppend | backend/mock-interview-service/app.py:308-309 | the count of a concatenation is the sum of the counts |
| Text.Split | backend/resume-analysis-service/app.py:126-127 | every word of `split()` is non-empty and holds no whitespace |
| Text.SplitEmptyIff | backend/resume-analysis-service/app.py:126-127 | `split()` gives no word exactly when the text is all whitespace |
| Text.SplitWord | backend/resume-analysis-service/app.py:126-127 | a non-empty text without whitespace splits into itself alone |
| Text.SplitAround | backend/resume-analysis-service/app.py:126-127 | a whitespace character separates words: the split of a + c + b is the split of a followed by the split of b |
| Text.StripChars | backend/resume-analysis-service/app.py:126 | `strip(chars)`: neither end of the result is in the set, and the result is no longer than the input |
| Text.StripCharsSlice | backend/resume-analysis-service/app.py:126 | `strip(chars)` leaves a slice s[i..j] of the input, and every character before i or from j on is in the set; with StripChars this is exactly Python's `strip(chars)` |
| Text.Take | resume-analysis-service/app.py:46 | `text[:n]`: a prefix of length min(n, len) |
| Attire.ExtractDetected | backend/dressing-analysis-service/yolo_dressing_service.py:142-154 | no kept name lower-cases to an excluded label ("person", "bench") |
| Attire.DetectedIff | backend/dressing-analysis-service/yolo_dressing_service.py:142-154 | a name is detected iff some class id resolves to it, trying the model's names, then the COCO map at cid, then at cid+1, and its lower-case form is not excluded |
| Attire.FixedTableName | backend/dressing-analysis-service/yolo_dressing_service.py:148-153 | without model names, a kept resolved name is one of the eight clothing labels of the COCO map |
| Attire.FallbackNamesAreClothing | backend/dressing-analysis-service/yolo_dressing_service.py:142-154 | without model names, every detected name is a clothing label of the COCO map |
| Attire.NoiseNamesLowered | backend/dressing-analysis-service/yolo_dressing_service.py:50-51 | the COCO map's noise labels are caught by the exclusion test after lower-casing |
| Attire.HeuristicScore | backend/dressing-analysis-service/yolo_dressing_service.py:164-217 | the score lies in [0, 100]; an empty set gives exactly 50 and the formal-attire advice; otherwise the feedback lists the detected names |
| Attire.RenderFeedback | backend/dressing-analysis-service/yolo_dressing_service.py:215 | the feedback text: the fixed formal-attire advice for no detection, otherwise "Detected items: ", the names of `sorted(detected_names)` joined by ", ", ". ", then the reasons joined by spaces |
| Attire.SortedListingUnique | backend/dressing-analysis-service/yolo_dressing_service.py:215 | two strictly increasing listings of the same set of names (Python's string order) are equal, so the sorted names in the feedback are determined by the set |
| Attire.SingleItemFeedback | backend/dressing-analysis-service/yolo_dressing_service.py:215 | one detected name and no reasons render as "Detected items: " + name + ". " |
| Attire.CasualDeductionCounts | backend/dressing-analysis-service/yolo_dressing_service.py:185-192 | the casual deduction is 30 times the number of casual items present |
| Attire.WeightBonusSum | backend/dressing-analysis-service/yolo_dressing_service.py:194-198 | each weighted item present adds its weight once: tie 8, blazer 15, shirt 10, trousers 10, dress 15 |
| Attire.RawMatchesRules | backend/dressing-analysis-service/yolo_dressing_service.py:177-212 | the step-by-step score equals the closed-form rule: base 50, -30 per casual item, the weights, +10 for an assumed shirt and +10 for assumed bottom wear beside a formal piece, -5 for a shirt without one |
| Attire.HeuristicMatchesRules | backend/dressing-analysis-service/yolo_dressing_service.py:164-214 | the heuristic's score is the closed-form rule score of the lower-cased names, clamped to [0, 100] |
| Attire.CasualItemNeverHelps | backend/dressing-analysis-service/yolo_dressing_service.py:185-214 | adding a casual item never raises the heuristic score |
| Attire.TieNeverHurts | backend/dressing-analysis-service/yolo_dressing_service.py:194-214 | adding a tie never lowers the heuristic score |
| Attire.SelectScore | backend/dressing-analysis-service/yolo_dressing_service.py:334-368 | a failed model call gives the heuristic's (score, feedback); a successful one with a casual keyword gives a score below 30 (forced to 25 with the casual suffix when it was missing or at least 30); a model score that is kept (no casual keyword, or already below 30) comes with the model's feedback; the heuristic is used when the model gave no score and nothing is casual |
| Attire.ConservativeBranchOverwritten | backend/dressing-analysis-service/yolo_dressing_service.py:360-368 | with no detections and a failed call the outcome is the heuristic's 50 and formal advice, never the 40 set at line 362 |
| OllamaReply.DigitRun | backend/dressing-analysis-service/yolo_dressing_service.py:287 | `[0-9]{1,3}` matches greedily: every matched character is a digit, and the run stops at a non-digit or at three |
| OllamaReply.SepRunSpec | backend/dressing-analysis-service/yolo_dressing_service.py:287 | `[:\s]*` consumes exactly the leading colons and whitespace |
| OllamaReply.FindScore | backend/dressing-analysis-service/yolo_dressing_service.py:287 | `re.search` finds the leftmost match: a match at the returned position and none before it, or none at all |
| OllamaReply.ScoreFeedback | backend/dressing-analysis-service/yolo_dressing_service.py:290 | the feedback after the score is stripped of outer whitespace |
| OllamaReply.ParseReply | backend/dressing-analysis-service/yolo_dressing_service.py:252-298 | a failed call gives (false, None, None); a reply gives success with feedback; a `SCORE` match gives the score of the leftmost match and, as feedback, the text after it stripped; with no `SCORE` match the feedback is the joined text unchanged, the score is the `N/100` or `N out of 100` number when the fallback search finds one, and None when neither pattern matches; every parsed score lies in 0..999 and is not clamped to 100 |
| OllamaReply.ScoreRoundTrip | backend/dressing-analysis-service/yolo_dressing_service.py:287-291 | parsing "SCORE: n rest" for n <= 999 gives back n, with the stripped rest as feedback |
| OllamaReply.ShapedReply | backend/dressing-analysis-service/yolo_dressing_service.py:287-291 | a reply that opens with "SCORE: " and a 1-3 digit number followed by a space parses to that number's value and the stripped rest |
| OllamaReply.ParseFirstScore | backend/dressing-analysis-service/yolo_dressing_service.py:287-291 | a match at position 0 gives its score and the feedback that follows it |
| GeminiAttire.StripFences | backend/dressing-analysis-service/gemini_dressing_service.py:99-108 | the cleaned text has no outer whitespace and is no longer than the reply |
| GeminiAttire.UnfencedOnlyStripped | backend/dressing-analysis-service/gemini_dressing_service.py:99-108 | a reply that neither starts nor ends with a fence is only trimmed |
| GeminiAttire.JsonBlockRoundTrip | backend/dressing-analysis-service/gemini_dressing_service.py:102-108 | a padded "```json" block around a trimmed body gives back exactly the body |
| GeminiAttire.PlainBlockRoundTrip | backend/dressing-analysis-service/gemini_dressing_service.py:104-108 | a padded plain "```" block around a trimmed body gives back exactly the body |
| GeminiAttire.FillDefaults | backend/dressing-analysis-service/gemini_dressing_service.py:115-127 | a parsed object yields a success record for the user; for each of the eight keys a present value is kept as it is and a missing one takes its default: score 50, the four sub-scores 0, feedback "Analysis complete.", empty suggestion and item lists |
| GeminiAttire.EmptyObjectDefaults | backend/dressing-analysis-service/gemini_dressing_service.py:115-127 | an empty object yields score 50, sub-scores 0, "Analysis complete." and empty lists |
| GeminiAttire.PresentFieldsKept | backend/dressing-analysis-service/gemini_dressing_service.py:117-124 | a reply that carries all eight fields yields exactly those values, null ones included |
| GeminiAttire.ScoreOnlyReply | backend/dressing-analysis-service/gemini_dressing_service.py:115-127 | a reply carrying only the score 80 keeps 80 and takes every other default, the sub-scores 0 among them |
| GeminiAttire.Analyse | backend/dressing-analysis-service/gemini_dressing_service.py:44-149 | success iff the model replied and the cleaned text parses to an object; every failure carries score 50; a parse failure gives the parsing-error record; a model error gives the unavailable record with its message; a non-object gives the unavailable record with the AttributeError text |
| GeminiAttire.AnalyzeDressing | backend/dressing-analysis-service/gemini_dressing_service.py:161-214 | 400 with score 0 iff the image part is missing, the filename is empty or the image does not decode, with the matching error; otherwise 200, the unconfigured record without an API key, else the analysis for the user ("demoUser" by default) |
| InterviewText.StripCodeFence | backend/mock-interview-service/app.py:44-50 | a falsy input is returned unchanged; any other text comes back trimmed and no longer |
| InterviewText.UnfencedOnlyStripped | backend/mock-interview-service/app.py:44-50 | text without an opening or closing fence is only trimmed |
| InterviewText.FencedRoundTrip | backend/mock-interview-service/app.py:44-50 | a padded block with a "```" or "```json" opening (tag in any case), whitespace, a trimmed body and a closing "```" gives back exactly the body |
| InterviewText.SummarizeHistory | backend/mock-interview-service/app.py:108-134 | blank history gives "No prior history."; history under 150 characters gives its first 100; a failed summary call gives the first 80 characters and "..."; a successful one gives the fence-stripped reply, "No prior history." when that is empty, cut to its first 97 characters and "..." when longer than 100 |
| InterviewText.ShortenKeepsOrCuts | backend/mock-interview-service/app.py:127-129 | a summary of at most 100 characters is kept; a longer one becomes its first 97 characters and "..." |
| InterviewText.SummaryAtMost100 | backend/mock-interview-service/app.py:108-134 | whatever path is taken, the summary has at most 100 characters |
| InterviewText.RepairStart | backend/mock-interview-service/app.py:55-58 | the text where the trimming starts is a suffix of the stripped input, and it starts at a '{' when there is one |
| InterviewText.AttemptRepairJson | backend/mock-interview-service/app.py:52-69 | input that is empty or shorter than min_length is returned as (None, s); otherwise the final text is a prefix of the text from the first '{', shorter by at most max_iters characters and never trimmed below min_length, every longer prefix failed to parse, the loop stops only on a non-object parse, the length floor, an empty text or the iteration bound, and an object is returned only when that text parses to it |
| InterviewText.TrimFromEnd | backend/mock-interview-service/app.py:59-69 | the loop only drops trailing characters, at most max_iters of them; every longer prefix it passed failed to parse; it never goes below min_length; it stops on an object, on a non-object, below min_length or when out of iterations |
| InterviewText.CleanReply | backend/mock-interview-service/app.py:290-295 | the cleaned reply has no outer whitespace |
| InterviewText.CleanKeepsBraces | backend/mock-interview-service/app.py:290-295 | removing the fences and whitespace never removes or reorders a brace |
| InterviewText.ExtractBlock | backend/mock-interview-service/app.py:297-305 | an extracted block starts with '{' and ends with '}' |
| InterviewText.ExtractBlockSpan | backend/mock-interview-service/app.py:297-305 | a block exists iff some '{' comes before some '}'; it then is the slice from the first '{' to the last '}' |
| InterviewText.RepairBraces | backend/mock-interview-service/app.py:308-320 | a block that is not short of closing braces is kept; one with a comma is cut at its last comma and closed with one '}'; one without a comma gets the missing '}'s appended, which balances the counts |
| InterviewText.CommaRepairMayStayUnbalanced | backend/mock-interview-service/app.py:312-316 | the comma repair does not always balance: "{{a,b}" becomes "{{a}" |
| InterviewEvaluate.AiQuestion | backend/mock-interview-service/app.py:136-144 | a question iff the role is "assistant", the stripped content is non-empty, and its lower-case form holds none of the four feedback markers; None when an assistant's content is not a string (strip raises) |
| InterviewEvaluate.CountQuestionsSpec | backend/mock-interview-service/app.py:224 | the count is the number of messages that are questions; None when some message makes the test raise |
| InterviewEvaluate.LastWithRole | backend/mock-interview-service/app.py:217-218 | the index of the last message with the role, or None when no message has it |
| InterviewEvaluate.MessageList | backend/mock-interview-service/app.py:217-224 | the messages are read iff the value is a list of objects, and then element by element |
| InterviewEvaluate.Check | backend/mock-interview-service/app.py:206-229 | a stopped request is a 400 with one of the two messages, or an unhandled error |
| InterviewEvaluate.CheckOrder | backend/mock-interview-service/app.py:206-229 | the checks run in order: a body that is not an object, then missing fields, then a missing assistant or user message, then a count that raises |
| InterviewEvaluate.CheckPasses | backend/mock-interview-service/app.py:214-229 | a request that passes has the required fields, both roles and a count, and the completion flag is count >= num_questions (default 5) |
| InterviewEvaluate.LimitIsNumQuestions | backend/mock-interview-service/app.py:226 | the limit test compares the count with num_questions, 5 when absent |
| InterviewEvaluate.ReplyText | backend/mock-interview-service/app.py:282-288 | the first reply is used when it is non-blank; the text is empty iff both replies are blank |
| InterviewEvaluate.Candidate | backend/mock-interview-service/app.py:290-320 | a candidate exists iff a block can be extracted from the cleaned reply |
| InterviewEvaluate.Either | backend/mock-interview-service/app.py:333-334 | `p.get(a, "") or p.get(b, "")`: the first field when it is truthy, else the second |
| InterviewEvaluate.ReadObject | backend/mock-interview-service/app.py:331-336 | an evaluation iff the score converts to an int; the feedback fields come from the primary or alternative key; the next question is never falsy and falls back to the role question |
| InterviewEvaluate.ReadReply | backend/mock-interview-service/app.py:297-336 | no block gives "AI did not return JSON." with an 800-character preview; a parse failure gives "JSON parsing failed."; a non-object gives the internal error; an object is read by ReadObject |
| InterviewEvaluate.ReadEvaluation | backend/mock-interview-service/app.py:282-336 | empty replies give the 500 "AI did not return valid JSON evaluation."; otherwise the reply is read; the status is 200 or 500 |
| InterviewEvaluate.Respond | backend/mock-interview-service/app.py:222-341 | an answer that is not a string is an unhandled error; a pasted answer gives the re-answer response; otherwise the evaluation is passed on with its score and feedback, and when the limit is reached its next question is the completion message |
| InterviewEvaluate.Evaluate | backend/mock-interview-service/app.py:201-346 | the answer is 400 iff the request checks reject it, with one of the two messages |
| InterviewEvaluate.PastedBeatsCompletion | backend/mock-interview-service/app.py:226-240 | a pasted answer after the last question gets score 0 and a re-answer prompt, not the completion message |
| ResumeAnalysis.Extension | backend/resume-analysis-service/app.py:34 | `rsplit('.', 1)[1]`: present iff the name has a dot; it is the dot-free text after the last dot |
| ResumeAnalysis.AllowedFileSplit | backend/resume-analysis-service/app.py:33-34 | a name stem.ext is allowed iff the lower-cased ext is in the allowed set |
| ResumeAnalysis.FoundSkills | backend/resume-analysis-service/app.py:111 | the found skills are exactly the skills the text mentions under ASCII lower-casing, in the list's order, each as many times as the list holds it |
| ResumeAnalysis.RoundPercent | backend/resume-analysis-service/app.py:115 | `round(part / whole * 100)`: within half a unit of the exact value, ties to the even neighbour, at most 100 when part <= whole |
| ResumeAnalysis.SkillScore | backend/resume-analysis-service/app.py:112-120 | the score lies in [0, 100], is 0 for an empty skill list, and is within half a point of the exact percentage of skills found |
| ResumeAnalysis.SkillScoreExtremes | backend/resume-analysis-service/app.py:111-120 | a text mentioning every skill scores 100; one mentioning none scores 0 |
| ResumeAnalysis.KeywordShape | backend/resume-analysis-service/app.py:126-127 | a keyword has no whitespace, no capital ASCII letter and no punctuation mark at either end |
| ResumeAnalysis.KeywordsAround | backend/resume-analysis-service/app.py:126-127 | the keywords of a + c + b, for a whitespace c, are the keywords of a together with those of b |
| ResumeAnalysis.KeywordsOfWord | backend/resume-analysis-service/app.py:126-127 | a single word gives its lower-cased, punctuation-stripped form when it is longer than the bound (the length is that of the raw word), and nothing otherwise |
| ResumeAnalysis.KeywordsOfBlank | backend/resume-analysis-service/app.py:126-127 | a blank text has no keywords |
| ResumeAnalysis.KeywordsOfTwoWords | backend/resume-analysis-service/app.py:126-127 | two words joined by a space, both longer than the bound, give exactly their two cleaned forms |
| ResumeAnalysis.CleanFullStop | backend/resume-analysis-service/app.py:126-127 | a lower-case word followed by a full stop cleans to the word itself (so the word "engineer." gives the keyword "engineer") |
| ResumeAnalysis.Similarity | backend/resume-analysis-service/app.py:122-134 | None iff the job description is blank; otherwise the common keywords of more than 3 characters over the description's, a share in [0, 100] |
| ResumeAnalysis.KeywordMatch | backend/resume-analysis-service/app.py:136-140 | present and missing keywords are disjoint and together make up the description's keywords; missing = description minus resume; ATS = present over description, in [0, 100] |
| ResumeAnalysis.BlankDescription | backend/resume-analysis-service/app.py:136-140 | a blank job description gives no missing keywords and an ATS of 0 |
| ResumeAnalysis.Snippet | backend/resume-analysis-service/app.py:148-152 | the context is the text from offset-40 to offset+length+40, clamped to the text, with newlines replaced by spaces |
| ResumeAnalysis.GrammarIssues | backend/resume-analysis-service/app.py:142-161 | at most 8 issues, the first matches in order, each with at most 3 of its replacements, its message, offset, length and snippet |
| ResumeAnalysis.Preview | backend/resume-analysis-service/app.py:165 | the text itself up to 12000 characters, otherwise its first 12000 characters and "..." |
| ResumeAnalysis.Analyse | backend/resume-analysis-service/app.py:111-175 | the report carries the skills found, the skill score (in [0, 100]), the similarity, the keyword match, the grammar issues (at most 8) and the preview, each as its own member states it |
| ResumeAnalysis.AnalyzeResume | backend/resume-analysis-service/app.py:76-198 | a missing file part, an empty filename and a disallowed type are 400s with their messages; the text is analysed iff the upload is allowed and the extracted text is non-blank |
| ResumeLegacy.LegacyScore | resume-analysis-service/app.py:43-44 | 20 points per skill found, so at most 100 with the five skills |
| ResumeLegacy.Report | resume-analysis-service/app.py:43-49 | the 500-character preview, the skills found and their score |
| ResumeLegacy.AnalyzeLegacy | resume-analysis-service/app.py:22-53 | a missing file part, an empty filename and a disallowed extension are 400s; the text is analysed iff the upload is a pdf or docx and extraction succeeds |
| ResumeLegacy.DocOnlyInBackend | resume-analysis-service/app.py:12 | a .doc upload is allowed by the backend service and refused by this one |
| ResumeLegacy.ScoresAgreeOnDefaultSkills | resume-analysis-service/app.py:15 | with the five default skills both services give the same score |
| ResumeHistory.Delete | resume-analysis-service/history_api.py:13-31 | 400 iff userId or docId is falsy, 404 iff the document is absent, 403 iff the stored owner differs from userId under Python's `!=` (true equals 1), 200 iff it equals it; only success changes the store, and it removes exactly that document |
| ResumeHistory.TrueOwnerMatchesOne | resume-analysis-service/history_api.py:25-28 | a document whose owner is stored as 1 is deleted (200) by a request whose userId is true |
| ResumeHistory.DeleteTwice | resume-analysis-service/history_api.py:20-28 | repeating a successful delete gives 404 and changes nothing |
| ResumeHistory.DeleteUnchecked | backend/resume-analysis-service/app.py:53-74 | 400 when docId is falsy; 200 iff the document exists, removing exactly it; no ownership check; failures leave the store unchanged |
| ResumeHistory.UncheckedDeleteIgnoresOwner | backend/resume-analysis-service/app.py:60-71 | a request the owner-checking delete refuses with 403 succeeds here and removes the document |
| ResumeHistory.Insert | resume-analysis-service/history_api.py:38 | inserting keeps the list sorted latest first and adds exactly one occurrence of the id |
| ResumeHistory.SortedOwned | resume-analysis-service/history_api.py:38 | the ids are sorted latest first and are a permutation of the user's documents |
| ResumeHistory.ListHistory | resume-analysis-service/history_api.py:34-53 | exactly the requested user's documents ("demoUser" by default), each once, latest first, each with its fields and the timestamp text ('' when missing) |
| ResumeHistory.ListBackendHistory | backend/resume-analysis-service/app.py:36-51 | min(n, 20) of the user's n documents, each once, latest first, each record carrying the document's raw timestamp, score, similarity_with_jd and ats_score; every document of the user left out is no later than every listed one |

## Left out

- The external services are not modelled: YOLO inference, Ollama, Gemini,
  the grammar checker, pdfminer/docx2txt, Firestore and Flask. Their
  results are parameters: the class ids and model names, the reply texts,
  the grammar matches, the extracted text and the store.
- Logging, the file system (saving and removing uploads), clocks
  (`timestamp` fields) and `simulate_firestore_save` are left out.
- `try_extract_model_names` is left out. A missing name table and an empty
  one are both the empty map, because line 146 treats them alike.
- The text-candidate extraction of `call_ollama_for_scoring` (lines
  263-283) and `_extract_text_from_response` are left out. The joined or
  extracted text is a parameter.
- `normalize_ollama_base` is left out. It depends on URL parsing.
- The pasted-answer regular expressions (lines 231-233 of the
  mock-interview service) are the `pasted` predicate. Their `\b`
  word-boundary semantics are not modelled.
- The history summary does not enter `Evaluate`. It only feeds the
  evaluator's prompt, which is a parameter.
- `_attempt_repair_json` is modelled, but no endpoint calls it.
- The start and history-placeholder endpoints of the mock-interview
  service are not part of this model.
- The posture service and `start-dev.py` are not part of this model.
- Floating point is not modelled. The similarity and ATS values are
  `Percentage(part, whole)`; their `round(…, 2)` is not modelled.
- RoundPercent: rounds the exact ratio half to even. Python rounds the
  float `len/total*100`, which can differ when that float lands just off
  a half.
- ParseReply: on the fallback path (`N/100` or `N out of 100`, lines
  293-296) the score is the number the fallback search returns, and that
  search's contract only bounds it to 0..999. It does not say which
  number of the text is taken.
- Lower: folds A-Z only. Python's `lower()` also folds other cased
  characters ("FRANÇAIS" becomes "français", the Kelvin sign becomes "k")
  and can lengthen a string ("İ" becomes two characters).
- FoundSkills: matches under ASCII lower-casing only, so the skill
  "français" is not found in the text "FRANÇAIS", where the service finds it.
- KeywordShape: keywords are cleaned with ASCII lower-casing, so
  "DÉVELOPPEUR" and "développeur" give two different keywords where the
  service gives one; KeywordsAround, KeywordsOfWord, KeywordsOfTwoWords
  and CleanFullStop state the keywords under the same lower-casing.
- Similarity: compares keywords under ASCII lower-casing, so it can differ
  from the service on text with non-ASCII capitals.
- KeywordMatch: the present and missing keywords differ from the service's
  in the same way on text with non-ASCII capitals.
- HeuristicScore: the source iterates a set of casual items, so the order
  of the "-30 for casual item" reasons depends on Python's string hashing
  when two or more are present; the model fixes one order.
- ListHistory: a document without a timestamp is listed last. Firestore's
  `order_by` leaves such documents out. The order of equal timestamps is
  not fixed.
- ListBackendHistory: the same holds for documents without a timestamp.
  Which 20 are kept among equal timestamps is not fixed.
- Delete: storage failures inside the `try` (500) are not modelled. Only a
  body that is not an object and a docId that is not a string lead to 500.
- DeleteUnchecked: storage failures are likewise not modelled.
- GrammarIssues: the exception fallbacks of lines 153-154 and 162-163 are
  not modelled. The grammar matches are well-typed records.
- `secure_filename` is a parameter (the upload's `savedName`). A saved name
  without a dot is the unhandled error of line 89 (`Crashed`).
- The backend skill list is a parameter. Reading `skills.json` is left out.
- AnalyzeDressing: the outer exception handler (lines 216-224) cannot be
  reached in the model, because no modelled step raises.

=== FILE: attire.dfy ===
/** The attire scoring of the YOLO dressing service: turning detector class
    ids into clothing names, the rule-based fallback score, and the choice
    between the language model's score, the casual-attire guard and the
    fallback. */
module Attire {
  import opened Values
  import opened Text
  import opened OllamaReply

  /** COCO_CLASS_MAP: the fixed class-id table, including the two noise
      classes that are filtered out again. */
  const CocoClassMap: map<int, string> :=
    map[28 := "tie", 31 := "skirt", 32 := "trousers", 33 := "shoe", 34 := "hat",
        35 := "blazer", 36 := "shirt", 37 := "dress", 0 := "person", 13 := "bench"]

  /** EXCLUDED_CLASSES, compared against the lower-cased name. */
  const Excluded: set<string> := {"person", "bench"}

  /** The clothing names of the class table, noise classes left out. */
  const ClothingNames: set<string> :=
    {"tie", "skirt", "trousers", "shoe", "hat", "blazer", "shirt", "dress"}

  /** The name of one class id: the model's own name table first, then the
      fixed table at the id, then the fixed table at id + 1. */
  function ResolveName(modelNames: map<int, string>, cid: int): Option<string>
  {
    if cid in modelNames then Some(modelNames[cid])
    else if cid in CocoClassMap then Some(CocoClassMap[cid])
    else if cid + 1 in CocoClassMap then Some(CocoClassMap[cid + 1])
    else None
  }

  /** A resolved name survives the filter when its lower-cased form is not excluded. */
  predicate Kept(name: Option<string>)
  {
    name.Some? && Lower(name.value) !in Excluded
  }

  /** extract_detected_clothing over the class ids of all results, in order. */
  function ExtractDetected(modelNames: map<int, string>, ids: seq<int>): (names: set<string>)
    ensures forall n :: n in names ==> Lower(n) !in Excluded
  {
    if ids == [] then {}
    else
      var rest := ExtractDetected(modelNames, ids[1..]);
      var name := ResolveName(modelNames, ids[0]);
      if Kept(name) then {name.value} + rest else rest
  }

  /** A name is detected exactly when some class id resolves to it and it
      is not a noise class. */
  lemma {:induction false} DetectedIff(modelNames: map<int, string>, ids: seq<int>, n: string)
    ensures n in ExtractDetected(modelNames, ids) <==>
            exists k :: 0 <= k < |ids| && ResolveName(modelNames, ids[k]) == Some(n) && Lower(n) !in Excluded
  {
    if ids != [] {
      DetectedIff(modelNames, ids[1..], n);
      if n in ExtractDetected(modelNames, ids[1..]) {
        var k :| 0 <= k < |ids[1..]| && ResolveName(modelNames, ids[1..][k]) == Some(n) && Lower(n) !in Excluded;
        assert ids[k + 1] == ids[1..][k];
      }
      if exists k :: 0 <= k < |ids| && ResolveName(modelNames, ids[k]) == Some(n) && Lower(n) !in Excluded {
        var k :| 0 <= k < |ids| && ResolveName(modelNames, ids[k]) == Some(n) && Lower(n) !in Excluded;
        if k > 0 {
          assert ids[1..][k - 1] == ids[k];
        }
      }
    }
  }

  /** Without a model name table only clothing names can come out, because
      every other entry of the fixed table is a noise class. */
  lemma {:induction false} FallbackNamesAreClothing(ids: seq<int>)
    ensures ExtractDetected(map[], ids) <= ClothingNames
  {
    if ids != [] {
      FallbackNamesAreClothing(ids[1..]);
      FixedTableName(ids[0]);
    }
  }

  /** One class id looked up in the fixed table alone yields a clothing
      name or a noise class. */
  lemma FixedTableName(cid: int)
    ensures Kept(ResolveName(map[], cid)) ==> ResolveName(map[], cid).value in ClothingNames
  {
    var name := ResolveName(map[], cid);
    if name.Some? && name.value !in ClothingNames {
      assert name.value == "person" || name.value == "bench";
      NoiseNamesLowered();
    }
  }

  lemma NoiseNamesLowered()
    ensures Lower("person") in Excluded && Lower("bench") in Excluded
  {
    assert Lower("person") == "person" && Lower("bench") == "bench";
  }

  // ---------------------------------------------------------------------
  // heuristic_score

  /** CASUAL_ITEMS. The source holds them in a set, so the order in which
      its reasons name them is unspecified; the model fixes this one. */
  const CasualItems: seq<string> := ["hat", "straw hat", "shorts", "casual", "t-shirt", "tshirt"]

  /** HEURISTIC_WEIGHTS in dictionary order. */
  const WeightedItems: seq<(string, int)> :=
    [("tie", 8), ("blazer", 15), ("shirt", 10), ("trousers", 10), ("dress", 15)]

  const DefaultBaseScore := 50
  const MaxScore := 100
  const CasualPenalty := 30

  const FormalAdviceText :=
    "For professional interviews, ensure formal attire: dress shirt, blazer, tie (for men) or professional blouse/blazer (for women)."

  /** One entry of the reasons list the fallback feedback explains itself with. */
  datatype Reason =
    | CasualItemPenalty(item: string)
    | DetectedBonus(item: string, weight: int)
    | AssumedShirt
    | AssumedBottomWear
    | ShirtWithoutFormalPiece

  /** The fallback feedback: the fixed advice for an empty detection, or the
      detected items with the reasons for each adjustment. */
  datatype Feedback = FormalAdvice | ItemReport(items: set<string>, reasons: seq<Reason>)

  function ReasonText(r: Reason): string
  {
    match r
    case CasualItemPenalty(item) => "-30 for casual item: " + item
    case DetectedBonus(item, w) => "+" + NatText(if w < 0 then 0 else w) + " for detected " + item
    case AssumedShirt => "+10 (Assumed shirt/top with formal piece)"
    case AssumedBottomWear => "+10 (Assumed bottom wear with formal piece)"
    case ShirtWithoutFormalPiece => "-5 shirt without tie/blazer/dress (too casual for interview)"
  }

  function LoweredNames(names: set<string>): set<string>
  {
    set n | n in names :: Lower(n)
  }

  predicate HasFormalPiece(low: set<string>)
  {
    "tie" in low || "blazer" in low || "dress" in low
  }

  /** The casual-item loop: 30 off per listed item present. */
  function CasualDeduction(items: seq<string>, low: set<string>): int
  {
    if items == [] then 0
    else (if items[0] in low then CasualPenalty else 0) + CasualDeduction(items[1..], low)
  }

  function CasualReasons(items: seq<string>, low: set<string>): seq<Reason>
  {
    if items == [] then []
    else (if items[0] in low then [CasualItemPenalty(items[0])] else []) + CasualReasons(items[1..], low)
  }

  /** The weighted-item loop: each listed item present adds its weight. */
  function WeightBonus(items: seq<(string, int)>, low: set<string>): int
  {
    if items == [] then 0
    else (if items[0].0 in low then items[0].1 else 0) + WeightBonus(items[1..], low)
  }

  function WeightReasons(items: seq<(string, int)>, low: set<string>): seq<Reason>
  {
    if items == [] then []
    else
      (if items[0].0 in low then [DetectedBonus(items[0].0, items[0].1)] else [])
      + WeightReasons(items[1..], low)
  }

  function Clamp(x: int): (r: int)
    ensures 0 <= r <= MaxScore
    ensures 0 <= x <= MaxScore ==> r == x
  {
    if x < 0 then 0 else if x > MaxScore then MaxScore else x
  }

  predicate AssumesShirt(low: set<string>)
  {
    HasFormalPiece(low) && "shirt" !in low
  }

  predicate AssumesBottomWear(low: set<string>)
  {
    HasFormalPiece(low) && "trousers" !in low && "skirt" !in low && "dress" !in low
  }

  predicate ShirtOnly(low: set<string>)
  {
    "shirt" in low && !HasFormalPiece(low)
  }

  /** The unclamped score, step by step as heuristic_score computes it on a
      non-empty detection. */
  function RawHeuristic(low: set<string>): int
  {
    DefaultBaseScore
    - CasualDeduction(CasualItems, low)
    + WeightBonus(WeightedItems, low)
    + (if AssumesShirt(low) then 10 else 0)
    + (if AssumesBottomWear(low) then 10 else 0)
    - (if ShirtOnly(low) then 5 else 0)
  }

  /** The reasons list: casual items (in the one order the model fixes),
      then weighted items in dictionary order, then the inferred items. */
  function HeuristicReasons(low: set<string>): seq<Reason>
  {
    CasualReasons(CasualItems, low)
    + WeightReasons(WeightedItems, low)
    + (if AssumesShirt(low) then [AssumedShirt] else [])
    + (if AssumesBottomWear(low) then [AssumedBottomWear] else [])
    + (if ShirtOnly(low) then [ShirtWithoutFormalPiece] else [])
  }

  /** heuristic_score: the fallback score and its feedback. */
  function HeuristicScore(names: set<string>): (r: (int, Feedback))
    ensures 0 <= r.0 <= MaxScore
    ensures names == {} ==> r == (50, FormalAdvice)
    ensures names != {} ==> r.1.ItemReport? && r.1.items == names
  {
    if names == {} then (50, FormalAdvice)
    else
      var low := LoweredNames(names);
      (Clamp(RawHeuristic(low)), ItemReport(names, HeuristicReasons(low)))
  }

  // ---------------------------------------------------------------------
  // Rendering the fallback feedback (line 215)

  /** Python's `<` on str: character by character, a proper prefix first. */
  predicate StrLess(a: string, b: string)
  {
    if b == [] then false
    else if a == [] then true
    else if a[0] != b[0] then a[0] < b[0]
    else StrLess(a[1..], b[1..])
  }

  lemma {:induction false} StrLessAsymmetric(a: string, b: string)
    ensures !(StrLess(a, b) && StrLess(b, a))
  {
    if a != [] && b != [] && a[0] == b[0] {
      StrLessAsymmetric(a[1..], b[1..]);
    }
  }

  /** xs is `sorted(names)`: every name once, in strictly increasing order. */
  predicate SortedListing(xs: seq<string>, names: set<string>)
  {
    && (forall i, j :: 0 <= i < j < |xs| ==> StrLess(xs[i], xs[j]))
    && (forall i :: 0 <= i < |xs| ==> xs[i] in names)
    && (forall n :: n in names ==> n in xs)
  }

  lemma ListingEmpty(xs: seq<string>, names: set<string>)
    requires SortedListing(xs, names)
    ensures xs == [] <==> names == {}
  {
    if xs != [] {
      assert xs[0] in names;
    }
  }

  /** The head of a sorted listing is below every other name. */
  lemma ListingHead(xs: seq<string>, names: set<string>)
    requires SortedListing(xs, names) && xs != []
    ensures forall e :: e in names && e != xs[0] ==> StrLess(xs[0], e)
  {
    forall e | e in names && e != xs[0]
      ensures StrLess(xs[0], e)
    {
      var k :| 0 <= k < |xs| && xs[k] == e;
      assert k != 0;
    }
  }

  /** The tail of a sorted listing lists the other names. */
  lemma ListingTail(xs: seq<string>, names: set<string>)
    requires SortedListing(xs, names) && xs != []
    ensures SortedListing(xs[1..], names - {xs[0]})
  {
    var tail := xs[1..];
    forall j | 0 <= j < |tail|
      ensures tail[j] in names - {xs[0]}
    {
      assert tail[j] == xs[j + 1];
      StrLessAsymmetric(xs[0], xs[0]);
      assert StrLess(xs[0], xs[j + 1]);
    }
    forall n | n in names - {xs[0]}
      ensures n in tail
    {
      var k :| 0 <= k < |xs| && xs[k] == n;
      assert tail[k - 1] == n;
    }
  }

  /** A set has one sorted listing, so `sorted(names)` is determined. */
  lemma {:induction false} SortedListingUnique(xs: seq<string>, ys: seq<string>, names: set<string>)
    requires SortedListing(xs, names) && SortedListing(ys, names)
    ensures xs == ys
    decreases |xs|
  {
    ListingEmpty(xs, names);
    ListingEmpty(ys, names);
    if xs != [] {
      ListingHead(xs, names);
      ListingHead(ys, names);
      StrLessAsymmetric(xs[0], ys[0]);
      assert xs[0] == ys[0];
      ListingTail(xs, names);
      ListingTail(ys, names);
      SortedListingUnique(xs[1..], ys[1..], names - {xs[0]});
      assert xs == [xs[0]] + xs[1..];
      assert ys == [ys[0]] + ys[1..];
    }
  }

  /** `sep.join(xs)`. */
  function Join(sep: string, xs: seq<string>): string
  {
    if xs == [] then ""
    else if |xs| == 1 then xs[0]
    else xs[0] + sep + Join(sep, xs[1..])
  }

  function ReasonTexts(rs: seq<Reason>): (ts: seq<string>)
    ensures |ts| == |rs|
  {
    if rs == [] then [] else [ReasonText(rs[0])] + ReasonTexts(rs[1..])
  }

  /** The feedback string of heuristic_score, given `sorted(names)` as
      listing: the fixed advice, or "Detected items: " with the sorted names
      joined by ", ", then ". " and the reasons joined by spaces. */
  function RenderFeedback(f: Feedback, listing: seq<string>): (text: string)
    requires f.ItemReport? ==> SortedListing(listing, f.items)
    ensures f.FormalAdvice? ==> text == FormalAdviceText
    ensures f.ItemReport? ==>
              StartsWith(text, "Detected items: " + Join(", ", listing) + ". ") &&
              text[|"Detected items: " + Join(", ", listing) + ". "|..] == Join(" ", ReasonTexts(f.reasons))
  {
    match f
    case FormalAdvice => FormalAdviceText
    case ItemReport(_, reasons) =>
      "Detected items: " + Join(", ", listing) + ". " + Join(" ", ReasonTexts(reasons))
  }

  /** One detected item and no adjustment: the feedback names the item and
      ends after its full stop. */
  lemma SingleItemFeedback(n: string)
    ensures RenderFeedback(ItemReport({n}, []), [n]) == "Detected items: " + n + ". "
  {
  }

  function Ind(b: bool): int
  {
    if b then 1 else 0
  }

  const CasualSet: set<string> := {"hat", "straw hat", "shorts", "casual", "t-shirt", "tshirt"}

  /** The score the fallback rules describe, stated per rule: 50, minus 30 for
      each distinct casual item, plus each weighted item's weight once, plus
      10 for an assumed shirt and 10 for assumed bottom wear next to a formal
      piece, minus 5 for a shirt without one. */
  function RuleScore(low: set<string>): int
  {
    var formal := HasFormalPiece(low);
    DefaultBaseScore
    - CasualPenalty * |CasualSet * low|
    + 8 * Ind("tie" in low) + 15 * Ind("blazer" in low) + 10 * Ind("shirt" in low)
    + 10 * Ind("trousers" in low) + 15 * Ind("dress" in low)
    + 10 * Ind(formal && "shirt" !in low)
    + 10 * Ind(formal && "trousers" !in low && "skirt" !in low && "dress" !in low)
    - 5 * Ind("shirt" in low && !formal)
  }

  lemma {:induction false} CasualDeductionCounts(items: seq<string>, low: set<string>)
    requires Distinct(items)
    ensures CasualDeduction(items, low) == CasualPenalty * |(set x | x in items) * low|
  {
    if items != [] {
      DistinctCons(items);
      CasualDeductionCounts(items[1..], low);
      CardinalityStep(items[0], (set x | x in items[1..]), low);
    }
  }

  predicate Distinct(items: seq<string>)
  {
    forall i, j :: 0 <= i < j < |items| ==> items[i] != items[j]
  }

  /** Splitting the first item off a list without repeats. */
  lemma DistinctCons(items: seq<string>)
    requires items != [] && Distinct(items)
    ensures Distinct(items[1..])
    ensures (set x | x in items) == {items[0]} + (set x | x in items[1..])
    ensures items[0] !in (set x | x in items[1..])
  {
    var rest := items[1..];
    forall i, j | 0 <= i < j < |rest|
      ensures rest[i] != rest[j]
    {
      assert rest[i] == items[i + 1] && rest[j] == items[j + 1];
    }
    assert items == [items[0]] + rest;
    forall k | 0 <= k < |rest|
      ensures rest[k] != items[0]
    {
      assert rest[k] == items[k + 1];
    }
  }

  /** The intersection with low grows by one exactly when the new item is in low. */
  lemma CardinalityStep(x: string, tail: set<string>, low: set<string>)
    requires x !in tail
    ensures |({x} + tail) * low| == (if x in low then 1 else 0) + |tail * low|
  {
    if x in low {
      assert ({x} + tail) * low == {x} + (tail * low);
    } else {
      assert ({x} + tail) * low == tail * low;
    }
  }

  /** The casual items are listed once each and form CasualSet. */
  lemma CasualItemsListed()
    ensures Distinct(CasualItems)
    ensures (set x | x in CasualItems) == CasualSet
  {
  }

  lemma WeightBonusSum(low: set<string>)
    ensures WeightBonus(WeightedItems, low) ==
            8 * Ind("tie" in low) + 15 * Ind("blazer" in low) + 10 * Ind("shirt" in low)
            + 10 * Ind("trousers" in low) + 15 * Ind("dress" in low)
  {
    var w1 := [("blazer", 15), ("shirt", 10), ("trousers", 10), ("dress", 15)];
    var w2 := [("shirt", 10), ("trousers", 10), ("dress", 15)];
    var w3 := [("trousers", 10), ("dress", 15)];
    var w4 := [("dress", 15)];
    assert WeightedItems[1..] == w1 && w1[1..] == w2 && w2[1..] == w3 && w3[1..] == w4;
    assert w4[1..] == [];
    assert WeightBonus(w4, low) == 15 * Ind("dress" in low);
    assert WeightBonus(w3, low) == 10 * Ind("trousers" in low) + WeightBonus(w4, low);
    assert WeightBonus(w2, low) == 10 * Ind("shirt" in low) + WeightBonus(w3, low);
    assert WeightBonus(w1, low) == 15 * Ind("blazer" in low) + WeightBonus(w2, low);
  }

  /** The step-by-step computation agrees with the rule-by-rule statement:
      every casual item costs 30 once, every weighted item adds its weight
      once, and the formal-piece adjustments apply as the rules say. */
  lemma RawMatchesRules(low: set<string>)
    ensures RawHeuristic(low) == RuleScore(low)
  {
    assert CasualDeduction(CasualItems, low) == CasualPenalty * |CasualSet * low| by {
      CasualItemsListed();
      CasualDeductionCounts(CasualItems, low);
    }
    WeightBonusSum(low);
  }

  /** The fallback score is the clamped rule score; on an empty detection
      both are 50. */
  lemma HeuristicMatchesRules(names: set<string>)
    ensures HeuristicScore(names).0 == Clamp(RuleScore(LoweredNames(names)))
  {
    if names == {} {
      RuleScoreEmpty();
    } else {
      RawMatchesRules(LoweredNames(names));
    }
  }

  lemma RuleScoreEmpty()
    ensures LoweredNames({}) == {}
    ensures RuleScore({}) == DefaultBaseScore
  {
    assert CasualSet * {} == {};
  }

  lemma LoweredInsert(names: set<string>, n: string)
    ensures LoweredNames(names + {n}) == LoweredNames(names) + {Lower(n)}
  {
  }

  lemma ClampMonotone(a: int, b: int)
    requires a <= b
    ensures Clamp(a) <= Clamp(b)
  {
  }

  lemma RuleScoreCasual(low: set<string>, c: string)
    requires c in CasualSet
    ensures RuleScore(low + {c}) <= RuleScore(low)
  {
    if c !in low {
      assert CasualSet * (low + {c}) == (CasualSet * low) + {c};
      assert c !in CasualSet * low;
      assert |CasualSet * (low + {c})| == |CasualSet * low| + 1;
    } else {
      assert low + {c} == low;
    }
  }

  lemma RuleScoreTie(low: set<string>)
    ensures RuleScore(low + {"tie"}) >= RuleScore(low)
  {
    assert CasualSet * (low + {"tie"}) == CasualSet * low;
  }

  /** Adding a casual item to the detection never raises the fallback score. */
  lemma CasualItemNeverHelps(names: set<string>, n: string)
    requires Lower(n) in CasualSet
    ensures HeuristicScore(names + {n}).0 <= HeuristicScore(names).0
  {
    var low := LoweredNames(names);
    LoweredInsert(names, n);
    HeuristicMatchesRules(names + {n});
    HeuristicMatchesRules(names);
    RuleScoreCasual(low, Lower(n));
    ClampMonotone(RuleScore(low + {Lower(n)}), RuleScore(low));
  }

  /** Adding a tie never lowers the fallback score. */
  lemma TieNeverHurts(names: set<string>)
    ensures HeuristicScore(names + {"tie"}).0 >= HeuristicScore(names).0
  {
    var low := LoweredNames(names);
    assert Lower("tie") == "tie";
    LoweredInsert(names, "tie");
    HeuristicMatchesRules(names + {"tie"});
    HeuristicMatchesRules(names);
    RuleScoreTie(low);
    ClampMonotone(RuleScore(low), RuleScore(low + {"tie"}));
  }

  // ---------------------------------------------------------------------
  // analyze_image_bytes: choosing the final score

  /** casual_keywords_for_guard. */
  const GuardKeywords: set<string> :=
    {"hat", "shorts", "straw hat", "casual short sleeve shirt", "t-shirt", "tshirt", "tank top",
     "sandals", "flip flops", "athletic wear", "sportswear", "hoodie", "sweatshirt"}

  /** Some lower-cased detected name contains a guard keyword. */
  predicate HasCasual(names: set<string>)
  {
    exists d, k :: d in LoweredNames(names) && k in GuardKeywords && Contains(d, k)
  }

  const CasualSuffix := " (Casual attire detected - not suitable for professional interviews)"
  const CasualDefault := "Low score due to casual attire."
  const UnableToDetect :=
    "Unable to detect clothing items. Please ensure good lighting and clear view of upper body for accurate analysis."

  /** Where the final feedback came from. */
  datatype FinalFeedback = LlmFeedback(text: Option<string>) | HeuristicFeedback(report: Feedback)

  datatype Analysis = Analysis(score: int, feedback: FinalFeedback, usedLlm: bool)

  /** Steps 3 and 4 of analyze_image_bytes, in the order the code runs them:
      the casual guard, the conservative score 40 for an empty detection
      without the language model, and the fallback when the score is still
      missing or the model call failed. */
  function SelectScore(detected: set<string>, llm: LlmReply): (a: Analysis)
    ensures !llm.success ==>
              a == Analysis(HeuristicScore(detected).0, HeuristicFeedback(HeuristicScore(detected).1), false)
    ensures llm.success && HasCasual(detected) ==> a.score < 30 && a.usedLlm
    ensures llm.success && HasCasual(detected) && (llm.score.None? || llm.score.value >= 30) ==>
              a.score == 25 && a.feedback == LlmFeedback(Some(OrText(llm.feedback, CasualDefault) + CasualSuffix))
    ensures llm.success && llm.score.Some? && (!HasCasual(detected) || llm.score.value < 30) ==>
              a == Analysis(llm.score.value, LlmFeedback(llm.feedback), true)
    ensures llm.success && llm.score.None? && !HasCasual(detected) ==>
              a == Analysis(HeuristicScore(detected).0, HeuristicFeedback(HeuristicScore(detected).1), false)
  {
    var score := llm.score;
    var feedback: FinalFeedback := LlmFeedback(llm.feedback);
    var used := llm.success;
    // step 3: the casual-attire guard
    var (score, feedback) :=
      if used && HasCasual(detected) && (score.None? || score.value >= 30) then
        (Some(25), LlmFeedback(Some(OrText(llm.feedback, CasualDefault) + CasualSuffix)))
      else (score, feedback);
    // the conservative branch for an empty detection without the model
    var (score, feedback) :=
      if detected == {} && !used then (Some(40), LlmFeedback(Some(UnableToDetect)))
      else (score, feedback);
    // step 4: the heuristic fallback
    if score.None? || !used then
      var (s, f) := HeuristicScore(detected);
      Analysis(s, HeuristicFeedback(f), false)
    else
      Analysis(score.value, feedback, used)
  }

  /** The score-40 branch never survives: with nothing detected and no model
      reply the result is the fallback's 50 and its fixed advice. */
  lemma ConservativeBranchOverwritten(llm: LlmReply)
    requires !llm.success
    ensures SelectScore({}, llm) == Analysis(50, HeuristicFeedback(FormalAdvice), false)
    ensures SelectScore({}, llm).score != 40
  {
  }
}

=== FILE: gemini_attire.dfy ===
/** The Gemini dressing service: cleaning the model's reply of markdown
    fences, filling in the fields the reply leaves out, the fixed answers for
    an unreadable reply or a failed call, and the input checks of the
    /analyze-dressing endpoint. The model call, the image decoder and
    json.loads are parameters. */
module GeminiAttire {
  import opened Values
  import opened Text

  const JsonFence := "```json"
  const Fence := "```"

  /** The cleaning of lines 99-108: strip, drop a leading "```json", then a
      leading "```", then a trailing "```", then strip again. All three
      tests are case-sensitive. */
  function StripFences(raw: string): (r: string)
    ensures Trimmed(r)
    ensures |r| <= |raw|
  {
    var t := Strip(raw);
    var t1 := if StartsWith(t, JsonFence) then t[7..] else t;
    var t2 := if StartsWith(t1, Fence) then t1[3..] else t1;
    var t3 := if EndsWith(t2, Fence) then t2[..|t2| - 3] else t2;
    Strip(t3)
  }

  /** A reply that neither starts nor ends with a fence once stripped is
      only stripped. */
  lemma UnfencedOnlyStripped(raw: string)
    requires !StartsWith(Strip(raw), Fence) && !EndsWith(Strip(raw), Fence)
    ensures StripFences(raw) == Strip(raw)
  {
    var t := Strip(raw);
    assert !StartsWith(t, JsonFence) by {
      JsonOpensWithFence(t);
    }
    assert Strip(t) == t by {
      StripOfTrimmed(t);
    }
  }

  /** A text opening with "```json" opens with "```". */
  lemma JsonOpensWithFence(t: string)
    ensures StartsWith(t, JsonFence) ==> StartsWith(t, Fence)
  {
    if StartsWith(t, JsonFence) {
      PrefixOfPrefix(t, JsonFence, Fence);
    }
  }

  lemma PrefixOfPrefix(s: string, p: string, q: string)
    requires StartsWith(s, p) && StartsWith(p, q)
    ensures StartsWith(s, q)
  {
    assert s[..|q|] == s[..|p|][..|q|];
  }

  /** A JSON body wrapped in a "```json" block, with surrounding whitespace,
      comes back exactly. */
  lemma JsonBlockRoundTrip(pad: string, body: string, pad': string)
    requires AllSpace(pad) && AllSpace(pad') && Trimmed(body)
    ensures StripFences(pad + "```json\n" + body + "\n```" + pad') == body
  {
    var t1 := "\n" + body + "\n```";
    var raw := pad + "```json\n" + body + "\n```" + pad';
    assert "```json\n" == JsonFence + "\n";
    PaddedBlockStripped(pad, JsonFence, body, pad');
    OpenedBy(JsonFence, t1);
    FenceTail(body);
    AfterJsonFence(raw, t1);
  }

  /** A plain "```" block comes back exactly too. */
  lemma PlainBlockRoundTrip(pad: string, body: string, pad': string)
    requires AllSpace(pad) && AllSpace(pad') && Trimmed(body)
    ensures StripFences(pad + "```\n" + body + "\n```" + pad') == body
  {
    var t1 := "\n" + body + "\n```";
    var raw := pad + "```\n" + body + "\n```" + pad';
    assert "```\n" == Fence + "\n";
    PaddedBlockStripped(pad, Fence, body, pad');
    OpenedBy(Fence, t1);
    PlainOpeningIsNotJson(t1);
    FenceTail(body);
    AfterPlainFence(raw, t1);
  }

  /** The whitespace around a fenced block is what the first strip drops. */
  lemma PaddedBlockStripped(pad: string, open: string, body: string, pad': string)
    requires AllSpace(pad) && AllSpace(pad') && open != [] && open[0] == '`'
    ensures Strip(pad + (open + "\n") + body + "\n```" + pad') == open + ("\n" + body + "\n```")
  {
    var t1 := "\n" + body + "\n```";
    var block := open + t1;
    assert pad + (open + "\n") + body + "\n```" + pad' == pad + block + pad' by {
      Regroup(pad, open, "\n", body, "\n```", pad');
    }
    assert block[|block| - 1] == '`' by {
      assert block[|block| - 1] == t1[|t1| - 1];
    }
    BlockStripped(pad, block, pad');
  }

  lemma PlainOpeningIsNotJson(t1: string)
    requires t1 != [] && t1[0] == '\n'
    ensures !StartsWith(Fence + t1, JsonFence)
  {
    assert (Fence + t1)[3] == '\n' && JsonFence[3] == 'j';
  }

  lemma OpenedBy(open: string, t1: string)
    ensures StartsWith(open + t1, open) && (open + t1)[|open|..] == t1
  {
    assert (open + t1)[..|open|] == open;
  }

  lemma Regroup(a: string, f: string, nl: string, body: string, close: string, b: string)
    ensures a + (f + nl) + body + close + b == a + (f + (nl + body + close)) + b
  {
  }

  /** A block opening and closing with a backquote survives the first strip. */
  lemma BlockStripped(pad: string, block: string, pad': string)
    requires AllSpace(pad) && AllSpace(pad')
    requires |block| > 0 && block[0] == '`' && block[|block| - 1] == '`'
    ensures Strip(pad + block + pad') == block
  {
    StripPadding(pad, block, pad');
  }

  /** The steps after a leading "```json" is removed. */
  lemma AfterJsonFence(raw: string, t1: string)
    requires StartsWith(Strip(raw), JsonFence) && Strip(raw)[7..] == t1
    requires !StartsWith(t1, Fence) && EndsWith(t1, Fence)
    ensures StripFences(raw) == Strip(t1[..|t1| - 3])
  {
  }

  /** The steps after a leading "```" (not "```json") is removed. */
  lemma AfterPlainFence(raw: string, t1: string)
    requires !StartsWith(Strip(raw), JsonFence)
    requires StartsWith(Strip(raw), Fence) && Strip(raw)[3..] == t1
    requires !StartsWith(t1, Fence) && EndsWith(t1, Fence)
    ensures StripFences(raw) == Strip(t1[..|t1| - 3])
  {
  }

  /** What is left after the opening fence of a block is removed. */
  lemma FenceTail(body: string)
    requires Trimmed(body)
    ensures var t1 := "\n" + body + "\n```";
            !StartsWith(t1, Fence) && EndsWith(t1, Fence)
            && Strip(t1[..|t1| - 3]) == body
  {
    var t1 := "\n" + body + "\n```";
    assert !StartsWith(t1, Fence) by {
      assert t1[0] == '\n';
      if |t1| >= 3 {
        assert t1[..3][0] == '\n';
      }
    }
    assert EndsWith(t1, Fence) by {
      assert t1[|t1| - 3..] == "```";
    }
    assert Strip(t1[..|t1| - 3]) == body by {
      assert t1[..|t1| - 3] == "\n" + body + "\n";
      assert AllSpace("\n");
      StripPadding("\n", body, "\n");
    }
  }

  /** What the model call produced: its reply text, or the message of the
      exception it raised. */
  datatype ModelCall = Replied(text: string) | Raised(message: string)

  /** The record analyze_dressing_with_gemini returns (its timestamp is not
      modelled). A failed analysis always scores 50 and lists no items. */
  datatype AnalysisResult =
    | Analysed(score: Json, formality: Json, color: Json, grooming: Json, impression: Json,
               feedback: Json, suggestions: Json, detected: Json, userId: string)
    | Failed(feedback': string, suggestions': seq<string>, error: string)
  {
    predicate Success()
    {
      Analysed?
    }

    /** The score field: the reply's value (or its default), 50 on failure. */
    function Score(): Json
    {
      if Analysed? then score else JInt(50)
    }
  }

  const DefaultScore := JInt(50)
  const DefaultSubScore := JInt(0)
  const DefaultFeedback := JStr("Analysis complete.")

  const ParseErrorFeedback :=
    "Unable to analyze image properly. Please ensure clear visibility of your attire."
  const ParseErrorSuggestions := ["Try taking a clearer photo", "Ensure good lighting", "Show upper body clearly"]
  const ParseError := "Response parsing error"

  const UnavailableFeedback := "Analysis temporarily unavailable. Default neutral score applied."
  const UnavailableSuggestions :=
    ["Wear formal business attire", "Choose professional colors", "Ensure clothing is neat and pressed"]

  /** Python's type name of a parsed value, as it appears in an
      AttributeError message. */
  function TypeName(v: Json): string
  {
    match v
    case JNull => "NoneType"
    case JBool(_) => "bool"
    case JInt(_) => "int"
    case JStr(_) => "str"
    case JList(_) => "list"
    case JObj(_) => "dict"
  }

  /** The record read from a parsed JSON object, each missing field replaced
      by its default. */
  function FillDefaults(fields: map<string, Json>, userId: string): (r: AnalysisResult)
    ensures r.Analysed? && r.userId == userId
    ensures "score" in fields ==> r.score == fields["score"]
    ensures "score" !in fields ==> r.score == DefaultScore
    ensures "formality_score" in fields ==> r.formality == fields["formality_score"]
    ensures "formality_score" !in fields ==> r.formality == DefaultSubScore
    ensures "color_score" in fields ==> r.color == fields["color_score"]
    ensures "color_score" !in fields ==> r.color == DefaultSubScore
    ensures "grooming_score" in fields ==> r.grooming == fields["grooming_score"]
    ensures "grooming_score" !in fields ==> r.grooming == DefaultSubScore
    ensures "impression_score" in fields ==> r.impression == fields["impression_score"]
    ensures "impression_score" !in fields ==> r.impression == DefaultSubScore
    ensures "feedback" in fields ==> r.feedback == fields["feedback"]
    ensures "feedback" !in fields ==> r.feedback == DefaultFeedback
    ensures "suggestions" in fields ==> r.suggestions == fields["suggestions"]
    ensures "suggestions" !in fields ==> r.suggestions == JList([])
    ensures "detected_items" in fields ==> r.detected == fields["detected_items"]
    ensures "detected_items" !in fields ==> r.detected == JList([])
  {
    Analysed(
      Get(fields, "score", DefaultScore),
      Get(fields, "formality_score", DefaultSubScore),
      Get(fields, "color_score", DefaultSubScore),
      Get(fields, "grooming_score", DefaultSubScore),
      Get(fields, "impression_score", DefaultSubScore),
      Get(fields, "feedback", DefaultFeedback),
      Get(fields, "suggestions", JList([])),
      Get(fields, "detected_items", JList([])),
      userId)
  }

  /** analyze_dressing_with_gemini after the model call (lines 99-149). */
  function Analyse(call: ModelCall, parse: string -> Option<Json>, userId: string): (r: AnalysisResult)
    ensures r.Success() <==> call.Replied? && parse(StripFences(call.text)).Some?
                             && parse(StripFences(call.text)).value.JObj?
    ensures !r.Success() ==> r.Score() == JInt(50)
    ensures call.Raised? ==> r == Failed(UnavailableFeedback, UnavailableSuggestions, call.message)
    ensures call.Replied? && parse(StripFences(call.text)).None? ==>
              r == Failed(ParseErrorFeedback, ParseErrorSuggestions, ParseError)
    ensures call.Replied? && parse(StripFences(call.text)).Some? && !parse(StripFences(call.text)).value.JObj? ==>
              r == Failed(UnavailableFeedback, UnavailableSuggestions,
                          "'" + TypeName(parse(StripFences(call.text)).value) + "' object has no attribute 'get'")
  {
    match call
    case Raised(message) => Failed(UnavailableFeedback, UnavailableSuggestions, message)
    case Replied(text) =>
      match parse(StripFences(text))
      case None => Failed(ParseErrorFeedback, ParseErrorSuggestions, ParseError)
      case Some(JObj(fields)) => FillDefaults(fields, userId)
      case Some(v) =>
        Failed(UnavailableFeedback, UnavailableSuggestions, "'" + TypeName(v) + "' object has no attribute 'get'")
  }

  /** An empty JSON object yields every default. */
  lemma EmptyObjectDefaults(call: ModelCall, parse: string -> Option<Json>, userId: string)
    requires call.Replied? && parse(StripFences(call.text)) == Some(JObj(map[]))
    ensures Analyse(call, parse, userId) ==
            Analysed(JInt(50), JInt(0), JInt(0), JInt(0), JInt(0), JStr("Analysis complete."),
                     JList([]), JList([]), userId)
  {
    assert Analyse(call, parse, userId) == FillDefaults(map[], userId);
  }

  /** A reply that carries every field keeps every value it carries, even a
      null one: the defaults only fill absent keys. */
  lemma PresentFieldsKept(fields: map<string, Json>, userId: string)
    requires "score" in fields && "formality_score" in fields && "color_score" in fields
    requires "grooming_score" in fields && "impression_score" in fields && "feedback" in fields
    requires "suggestions" in fields && "detected_items" in fields
    ensures FillDefaults(fields, userId) ==
            Analysed(fields["score"], fields["formality_score"], fields["color_score"],
                     fields["grooming_score"], fields["impression_score"], fields["feedback"],
                     fields["suggestions"], fields["detected_items"], userId)
  {
  }

  /** A reply that carries only a score keeps it and takes every other
      default, the sub-scores 0 among them. */
  lemma ScoreOnlyReply(fields: map<string, Json>, userId: string)
    requires fields == map["score" := JInt(80)]
    ensures FillDefaults(fields, userId) ==
            Analysed(JInt(80), JInt(0), JInt(0), JInt(0), JInt(0), JStr("Analysis complete."),
                     JList([]), JList([]), userId)
  {
  }

  // ---------------------------------------------------------------------
  // The /analyze-dressing endpoint

  /** The uploaded image part: its file name and whether PIL can open it. */
  datatype ImagePart = ImagePart(filename: string, decodes: bool)

  datatype DressingRequest = DressingRequest(image: Option<ImagePart>, userId: Option<string>)

  /** The endpoint's JSON body: a rejected request (score 0), the fixed
      answer without an API key (score 50), or the analysis. */
  datatype DressingBody =
    | Rejected(error: string)
    | Unconfigured
    | Result(analysis: AnalysisResult)
  {
    function Score(): Json
    {
      match this
      case Rejected(_) => JInt(0)
      case Unconfigured => JInt(50)
      case Result(a) => a.Score()
    }
  }

  datatype DressingResponse = DressingResponse(status: int, body: DressingBody)

  const UnconfiguredFeedback := "Service temporarily unavailable. Please configure GEMINI_API_KEY."
  const UnconfiguredSuggestions := ["Wear formal business attire", "Choose professional colors"]
  const UnconfiguredError := "API key not configured"

  /** analyze_dressing (lines 163-214): the image part, its file name, the
      decoding and the API key are checked in that order. */
  function AnalyzeDressing(req: DressingRequest, apiKey: Option<string>, call: ModelCall,
                           parse: string -> Option<Json>): (r: DressingResponse)
    ensures req.image.None? ==> r == DressingResponse(400, Rejected("No image file provided"))
    ensures req.image.Some? && req.image.value.filename == "" ==>
              r == DressingResponse(400, Rejected("Empty filename"))
    ensures req.image.Some? && req.image.value.filename != "" && !req.image.value.decodes ==>
              r == DressingResponse(400, Rejected("Invalid image file"))
    ensures r.status == 400 <==> req.image.None? || req.image.value.filename == "" || !req.image.value.decodes
    ensures r.status != 400 ==> r.status == 200
    ensures r.status == 400 ==> r.body.Score() == JInt(0)
    ensures r.status == 200 && (apiKey.None? || apiKey.value == "") ==> r.body == Unconfigured
    ensures r.status == 200 && apiKey.Some? && apiKey.value != "" ==>
              r.body == Result(Analyse(call, parse, req.userId.GetOr("demoUser")))
  {
    match req.image
    case None => DressingResponse(400, Rejected("No image file provided"))
    case Some(part) =>
      if part.filename == "" then DressingResponse(400, Rejected("Empty filename"))
      else if !part.decodes then DressingResponse(400, Rejected("Invalid image file"))
      else if apiKey.None? || apiKey.value == "" then DressingResponse(200, Unconfigured)
      else DressingResponse(200, Result(Analyse(call, parse, req.userId.GetOr("demoUser"))))
  }
}

=== FILE: interview_evaluate.dfy ===
/** The /api/interview/evaluate endpoint of the mock-interview service: the
    request checks, the question count and the completion override, the
    short-circuit for pasted AI answers, and the reading of the evaluator's
    reply. The evaluator's reply texts, the pasted-answer patterns, json.loads,
    int() on a string and str() on a list or object are parameters. */
module InterviewEvaluate {
  import opened Values
  import opened Text
  import opened InterviewText

  /** One chat message: a JSON object. */
  type Message = map<string, Json>

  function Role(m: Message): Json
  {
    Get(m, "role", JNull)
  }

  function Content(m: Message): Json
  {
    Get(m, "content", JStr(""))
  }

  /** The markers of a feedback message rather than a question. */
  const FeedbackMarkers: seq<string> := ["score:", "positive:", "improvement:", "interview is now complete"]

  /** is_ai_question (lines 136-144). None stands for the AttributeError
      that strip() raises when an assistant message's content is not a
      string. The keywords are plain ASCII, and the only characters outside
      ASCII whose lower-case form holds an ASCII letter (KELVIN SIGN and the
      dotted capital I) cannot complete one, so ASCII lower-casing decides
      the test exactly as str.lower() does. */
  function AiQuestion(m: Message): (r: Option<bool>)
    ensures r.None? <==> Role(m) == JStr("assistant") && !Content(m).JStr?
    ensures r == Some(true) <==>
              && Role(m) == JStr("assistant")
              && Content(m).JStr?
              && Strip(Content(m).s) != ""
              && forall k :: k in FeedbackMarkers ==> !Contains(Lower(Strip(Content(m).s)), k)
  {
    if Role(m) != JStr("assistant") then Some(false)
    else
      match Content(m)
      case JStr(c) =>
        var content := Strip(c);
        if exists k :: k in FeedbackMarkers && Contains(Lower(content), k) then Some(false)
        else if content != "" then Some(true)
        else Some(false)
      case _ => None
  }

  /** is_ai_question applied to every message. */
  function Verdicts(msgs: seq<Message>): (v: seq<Option<bool>>)
    ensures |v| == |msgs|
    ensures forall i :: 0 <= i < |msgs| ==> v[i] == AiQuestion(msgs[i])
  {
    seq(|msgs|, i requires 0 <= i < |msgs| => AiQuestion(msgs[i]))
  }

  /** The positions holding Some(true). */
  function TrueIndices(v: seq<Option<bool>>): set<int>
  {
    set i | 0 <= i < |v| && v[i] == Some(true)
  }

  /** The sum of questions_asked (line 224) over the verdicts: None as soon
      as one of them stands for an exception. */
  function CountTrue(v: seq<Option<bool>>): (r: Option<nat>)
    ensures r.None? <==> exists i :: 0 <= i < |v| && v[i].None?
    ensures r.Some? ==> r.value == |TrueIndices(v)|
    decreases |v|
  {
    if v == [] then
      assert TrueIndices(v) == {};
      Some(0)
    else
      var n := |v| - 1;
      var init := v[..n];
      assert forall i :: 0 <= i < n ==> init[i] == v[i];
      match CountTrue(init)
      case None => None
      case Some(c) =>
        match v[n]
        case None => None
        case Some(b) =>
          TrueIndicesSnoc(v);
          Some(c + if b then 1 else 0)
  }

  lemma TrueIndicesSnoc(v: seq<Option<bool>>)
    requires v != []
    ensures var n := |v| - 1;
            |TrueIndices(v)| == |TrueIndices(v[..n])| + (if v[n] == Some(true) then 1 else 0)
  {
    var n := |v| - 1;
    var init := v[..n];
    assert forall i :: 0 <= i < n ==> init[i] == v[i];
    var before := TrueIndices(init);
    if v[n] == Some(true) {
      assert TrueIndices(v) == before + {n};
      assert n !in before;
    } else {
      assert TrueIndices(v) == before;
    }
  }

  /** questions_asked (line 224), or None when some assistant message makes
      is_ai_question raise. */
  function CountQuestions(msgs: seq<Message>): Option<nat>
  {
    CountTrue(Verdicts(msgs))
  }

  /** The count fails exactly when some message makes is_ai_question raise,
      and otherwise is the number of messages that are questions. */
  lemma CountQuestionsSpec(msgs: seq<Message>)
    ensures CountQuestions(msgs).None? <==> exists i :: 0 <= i < |msgs| && AiQuestion(msgs[i]).None?
    ensures CountQuestions(msgs).Some? ==>
              CountQuestions(msgs).value == |set i | 0 <= i < |msgs| && AiQuestion(msgs[i]) == Some(true)|
  {
    var v := Verdicts(msgs);
    assert TrueIndices(v) == set i | 0 <= i < |msgs| && AiQuestion(msgs[i]) == Some(true);
  }

  /** The index of the last message with the given role (next() over the
      reversed list), if any. */
  function LastWithRole(msgs: seq<Message>, role: string): (r: Option<nat>)
    ensures r.Some? ==> r.value < |msgs| && Role(msgs[r.value]) == JStr(role)
    ensures r.Some? ==> forall j :: r.value < j < |msgs| ==> Role(msgs[j]) != JStr(role)
    ensures r.None? ==> forall j :: 0 <= j < |msgs| ==> Role(msgs[j]) != JStr(role)
    decreases |msgs|
  {
    if msgs == [] then None
    else if Role(msgs[|msgs| - 1]) == JStr(role) then Some(|msgs| - 1)
    else
      var init := msgs[..|msgs| - 1];
      assert forall j :: 0 <= j < |init| ==> init[j] == msgs[j];
      LastWithRole(init, role)
  }

  // ---------------------------------------------------------------------
  // The request

  /** `request.get_json() or {}`: a JSON object, {} for a falsy body, and
      None for a truthy body that is not an object (its .get raises). */
  function RequestFields(body: Json): Option<map<string, Json>>
  {
    if body.JObj? then Some(body.fields)
    else if !Truthy(body) then Some(map[])
    else None
  }

  function JobPosition(f: map<string, Json>): Json
  {
    Or(Get(f, "job_position", JNull), Get(f, "position", JNull))
  }

  /** The condition of line 214. */
  predicate MissingRequired(f: map<string, Json>)
  {
    || !Truthy(JobPosition(f))
    || !Truthy(Get(f, "difficulty", JNull))
    || !Truthy(Get(f, "messages", JList([])))
  }

  /** The messages as a list of objects; None when the value is not a list
      or holds a non-object, where the scans of lines 217-224 raise. */
  function MessageList(v: Json): (r: Option<seq<Message>>)
    ensures r.Some? <==> v.JList? && forall i :: 0 <= i < |v.items| ==> v.items[i].JObj?
    ensures r.Some? ==> |r.value| == |v.items| && forall i :: 0 <= i < |v.items| ==> r.value[i] == v.items[i].fields
  {
    if v.JList? then ObjectsOf(v.items) else None
  }

  function ObjectsOf(items: seq<Json>): (r: Option<seq<Message>>)
    ensures r.Some? <==> forall i :: 0 <= i < |items| ==> items[i].JObj?
    ensures r.Some? ==> |r.value| == |items| && forall i :: 0 <= i < |items| ==> r.value[i] == items[i].fields
    decreases |items|
  {
    if items == [] then Some([])
    else if !items[0].JObj? then None
    else
      match ObjectsOf(items[1..])
      case None =>
        assert exists i :: 0 <= i < |items[1..]| && !items[1..][i].JObj?;
        None
      case Some(rest) => Some([items[0].fields] + rest)
  }

  /** `questions_asked >= num_questions`: an int or a bool compares, any
      other value raises TypeError. */
  function ReachedLimit(count: nat, numQuestions: Json): Option<bool>
  {
    match numQuestions
    case JInt(n) => Some(count >= n)
    case JBool(b) => Some(count >= if b then 1 else 0)
    case _ => None
  }

  /** The endpoint's answer. InternalError is the caught exception of line
      343-346 and Unhandled an exception raised outside that try, which the
      web framework answers with its own 500 page. */
  datatype EvalResponse =
    | BadRequest(error: string)
    | ServerError(error: string, preview: Option<string>)
    | InternalError
    | Unhandled
    | Evaluation(score: Json, positive: Json, improvement: Json, nextQuestion: Json)
  {
    function Status(): int
    {
      match this
      case BadRequest(_) => 400
      case Evaluation(_, _, _, _) => 200
      case _ => 500
    }
  }

  const MissingFields := "Missing required fields."
  const NeedBoth := "Need at least one AI question and one user answer."
  const Completion :=
    "The interview is now complete. " + "Thank you for participating! You can review your feedback above."
  const PastedImprovement :=
    "It appears your answer includes AI-generated content. Please respond in your own words so we can evaluate your thinking."
  const ReanswerPrefix := "Please re-answer in your own words: "
  const EmptyReply := "AI did not return valid JSON evaluation."
  const NoJson := "AI did not return JSON."
  const ParseFailed := "JSON parsing failed."

  /** The outcome of lines 206-229: a response that ends the request, or
      what the rest of the handler works with. */
  datatype Checked =
    | Stop(response: EvalResponse)
    | Go(jobPosition: Json, msgs: seq<Message>, question: Json, answer: Json, over: bool)

  /** Lines 206-229, in order: the body, the required fields, the last AI
      and user messages, the question count and the limit test. */
  function Check(body: Json): (c: Checked)
    ensures c.Stop? ==> c.response.BadRequest? || c.response.Unhandled?
    ensures c.Stop? && c.response.BadRequest? ==> c.response.error == MissingFields || c.response.error == NeedBoth
  {
    match RequestFields(body)
    case None => Stop(Unhandled)
    case Some(f) =>
      if MissingRequired(f) then Stop(BadRequest(MissingFields))
      else
        match MessageList(Get(f, "messages", JList([])))
        case None => Stop(Unhandled)
        case Some(msgs) =>
          match (LastWithRole(msgs, "assistant"), LastWithRole(msgs, "user"))
          case (Some(ai), Some(user)) =>
            (match CountQuestions(msgs)
             case None => Stop(Unhandled)
             case Some(count) =>
               match ReachedLimit(count, Get(f, "num_questions", JInt(5)))
               case None => Stop(Unhandled)
               case Some(over) =>
                 Go(JobPosition(f), msgs, Get(msgs[ai], "content", JNull),
                    Or(Content(msgs[user]), JStr("")), over))
          case _ => Stop(BadRequest(NeedBoth))
  }

  /** The request checks happen in the order of lines 206-229: the body,
      the required fields, the message list, the last question and answer,
      then the count. */
  lemma CheckOrder(body: Json)
    ensures RequestFields(body).None? ==> Check(body) == Stop(Unhandled)
    ensures RequestFields(body).Some? && MissingRequired(RequestFields(body).value) ==>
              Check(body) == Stop(BadRequest(MissingFields))
    ensures RequestFields(body).Some? && !MissingRequired(RequestFields(body).value) ==>
              var msgs := MessageList(Get(RequestFields(body).value, "messages", JList([])));
              && (msgs.None? ==> Check(body) == Stop(Unhandled))
              && (msgs.Some? && (LastWithRole(msgs.value, "assistant").None? || LastWithRole(msgs.value, "user").None?) ==>
                    Check(body) == Stop(BadRequest(NeedBoth)))
              && (msgs.Some? && CountQuestions(msgs.value).None? &&
                  LastWithRole(msgs.value, "assistant").Some? && LastWithRole(msgs.value, "user").Some? ==>
                    Check(body) == Stop(Unhandled))
  {
    match RequestFields(body)
    case None =>
    case Some(f) =>
      if !MissingRequired(f) {
        match MessageList(Get(f, "messages", JList([])))
        case None =>
        case Some(msgs) =>
      }
  }

  /** A request that passes the checks has a truthy position and both kinds
      of message, its questions can be counted, and its limit test is the
      count against num_questions. */
  lemma CheckPasses(body: Json)
    requires Check(body).Go?
    ensures RequestFields(body).Some? && !MissingRequired(RequestFields(body).value)
    ensures var c := Check(body);
            && Truthy(c.jobPosition)
            && c.msgs == MessageList(Get(RequestFields(body).value, "messages", JList([]))).value
            && CountQuestions(c.msgs).Some?
            && LastWithRole(c.msgs, "assistant").Some? && LastWithRole(c.msgs, "user").Some?
            && c.over == (CountQuestions(c.msgs).value >= NumQuestions(RequestFields(body).value))
  {
    var f := RequestFields(body).value;
    var ml := MessageList(Get(f, "messages", JList([])));
    assert !MissingRequired(f) && ml.Some?;
    var msgs := ml.value;
    var ai := LastWithRole(msgs, "assistant");
    var user := LastWithRole(msgs, "user");
    assert ai.Some? && user.Some?;
    var count := CountQuestions(msgs);
    assert count.Some?;
    var over := ReachedLimit(count.value, Get(f, "num_questions", JInt(5)));
    assert over.Some?;
    LimitIsNumQuestions(count.value, f);
    assert Check(body) == Go(JobPosition(f), msgs, Get(msgs[ai.value], "content", JNull),
                             Or(Content(msgs[user.value]), JStr("")), over.value);
  }

  lemma LimitIsNumQuestions(count: nat, f: map<string, Json>)
    ensures ReachedLimit(count, Get(f, "num_questions", JInt(5))).Some? ==>
              ReachedLimit(count, Get(f, "num_questions", JInt(5))).value == (count >= NumQuestions(f))
  {
  }

  /** num_questions as a number, when it is one (5 when absent); any other
      value makes the limit test raise before it is used. */
  function NumQuestions(f: map<string, Json>): int
  {
    match Get(f, "num_questions", JInt(5))
    case JInt(n) => n
    case JBool(b) => if b then 1 else 0
    case _ => 0
  }

  /** Python's str() of a JSON value; lists and objects use the given
      rendering. */
  function PyStr(v: Json, repr: Json -> string): string
  {
    match v
    case JNull => "None"
    case JBool(b) => if b then "True" else "False"
    case JInt(i) => IntText(i)
    case JStr(s) => s
    case _ => repr(v)
  }

  /** int() of a parsed score: ints and bools convert, strings go through
      the given parser, anything else raises. */
  function IntOf(v: Json, intOf: string -> Option<int>): Option<int>
  {
    match v
    case JInt(i) => Some(i)
    case JBool(b) => Some(if b then 1 else 0)
    case JStr(s) => intOf(s)
    case _ => None
  }

  /** The evaluator's reply, stripped, with one retry when it comes back
      empty (lines 282-290). `reply` and `retry` are the texts of the two
      calls, None when a call raised. */
  function ReplyText(reply: Option<string>, retry: Option<string>): (raw: string)
    ensures Trimmed(raw)
    ensures raw == "" <==> Strip(reply.GetOr("")) == "" && Strip(retry.GetOr("")) == ""
    ensures Strip(reply.GetOr("")) != "" ==> raw == Strip(reply.GetOr(""))
  {
    var first := Strip(reply.GetOr(""));
    if first != "" then first else Strip(retry.GetOr(""))
  }

  /** The repaired JSON block of a reply (lines 299-310), if it has one. */
  function Candidate(raw: string): (c: Option<string>)
    ensures c.Some? <==> ExtractBlock(CleanReply(raw)).Some?
  {
    match ExtractBlock(CleanReply(raw))
    case None => None
    case Some(block) => Some(RepairBraces(block))
  }

  /** `data.get(first) or data.get(second)` with "" for a missing key:
      the first value unless it is falsy, then the second. */
  function Either(p: map<string, Json>, first: string, second: string): (v: Json)
    ensures Truthy(Get(p, first, JStr(""))) ==> v == p[first]
    ensures !Truthy(Get(p, first, JStr(""))) ==> v == Get(p, second, JStr(""))
  {
    Or(Get(p, first, JStr("")), Get(p, second, JStr("")))
  }

  /** The question asked when the evaluation proposes none. */
  function FallbackQuestion(jobPosition: Json, repr: Json -> string): string
  {
    "What else can you tell me about your experience with " + PyStr(jobPosition, repr) + "?"
  }

  /** Lines 318-336: the fields of a parsed evaluation, each falling back to
      its alternative key when missing or falsy; a score that int() rejects
      raises. */
  function ReadObject(p: map<string, Json>, jobPosition: Json, intOf: string -> Option<int>,
                      repr: Json -> string): (r: EvalResponse)
    ensures r.Evaluation? || r.InternalError?
    ensures r.Evaluation? <==> IntOf(Get(p, "score", JInt(0)), intOf).Some?
    ensures r.Evaluation? ==>
              && r.score == JInt(IntOf(Get(p, "score", JInt(0)), intOf).value)
              && r.positive == Either(p, "positive_feedback", "positives")
              && r.improvement == Either(p, "improvement", "areas_for_improvement")
              && Truthy(r.nextQuestion)
              && (Truthy(Either(p, "next_question", "nextQuestion")) ==>
                    r.nextQuestion == Either(p, "next_question", "nextQuestion"))
              && (!Truthy(Either(p, "next_question", "nextQuestion")) ==>
                    r.nextQuestion == JStr(FallbackQuestion(jobPosition, repr)))
  {
    match IntOf(Get(p, "score", JInt(0)), intOf)
    case None => InternalError
    case Some(score) =>
      Evaluation(
        JInt(score),
        Either(p, "positive_feedback", "positives"),
        Either(p, "improvement", "areas_for_improvement"),
        Or(Either(p, "next_question", "nextQuestion"), JStr(FallbackQuestion(jobPosition, repr))))
  }

  /** Lines 299-346: a non-empty reply `raw` whose repaired JSON block is
      `candidate`, parsed and read. */
  function ReadReply(raw: string, candidate: Option<string>, jobPosition: Json,
                     parse: string -> Option<Json>, intOf: string -> Option<int>,
                     repr: Json -> string): (r: EvalResponse)
    ensures r.Status() == 200 || r.Status() == 500
    ensures candidate.None? ==> r == ServerError(NoJson, Some(Take(raw, 800)))
    ensures candidate.Some? && parse(candidate.value).None? ==>
              r == ServerError(ParseFailed, Some(Take(raw, 800)))
    ensures candidate.Some? && parse(candidate.value).Some? ==>
              var v := parse(candidate.value).value;
              && (!v.JObj? ==> r == InternalError)
              && (v.JObj? ==> r == ReadObject(v.fields, jobPosition, intOf, repr))
  {
    match candidate
    case None => ServerError(NoJson, Some(Take(raw, 800)))
    case Some(c) =>
      match parse(c)
      case None => ServerError(ParseFailed, Some(Take(raw, 800)))
      case Some(v) => if v.JObj? then ReadObject(v.fields, jobPosition, intOf, repr) else InternalError
  }

  /** Lines 282-346: the evaluator's reply, retried once when empty, then
      cleaned, cut to its JSON block, repaired, parsed and read. */
  function ReadEvaluation(jobPosition: Json, reply: Option<string>, retry: Option<string>,
                          parse: string -> Option<Json>, intOf: string -> Option<int>,
                          repr: Json -> string): (r: EvalResponse)
    ensures r.Status() == 200 || r.Status() == 500
    ensures ReplyText(reply, retry) == "" ==> r == ServerError(EmptyReply, None)
    ensures ReplyText(reply, retry) != "" ==>
              r == ReadReply(ReplyText(reply, retry), Candidate(ReplyText(reply, retry)), jobPosition, parse, intOf, repr)
  {
    var raw := ReplyText(reply, retry);
    if raw == "" then ServerError(EmptyReply, None)
    else ReadReply(raw, Candidate(raw), jobPosition, parse, intOf, repr)
  }

  /** The answer to a pasted AI answer (lines 235-240). */
  function PastedResponse(question: Json, repr: Json -> string): EvalResponse
  {
    Evaluation(JInt(0), JStr(""), JStr(PastedImprovement), JStr(ReanswerPrefix + PyStr(question, repr)))
  }

  /** Lines 231-346, once the request checks have passed: the pasted-answer
      short-circuit, the evaluator's reply and the completion override. */
  function Respond(c: Checked, pasted: string -> bool, reply: Option<string>, retry: Option<string>,
                   parse: string -> Option<Json>, intOf: string -> Option<int>,
                   repr: Json -> string): (r: EvalResponse)
    ensures c.Stop? ==> r == c.response
    ensures c.Go? ==> r.Status() == 200 || r.Status() == 500
    ensures c.Go? && !c.answer.JStr? ==> r == Unhandled
    ensures c.Go? && c.answer.JStr? && pasted(c.answer.s) ==> r == PastedResponse(c.question, repr)
    ensures c.Go? && c.answer.JStr? && !pasted(c.answer.s) ==>
              var e := ReadEvaluation(c.jobPosition, reply, retry, parse, intOf, repr);
              && (r.Evaluation? <==> e.Evaluation?)
              && (!e.Evaluation? ==> r == e)
              && (e.Evaluation? ==> r.score == e.score && r.positive == e.positive && r.improvement == e.improvement)
              && (e.Evaluation? && !c.over ==> r.nextQuestion == e.nextQuestion)
    ensures c.Go? && c.over && r.Evaluation? ==>
              r.nextQuestion == JStr(Completion) || r == PastedResponse(c.question, repr)
  {
    match c
    case Stop(response) => response
    case Go(job, msgs, question, answer, over) =>
      if !answer.JStr? then Unhandled
      else if pasted(answer.s) then PastedResponse(question, repr)
      else
        var e := ReadEvaluation(job, reply, retry, parse, intOf, repr);
        if e.Evaluation? && over then e.(nextQuestion := JStr(Completion)) else e
  }

  /** evaluate (lines 201-346). `pasted` says whether one of the patterns
      of line 231 occurs in the answer. Only the request checks answer 400. */
  function Evaluate(body: Json, pasted: string -> bool, reply: Option<string>, retry: Option<string>,
                    parse: string -> Option<Json>, intOf: string -> Option<int>,
                    repr: Json -> string): (r: EvalResponse)
    ensures r.Status() == 400 <==> Check(body).Stop? && Check(body).response.BadRequest?
    ensures r.Status() == 400 ==> r.error == MissingFields || r.error == NeedBoth
  {
    Respond(Check(body), pasted, reply, retry, parse, intOf, repr)
  }

  /** A pasted answer gets the re-answer prompt and a zero score even after
      the last question: the completion message never reaches it. */
  lemma PastedBeatsCompletion(c: Checked, pasted: string -> bool, reply: Option<string>, retry: Option<string>,
                              parse: string -> Option<Json>, intOf: string -> Option<int>, repr: Json -> string)
    requires c.Go? && c.over
    requires c.answer.JStr? && pasted(c.answer.s)
    ensures var r := Respond(c, pasted, reply, retry, parse, intOf, repr);
            r.Evaluation? && r.score == JInt(0) && r.nextQuestion != JStr(Completion)
  {
    var q := ReanswerPrefix + PyStr(c.question, repr);
    assert q[0] == 'P';
    assert Completion[0] == 'T';
  }
}

=== FILE: interview_text.dfy ===
/** The text handling of the mock-interview service: removing a markdown
    fence around a model reply, shortening the conversation history, the
    trim-from-the-end JSON repair loop, and the clean-up, block extraction
    and brace repair the evaluate endpoint applies to the evaluator's reply.
    json.loads is a parameter. */
module InterviewText {
  import opened Values
  import opened Text

  const Fence := "```"

  /** The length of a case-insensitive "json" tag at the start of s, or 0. */
  function JsonTag(s: string): (n: nat)
    ensures n == 0 || n == 4
    ensures n <= |s|
  {
    if |s| >= 4 && MatchesIgnoreCase(s[..4], "json") then 4 else 0
  }

  /** `re.sub(r"^```(?:json)?\s*", "", s, flags=re.IGNORECASE)`: at the
      start only, the fence, an optional "json" and the whitespace after it. */
  function RemoveOpeningFence(s: string): (r: string)
    ensures |r| <= |s| && EndsWith(s, r)
  {
    if StartsWith(s, Fence) then
      var j := 3 + JsonTag(s[3..]);
      LStrip(s[j..])
    else s
  }

  /** `re.sub(r"\s*```$", "", s)`: the last fence of the text (or of the text
      before a final newline, where `$` also matches) together with the
      whitespace before it. */
  function RemoveClosingFence(s: string): (r: string)
    ensures |r| <= |s|
  {
    if EndsWith(s, Fence) then RStrip(s[..|s| - 3])
    else if EndsWith(s, "```\n") then RStrip(s[..|s| - 4]) + "\n"
    else s
  }

  /** _strip_code_fence (lines 44-50): None and "" come back as they are;
      any other text loses one opening fence, one closing fence and its
      outer whitespace. */
  function StripCodeFence(text: Option<string>): (r: Option<string>)
    ensures text.None? <==> r.None?
    ensures text == Some("") ==> r == Some("")
    ensures text.Some? && text.value != "" ==> r.Some? && Trimmed(r.value) && |r.value| <= |text.value|
  {
    match text
    case None => None
    case Some(t) =>
      if t == "" then text
      else Some(Strip(RemoveClosingFence(RemoveOpeningFence(Strip(t)))))
  }

  /** A reply without a fence at either end is only stripped. */
  lemma UnfencedOnlyStripped(t: string)
    requires t != ""
    requires !StartsWith(Strip(t), Fence) && !EndsWith(Strip(t), Fence)
    ensures StripCodeFence(Some(t)) == Some(Strip(t))
  {
    var s := Strip(t);
    assert !EndsWith(s, "```\n") by {
      assert s == "" || !IsSpace(s[|s| - 1]);
      assert IsSpace("```\n"[3]);
    }
    StripOfTrimmed(s);
  }

  /** A body between an opening fence (with or without a "json" tag in any
      case) and a closing fence comes back exactly, whatever whitespace
      surrounds the fences and the body. */
  lemma FencedRoundTrip(pad: string, tag: string, ws: string, body: string, ws2: string, pad2: string)
    requires AllSpace(pad) && AllSpace(ws) && AllSpace(ws2) && AllSpace(pad2)
    requires Trimmed(body) && body != ""
    requires MatchesIgnoreCase(tag, "json") || (tag == "" && ws != "")
    ensures StripCodeFence(Some(pad + Fence + tag + ws + body + ws2 + Fence + pad2)) == Some(body)
  {
    var raw := pad + Fence + tag + ws + body + ws2 + Fence + pad2;
    var rest := body + ws2 + Fence;
    var inner := Fence + (tag + (ws + rest));
    OuterStrip(pad, tag, ws, body, ws2, pad2);
    OpeningOfBlock(tag, ws, rest);
    ClosingOfBody(body, ws2);
    StripOfTrimmed(body);
    assert raw != "";
  }

  lemma OuterStrip(pad: string, tag: string, ws: string, body: string, ws2: string, pad2: string)
    requires AllSpace(pad) && AllSpace(pad2)
    ensures Strip(pad + Fence + tag + ws + body + ws2 + Fence + pad2) ==
            Fence + (tag + (ws + (body + ws2 + Fence)))
  {
    var rest := body + ws2 + Fence;
    var inner := Fence + (tag + (ws + rest));
    Regroup(pad, Fence, tag, ws, body, ws2, pad2);
    assert Trimmed(inner) by {
      assert inner[0] == '`' && inner[|inner| - 1] == rest[|rest| - 1] == '`';
    }
    StripPadding(pad, inner, pad2);
  }

  lemma OpeningOfBlock(tag: string, ws: string, rest: string)
    requires AllSpace(ws) && rest != "" && !IsSpace(rest[0])
    requires MatchesIgnoreCase(tag, "json") || (tag == "" && ws != "")
    ensures RemoveOpeningFence(Fence + (tag + (ws + rest))) == rest
  {
    var inner := Fence + (tag + (ws + rest));
    var after := tag + (ws + rest);
    assert StartsWith(inner, Fence) && inner[3..] == after by {
      assert inner[..3] == Fence;
    }
    assert JsonTag(after) == |tag| by {
      if tag == "" {
        assert after == ws + rest && after[0] == ws[0];
      }
      TagLength(tag, ws + rest);
    }
    assert inner[3 + |tag|..] == ws + rest by {
      assert after[|tag|..] == ws + rest;
    }
    assert LStrip(ws + rest) == rest by {
      LStripPadding(ws, rest);
    }
  }

  lemma Regroup(pad: string, f: string, tag: string, ws: string, body: string, ws2: string, pad2: string)
    ensures pad + f + tag + ws + body + ws2 + f + pad2 == pad + (f + (tag + (ws + (body + ws2 + f)))) + pad2
  {
  }

  lemma TagLength(tag: string, rest: string)
    requires MatchesIgnoreCase(tag, "json") || (tag == "" && rest != "" && IsSpace(rest[0]))
    ensures JsonTag(tag + rest) == |tag|
  {
    if tag == "" {
      assert (tag + rest)[0] == rest[0];
      assert !FoldsTo(rest[0], 'j');
    } else {
      assert (tag + rest)[..4] == tag;
    }
  }

  lemma ClosingOfBody(body: string, ws2: string)
    requires Trimmed(body) && body != "" && AllSpace(ws2)
    ensures RemoveClosingFence(body + ws2 + Fence) == body
  {
    var s := body + ws2 + Fence;
    assert EndsWith(s, Fence);
    assert s[..|s| - 3] == body + ws2;
    RStripPadding(body, ws2);
  }

  // ---------------------------------------------------------------------
  // _summarize_history_2bullets

  const NoHistory := "No prior history."

  /** The summary of the conversation so far (lines 108-134). `call` is the
      model's reply text, or None when the call raised. */
  function SummarizeHistory(history: string, call: Option<string>): (r: string)
    ensures Strip(history) == "" ==> r == NoHistory
    ensures Strip(history) != "" && |history| < 150 ==> r == Take(history, 100)
    ensures Strip(history) != "" && |history| >= 150 && call.None? ==> r == history[..80] + "..."
    ensures Strip(history) != "" && |history| >= 150 && call.Some? ==>
              var summary := StripCodeFence(call).value;
              (summary == "" ==> r == NoHistory) &&
              (summary != "" && |summary| <= 100 ==> r == summary) &&
              (|summary| > 100 ==> r == summary[..97] + "...")
  {
    if Strip(history) == "" then NoHistory
    else if |history| < 150 then Take(history, 100)
    else
      match call
      case None => history[..80] + "..."
      case Some(raw) => Shorten(OrText(StripCodeFence(Some(raw)), NoHistory))
  }

  /** The cut applied to the model's summary (lines 129-131). */
  function Shorten(summary: string): string
  {
    if |summary| > 100 then summary[..97] + "..." else summary
  }

  /** A summary of at most 100 characters is kept; a longer one is cut to
      97 characters and marked with "...", 100 in all. */
  lemma ShortenKeepsOrCuts(summary: string)
    ensures |summary| <= 100 ==> Shorten(summary) == summary
    ensures |summary| > 100 ==>
              var r := Shorten(summary);
              |r| == 100 && StartsWith(summary, r[..97]) && EndsWith(r, "...")
  {
    if |summary| > 100 {
      var r := Shorten(summary);
      assert r[..97] == summary[..97];
      assert r[97..] == "...";
    }
  }

  /** Whatever the history and the model say, the summary has at most 100
      characters. */
  lemma SummaryAtMost100(history: string, call: Option<string>)
    ensures |SummarizeHistory(history, call)| <= 100
  {
    if Strip(history) != "" && |history| >= 150 && call.Some? {
      ShortenKeepsOrCuts(OrText(StripCodeFence(call), NoHistory));
    }
  }

  // ---------------------------------------------------------------------
  // _attempt_repair_json

  /** The text the repair loop starts from: the stripped input from its
      first '{' on (all of it when there is none). */
  function RepairStart(s: string): (r: string)
    ensures EndsWith(Strip(s), r)
    ensures Has(Strip(s), '{') ==> r != "" && r[0] == '{'
  {
    var t := Strip(s);
    var start := Find(t, '{');
    if start != -1 then t[start..] else t
  }

  /** _attempt_repair_json (lines 52-69), unused by the endpoints: inputs
      that are empty or shorter than minLength come back untouched; any
      other input goes through the trim-from-the-end loop from RepairStart. */
  method AttemptRepairJson(s: string, minLength: int, maxIters: int, parse: string -> Option<Json>)
    returns (obj: Option<map<string, Json>>, text: string)
    ensures s == "" || |s| < minLength ==> obj.None? && text == s
    ensures s != "" && |s| >= minLength ==>
              var b := RepairStart(s);
              && StartsWith(b, text)
              && |b| - |text| <= (if maxIters < 0 then 0 else maxIters)
              && (forall n :: |text| < n <= |b| ==> parse(b[..n]).None?)
              && (|text| < |b| ==> |text| + 1 >= minLength)
              && (obj.None? ==>
                    (parse(text).Some? && !parse(text).value.JObj?)
                    || |text| < minLength || text == "" || |b| - |text| >= maxIters)
    ensures obj.Some? ==> parse(text) == Some(JObj(obj.value)) && |text| >= minLength
  {
    if s == "" || |s| < minLength {
      return None, s;
    }
    obj, text := TrimFromEnd(RepairStart(s), minLength, maxIters, parse);
  }

  /** The loop of lines 59-69: parse, and on failure drop the last
      character, at most maxIters times and only while the text is at least
      minLength long. The result is the longest tried prefix of base; every
      longer prefix failed to parse. */
  method TrimFromEnd(base: string, minLength: int, maxIters: int, parse: string -> Option<Json>)
    returns (obj: Option<map<string, Json>>, text: string)
    ensures StartsWith(base, text)
    ensures |base| - |text| <= (if maxIters < 0 then 0 else maxIters)
    ensures forall n :: |text| < n <= |base| ==> parse(base[..n]).None?
    ensures |text| < |base| ==> |text| + 1 >= minLength
    ensures obj.Some? ==> parse(text) == Some(JObj(obj.value)) && |text| >= minLength
    ensures obj.None? ==>
              (parse(text).Some? && !parse(text).value.JObj?)
              || |text| < minLength || text == "" || |base| - |text| >= maxIters
  {
    text := base;
    var iters := 0;
    while iters < maxIters && |text| >= minLength
      invariant 0 <= iters
      invariant StartsWith(base, text)
      invariant |base| - |text| <= iters
      invariant iters <= (if maxIters < 0 then 0 else maxIters)
      invariant text == "" || |base| - |text| == iters
      invariant forall n :: |text| < n <= |base| ==> parse(base[..n]).None?
      invariant |text| < |base| ==> |text| + 1 >= minLength
      decreases maxIters - iters
    {
      match parse(text) {
        case Some(JObj(fields)) =>
          return Some(fields), text;
        case Some(_) =>
          return None, text;
        case None =>
      }
      assert base[..|text|] == text;
      text := if text == "" then "" else text[..|text| - 1];
      iters := iters + 1;
    }
    obj := None;
  }

  // ---------------------------------------------------------------------
  // The evaluator reply: fence clean-up, block extraction, brace repair

  /** Where `^```(?:json)?\s*` (IGNORECASE, MULTILINE) matches at position
      i: at a line start, the fence, an optional "json" and the whitespace
      run; the index just past the match. */
  function OpeningAt(t: string, i: nat): (m: Option<nat>)
    requires i <= |t|
    ensures m.Some? ==> i + 3 <= m.value <= |t|
  {
    if (i == 0 || t[i - 1] == '\n') && StartsWith(t[i..], Fence) then
      var j := i + 3 + JsonTag(t[i + 3..]);
      Some(j + SpaceRun(t[j..]))
    else None
  }

  /** re.sub of that pattern from position i on. */
  function DropOpenings(t: string, i: nat): (r: string)
    requires i <= |t|
    decreases |t| - i
  {
    if i == |t| then ""
    else
      match OpeningAt(t, i)
      case Some(k) => DropOpenings(t, k)
      case None => [t[i]] + DropOpenings(t, i + 1)
  }

  /** The largest q in [lo, hi] where `$` matches in MULTILINE mode: the end
      of the text or a position holding a newline. */
  function LineEndIn(t: string, lo: nat, hi: nat): (q: Option<nat>)
    requires lo <= hi <= |t|
    ensures q.Some? ==> lo <= q.value <= hi
    decreases hi - lo
  {
    if hi == |t| || t[hi] == '\n' then Some(hi)
    else if hi == lo then None
    else LineEndIn(t, lo, hi - 1)
  }

  /** Where `\s*```\s*$` (MULTILINE) matches at position i: the whitespace
      run, the fence, and the longest whitespace run after it that ends at a
      line end; the index just past the match. */
  function ClosingAt(t: string, i: nat): (m: Option<nat>)
    requires i <= |t|
    ensures m.Some? ==> i + 3 <= m.value <= |t|
  {
    var f := i + SpaceRun(t[i..]);
    if StartsWith(t[f..], Fence) then
      var g := f + 3;
      LineEndIn(t, g, g + SpaceRun(t[g..]))
    else None
  }

  function DropClosings(t: string, i: nat): (r: string)
    requires i <= |t|
    decreases |t| - i
  {
    if i == |t| then ""
    else
      match ClosingAt(t, i)
      case Some(k) => DropClosings(t, k)
      case None => [t[i]] + DropClosings(t, i + 1)
  }

  /** The clean-up of lines 290-295: strip, remove fences at line starts
      and line ends, strip again. */
  function CleanReply(raw: string): (r: string)
    ensures Trimmed(r)
  {
    Strip(DropClosings(DropOpenings(Strip(raw), 0), 0))
  }

  /** The braces of s, in order. */
  function Braces(s: string): (r: string)
    ensures |r| <= |s|
  {
    if s == [] then []
    else (if s[0] == '{' || s[0] == '}' then [s[0]] else []) + Braces(s[1..])
  }

  predicate NoBrace(s: string)
  {
    forall m :: 0 <= m < |s| ==> s[m] != '{' && s[m] != '}'
  }

  /** No brace at positions [a, b) of t. */
  predicate BraceFree(t: string, a: nat, b: nat)
  {
    forall m :: a <= m < b && m < |t| ==> t[m] != '{' && t[m] != '}'
  }

  lemma {:induction false} BracesAppend(a: string, b: string)
    ensures Braces(a + b) == Braces(a) + Braces(b)
    decreases |a|
  {
    if a == [] {
      assert a + b == b;
    } else {
      var head := if a[0] == '{' || a[0] == '}' then [a[0]] else [];
      assert (a + b)[0] == a[0];
      assert (a + b)[1..] == a[1..] + b;
      assert Braces(a + b) == head + Braces(a[1..] + b);
      BracesAppend(a[1..], b);
      assert Braces(a) == head + Braces(a[1..]);
    }
  }

  lemma {:induction false} BracesOfNoBrace(s: string)
    requires NoBrace(s)
    ensures Braces(s) == ""
    decreases |s|
  {
    if s != [] {
      BracesOfNoBrace(s[1..]);
    }
  }

  /** Dropping a brace-free piece [i, k) of t[i..] keeps its braces. */
  lemma SkipNoBrace(t: string, i: nat, k: nat)
    requires i <= k <= |t| && BraceFree(t, i, k)
    ensures Braces(t[i..]) == Braces(t[k..])
  {
    var mid := t[i..k];
    assert NoBrace(mid) by {
      forall m | 0 <= m < |mid|
        ensures mid[m] != '{' && mid[m] != '}'
      {
        assert mid[m] == t[i + m];
      }
    }
    assert Braces(t[i..]) == Braces(mid) + Braces(t[k..]) by {
      assert t[i..] == mid + t[k..];
      BracesAppend(mid, t[k..]);
    }
    BracesOfNoBrace(mid);
  }

  lemma SpaceRunNoBrace(t: string, j: nat)
    requires j <= |t|
    ensures j + SpaceRun(t[j..]) <= |t| && BraceFree(t, j, j + SpaceRun(t[j..]))
  {
    var s := t[j..];
    var k := SpaceRun(s);
    LStripDropsSpace(s);
    forall m | j <= m < j + k
      ensures t[m] != '{' && t[m] != '}'
    {
      assert t[m] == s[..k][m - j];
      assert IsSpace(s[..k][m - j]);
    }
  }

  lemma FenceNoBrace(t: string, i: nat)
    requires i <= |t| && StartsWith(t[i..], Fence)
    ensures i + 3 <= |t| && BraceFree(t, i, i + 3)
  {
    forall m | i <= m < i + 3
      ensures t[m] != '{' && t[m] != '}'
    {
      assert t[m] == t[i..][..3][m - i];
    }
  }

  lemma TagNoBrace(t: string, j: nat)
    requires j <= |t|
    ensures j + JsonTag(t[j..]) <= |t| && BraceFree(t, j, j + JsonTag(t[j..]))
  {
    if JsonTag(t[j..]) == 4 {
      var w := t[j..][..4];
      assert MatchesIgnoreCase(w, "json");
      forall m | j <= m < j + 4
        ensures t[m] != '{' && t[m] != '}'
      {
        assert t[m] == w[m - j];
        assert FoldsTo(w[m - j], "json"[m - j]);
      }
    }
  }

  lemma OpeningNoBrace(t: string, i: nat)
    requires i <= |t| && OpeningAt(t, i).Some?
    ensures BraceFree(t, i, OpeningAt(t, i).value)
  {
    var j := i + 3 + JsonTag(t[i + 3..]);
    FenceNoBrace(t, i);
    TagNoBrace(t, i + 3);
    SpaceRunNoBrace(t, j);
  }

  lemma {:induction false} DropOpeningsBraces(t: string, i: nat)
    requires i <= |t|
    ensures Braces(DropOpenings(t, i)) == Braces(t[i..])
    decreases |t| - i
  {
    if i < |t| {
      match OpeningAt(t, i)
      case Some(k) =>
        assert Braces(t[i..]) == Braces(t[k..]) by {
          OpeningNoBrace(t, i);
          SkipNoBrace(t, i, k);
        }
        DropOpeningsBraces(t, k);
      case None =>
        var c := [t[i]];
        assert Braces(t[i..]) == Braces(c) + Braces(t[i + 1..]) by {
          assert t[i..] == c + t[i + 1..];
          BracesAppend(c, t[i + 1..]);
        }
        assert Braces(DropOpenings(t, i)) == Braces(c) + Braces(DropOpenings(t, i + 1)) by {
          BracesAppend(c, DropOpenings(t, i + 1));
        }
        DropOpeningsBraces(t, i + 1);
    }
  }

  lemma ClosingNoBrace(t: string, i: nat, k: nat)
    requires i <= |t| && ClosingAt(t, i) == Some(k)
    ensures BraceFree(t, i, k)
  {
    ClosingParts(t, i, k);
    var f := i + SpaceRun(t[i..]);
    ClosingPartsNoBrace(t, i, f, f + 3 + SpaceRun(t[f + 3..]), k);
  }

  /** A closing fence match at i ending at k: whitespace up to f, the fence,
      whitespace up to h, and k at or before h. */
  lemma ClosingParts(t: string, i: nat, k: nat)
    requires i <= |t| && ClosingAt(t, i) == Some(k)
    ensures var f := i + SpaceRun(t[i..]);
            && f + 3 <= |t| && StartsWith(t[f..], Fence)
            && k <= f + 3 + SpaceRun(t[f + 3..])
  {
  }

  lemma ClosingPartsNoBrace(t: string, i: nat, f: nat, h: nat, k: nat)
    requires i <= |t| && f == i + SpaceRun(t[i..]) && f + 3 <= |t| && StartsWith(t[f..], Fence)
    requires h == f + 3 + SpaceRun(t[f + 3..]) && k <= h
    ensures BraceFree(t, i, k)
  {
    var g := f + 3;
    SpaceRunNoBrace(t, i);
    FenceNoBrace(t, f);
    SpaceRunNoBrace(t, g);
    forall m | i <= m < k && m < |t|
      ensures t[m] != '{' && t[m] != '}'
    {
      if m < f {
        assert BraceFree(t, i, f);
      } else if m < g {
        assert BraceFree(t, f, g);
      } else {
        assert BraceFree(t, g, h);
      }
    }
  }

  lemma {:induction false} DropClosingsBraces(t: string, i: nat)
    requires i <= |t|
    ensures Braces(DropClosings(t, i)) == Braces(t[i..])
    decreases |t| - i
  {
    if i < |t| {
      match ClosingAt(t, i)
      case Some(k) =>
        assert Braces(t[i..]) == Braces(t[k..]) by {
          ClosingNoBrace(t, i, k);
          SkipNoBrace(t, i, k);
        }
        DropClosingsBraces(t, k);
      case None =>
        var c := [t[i]];
        assert Braces(t[i..]) == Braces(c) + Braces(t[i + 1..]) by {
          assert t[i..] == c + t[i + 1..];
          BracesAppend(c, t[i + 1..]);
        }
        assert Braces(DropClosings(t, i)) == Braces(c) + Braces(DropClosings(t, i + 1)) by {
          BracesAppend(c, DropClosings(t, i + 1));
        }
        DropClosingsBraces(t, i + 1);
    }
  }

  lemma LStripBraces(s: string)
    ensures Braces(LStrip(s)) == Braces(s)
  {
    var l := LStrip(s);
    var pre := s[..|s| - |l|];
    assert NoBrace(pre) by {
      LStripDropsSpace(s);
      SpaceNoBrace(pre);
    }
    assert Braces(s) == Braces(pre) + Braces(l) by {
      assert s == pre + l;
      BracesAppend(pre, l);
    }
    BracesOfNoBrace(pre);
  }

  lemma SpaceNoBrace(s: string)
    requires AllSpace(s)
    ensures NoBrace(s)
  {
    forall m | 0 <= m < |s|
      ensures s[m] != '{' && s[m] != '}'
    {
      assert IsSpace(s[m]);
    }
  }

  lemma RStripBraces(s: string)
    ensures Braces(RStrip(s)) == Braces(s)
  {
    var r := RStrip(s);
    var post := s[|r|..];
    assert NoBrace(post) by {
      RStripDropsSpace(s);
      SpaceNoBrace(post);
    }
    assert Braces(s) == Braces(r) + Braces(post) by {
      assert s == r + post;
      BracesAppend(r, post);
    }
    BracesOfNoBrace(post);
  }

  lemma StripBraces(s: string)
    ensures Braces(Strip(s)) == Braces(s)
  {
    LStripBraces(s);
    RStripBraces(LStrip(s));
  }

  /** The fence clean-up never adds, removes or reorders a brace. */
  lemma CleanKeepsBraces(raw: string)
    ensures Braces(CleanReply(raw)) == Braces(raw)
  {
    var s := Strip(raw);
    StripBraces(raw);
    DropOpeningsBraces(s, 0);
    var o := DropOpenings(s, 0);
    DropClosingsBraces(o, 0);
    StripBraces(DropClosings(o, 0));
    assert s[0..] == s;
    assert o[0..] == o;
  }

  /** Lines 297-305: the inclusive slice from the first '{' to the last '}',
      or nothing when there is no '{' followed later by a '}'. */
  function ExtractBlock(c: string): (r: Option<string>)
    ensures r.Some? ==> 2 <= |r.value| && r.value[0] == '{' && r.value[|r.value| - 1] == '}'
  {
    var start := Find(c, '{');
    var end := RFind(c, '}');
    if start == -1 || end == -1 || end <= start then None
    else Some(c[start..end + 1])
  }

  /** The block exists exactly when some '{' comes before some '}', and it
      runs from the first '{' to the last '}'. */
  lemma ExtractBlockSpan(c: string)
    ensures ExtractBlock(c).Some? <==> exists i, j :: 0 <= i < j < |c| && c[i] == '{' && c[j] == '}'
    ensures ExtractBlock(c).Some? ==>
              var b := ExtractBlock(c).value;
              exists a :: 0 <= a && a + |b| <= |c| && c[a..a + |b|] == b
                          && !Has(c[..a], '{') && !Has(c[a + |b|..], '}')
  {
    var start := Find(c, '{');
    var end := RFind(c, '}');
    forall i, j | 0 <= i < j < |c| && c[i] == '{' && c[j] == '}'
      ensures 0 <= start < end
    {
      OpenBeforeClose(c, i, j);
    }
    if 0 <= start < end {
      var block := c[start..end + 1];
      assert c[start + |block|..] == c[end + 1..];
      assert !Has(c[..start], '{') by {
        forall k | 0 <= k < start
          ensures c[..start][k] != '{'
        {
          assert c[..start][k] == c[k];
        }
      }
      var tail := c[end + 1..];
      assert !Has(tail, '}') by {
        forall k | 0 <= k < |tail|
          ensures tail[k] != '}'
        {
          assert tail[k] == c[end + 1 + k];
        }
      }
    }
  }

  lemma OpenBeforeClose(c: string, i: nat, j: nat)
    requires i < j < |c| && c[i] == '{' && c[j] == '}'
    ensures 0 <= Find(c, '{') <= i && j <= RFind(c, '}')
  {
  }

  /** Lines 308-320: a block with fewer '}' than '{' is cut at its last comma
      and closed with one '}'; without a comma, the missing '}' are appended. */
  function RepairBraces(block: string): (r: string)
    ensures Count(block, '}') >= Count(block, '{') ==> r == block
    ensures Count(block, '}') < Count(block, '{') && Has(block, ',') ==>
              exists k :: 0 <= k < |block| && block[k] == ',' && !Has(block[k + 1..], ',') && r == block[..k] + "}"
    ensures Count(block, '}') < Count(block, '{') && !Has(block, ',') ==>
              StartsWith(r, block) && Count(r, '{') == Count(r, '}')
              && forall m :: |block| <= m < |r| ==> r[m] == '}'
  {
    var opens := Count(block, '{');
    var closes := Count(block, '}');
    if closes < opens then
      var lastComma := RFind(block, ',');
      if lastComma > -1 then block[..lastComma] + "}"
      else
        var r := block + Repeat('}', opens - closes);
        CountAppend(block, Repeat('}', opens - closes), '{');
        CountAppend(block, Repeat('}', opens - closes), '}');
        CountRepeat('}', opens - closes);
        assert r[..|block|] == block;
        r
    else block
  }

  lemma {:induction false} CountRepeat(c: char, n: nat)
    ensures Count(Repeat(c, n), c) == n
    ensures forall d :: d != c ==> Count(Repeat(c, n), d) == 0
  {
    if n > 0 {
      CountRepeat(c, n - 1);
      assert Repeat(c, n)[1..] == Repeat(c, n - 1);
    }
  }

  /** The comma repair does not always balance: "{{a,b}" becomes "{{a}". */
  lemma CommaRepairMayStayUnbalanced()
    ensures RepairBraces("{{a,b}") == "{{a}"
    ensures Count("{{a}", '{') == 2 && Count("{{a}", '}') == 1
  {
    var b := "{{a,b}";
    UnbalancedSampleCounts();
    UnbalancedSampleComma();
    assert RepairBraces(b) == b[..3] + "}";
    assert b[..3] + "}" == "{{a}";
    RepairedSampleCounts();
  }

  lemma UnbalancedSampleCounts()
    ensures Count("{{a,b}", '{') == 2 && Count("{{a,b}", '}') == 1
  {
    var b := "{{a,b}";
    assert b[1..] == "{a,b}" && b[1..][1..] == "a,b}" && b[3..] == ",b}";
  }

  lemma UnbalancedSampleComma()
    ensures RFind("{{a,b}", ',') == 3
  {
    var b := "{{a,b}";
    assert b[..5] == "{{a,b";
    assert b[..4] == "{{a,";
  }

  lemma RepairedSampleCounts()
    ensures Count("{{a}", '{') == 2 && Count("{{a}", '}') == 1
  {
    assert "{{a}"[1..] == "{a}" && "{a}"[1..] == "a}" && "a}"[1..] == "}";
  }
}

=== FILE: ollama_reply.dfy ===
/** Reading a numeric score out of the Ollama chat reply of the YOLO dressing
    service (call_ollama_for_scoring). The reply is first searched for
    `SCORE[:\s]*([0-9]{1,3})`, case-insensitively (re.IGNORECASE, so the
    long s and similar letters count); failing that for
    `([0-9]{1,3})\s*(/|out of)\s*100`. Both searches are written out here as
    leftmost-match scans over the text. */
module OllamaReply {
  import opened Values
  import opened Text

  /** What call_ollama_for_scoring hands back: whether the chat call went
      through, the score it read (if any) and the feedback text. */
  datatype LlmReply = LlmReply(success: bool, score: Option<int>, feedback: Option<string>)

  /** The number of leading decimal digits of s, at most max (the `{1,3}` bound). */
  function DigitRun(s: string, max: nat): (k: nat)
    ensures k <= max && k <= |s|
    ensures forall i :: 0 <= i < k ==> IsDigit(s[i])
    ensures k < max && k < |s| ==> !IsDigit(s[k])
  {
    if max == 0 || s == [] || !IsDigit(s[0]) then 0 else 1 + DigitRun(s[1..], max - 1)
  }

  /** The length of the leading run of ':' and whitespace (`[:\s]*`). */
  function SepRun(s: string): (k: nat)
    ensures k <= |s|
  {
    if s != [] && (s[0] == ':' || IsSpace(s[0])) then 1 + SepRun(s[1..]) else 0
  }

  /** SepRun stops at the first character that is neither ':' nor
      whitespace. */
  lemma {:induction false} SepRunSpec(s: string)
    ensures forall i :: 0 <= i < SepRun(s) ==> s[i] == ':' || IsSpace(s[i])
    ensures SepRun(s) < |s| ==> s[SepRun(s)] != ':' && !IsSpace(s[SepRun(s)])
  {
    if s != [] && (s[0] == ':' || IsSpace(s[0])) {
      SepRunSpec(s[1..]);
    }
  }

  /** `SCORE[:\s]*([0-9]{1,3})` tried at position i: the captured value and
      the index just past the captured digits. */
  function ScoreAt(t: string, i: nat): (m: Option<(nat, nat)>)
    requires i <= |t|
    ensures m.Some? ==> m.value.0 <= 999 && i + 6 <= m.value.1 <= |t|
  {
    if i + 5 <= |t| && MatchesIgnoreCase(t[i..i + 5], "score") then
      var j := i + 5 + SepRun(t[i + 5..]);
      var d := DigitPrefix(t[j..], 3);
      if d == [] then None else Some((DecimalValue(d), j + |d|))
    else None
  }

  /** The leftmost position at or after i where ScoreAt matches (re.search). */
  function FindScore(t: string, i: nat): (p: Option<nat>)
    requires i <= |t|
    ensures p.Some? ==> i <= p.value <= |t| && ScoreAt(t, p.value).Some?
    ensures p.Some? ==> forall q :: i <= q < p.value ==> ScoreAt(t, q).None?
    ensures p.None? ==> forall q :: i <= q <= |t| ==> ScoreAt(t, q).None?
    decreases |t| - i
  {
    if ScoreAt(t, i).Some? then Some(i)
    else if i == |t| then None
    else FindScore(t, i + 1)
  }

  /** `([0-9]{1,3})\s*(/|out of)\s*100` tried at position i: the captured value. */
  function OutOfAt(t: string, i: nat): (m: Option<nat>)
    requires i <= |t|
    ensures m.Some? ==> m.value <= 999
  {
    var d := DigitPrefix(t[i..], 3);
    if d == [] || !OutOfHundred(t, i + |d|) then None else Some(DecimalValue(d))
  }

  /** The leading digits of s, at most max of them. */
  function DigitPrefix(s: string, max: nat): (d: string)
    ensures |d| == DigitRun(s, max) && d == s[..|d|]
    ensures forall j :: 0 <= j < |d| ==> IsDigit(d[j])
  {
    s[..DigitRun(s, max)]
  }

  /** `\s*(/|out of)\s*100` matches at position p. */
  predicate OutOfHundred(t: string, p: nat)
    requires p <= |t|
  {
    var q := p + SpaceRun(t[p..]);
    var r :=
      if StartsWith(t[q..], "/") then q + 1
      else if q + 6 <= |t| && MatchesIgnoreCase(t[q..q + 6], "out of") then q + 6
      else -1;
    0 <= r && StartsWith(t[r + SpaceRun(t[r..])..], "100")
  }

  function FindOutOf(t: string, i: nat): (m: Option<nat>)
    requires i <= |t|
    ensures m.Some? ==> m.value <= 999
    decreases |t| - i
  {
    if OutOfAt(t, i).Some? then OutOfAt(t, i)
    else if i == |t| then None
    else FindOutOf(t, i + 1)
  }

  /** The feedback left by `re.sub(r"^.*?SCORE[:\s]*[0-9]{1,3}[:,]?\s*", "", t)`
      followed by strip(): when the score was found on the first line, the
      text after it, past one optional ':' or ',' and any whitespace;
      otherwise the whole text. `.` does not cross a newline, so a score on a
      later line leaves the text as it was. */
  function ScoreFeedback(t: string, p: nat, e: nat): (r: string)
    requires p <= e <= |t|
    ensures Trimmed(r)
  {
    if Has(t[..p], '\n') then Strip(t)
    else
      var e' := if e < |t| && (t[e] == ':' || t[e] == ',') then e + 1 else e;
      Strip(LStrip(t[e'..]))
  }

  /** Turning the joined chat text into a reply (lines 286-298); None stands
      for a request that raised or did not return status 200. */
  function ParseReply(response: Option<string>): (r: LlmReply)
    ensures response.None? ==> r == LlmReply(false, None, None)
    ensures response.Some? ==> r.success && r.feedback.Some?
    ensures r.score.Some? ==> 0 <= r.score.value <= 999
    ensures response.Some? && FindScore(response.value, 0).Some? ==>
              r.score == Some(ScoreAt(response.value, FindScore(response.value, 0).value).value.0)
    ensures response.Some? && FindScore(response.value, 0).Some? ==>
              var p := FindScore(response.value, 0).value;
              r.feedback == Some(ScoreFeedback(response.value, p, ScoreAt(response.value, p).value.1))
    ensures response.Some? && FindScore(response.value, 0).None? ==>
              r.feedback == response &&
              (FindOutOf(response.value, 0).Some? ==> r.score == Some(FindOutOf(response.value, 0).value))
    ensures response.Some? && FindScore(response.value, 0).None? && FindOutOf(response.value, 0).None? ==>
              r.score.None?
  {
    match response
    case None => LlmReply(false, None, None)
    case Some(t) =>
      match FindScore(t, 0)
      case Some(p) =>
        var (n, e) := ScoreAt(t, p).value;
        LlmReply(true, Some(n), Some(ScoreFeedback(t, p, e)))
      case None =>
        match FindOutOf(t, 0)
        case Some(n) => LlmReply(true, Some(n), Some(t))
        case None => LlmReply(true, None, Some(t))
  }

  /** A reply that opens with `SCORE: <n>` yields exactly n, whatever
      follows, and the rest of the text as feedback. */
  lemma ScoreRoundTrip(n: nat, rest: string)
    requires n <= 999
    ensures ParseReply(Some("SCORE: " + NatText(n) + " " + rest)) ==
            LlmReply(true, Some(n), Some(Strip(rest)))
  {
    var d := NatText(n);
    Layout(d, rest);
    ShapedReply("SCORE: " + d + " " + rest, d, rest);
  }

  /** Where the parts of `SCORE: <d> <rest>` sit. */
  lemma Layout(d: string, rest: string)
    ensures var t := "SCORE: " + d + " " + rest;
            && 7 + |d| <= |t|
            && t[..5] == "SCORE" && t[5] == ':' && t[6] == ' '
            && t[7..7 + |d|] == d && t[7 + |d|..] == " " + rest
  {
    var p := "SCORE: ";
    var t := p + d + " " + rest;
    assert t == p + (d + (" " + rest));
    assert t[..7] == p;
    assert t[..5] == p[..5];
    assert t[7..] == d + (" " + rest);
    assert t[7..7 + |d|] == t[7..][..|d|];
    assert t[7 + |d|..] == t[7..][|d|..];
  }

  lemma ShapedReply(t: string, d: string, rest: string)
    requires 1 <= |d| <= 3
    requires forall i :: 0 <= i < |d| ==> IsDigit(d[i])
    requires 7 + |d| <= |t|
    requires t[..5] == "SCORE" && t[5] == ':' && t[6] == ' ' && t[7..7 + |d|] == d
    requires t[7 + |d|..] == " " + rest
    ensures ParseReply(Some(t)) == LlmReply(true, Some(DecimalValue(d)), Some(Strip(rest)))
  {
    var e := 7 + |d|;
    assert e < |t| && t[e] == ' ' by {
      assert t[e..][0] == ' ';
    }
    ScoreAtShape(t, d);
    assert FindScore(t, 0) == Some(0);
    assert ScoreFeedback(t, 0, e) == Strip(rest) by {
      ShapedFeedback(t, e, rest);
    }
    ParseFirstScore(t, DecimalValue(d), e);
  }

  /** A match at position 0 is the one the reply takes. */
  lemma ParseFirstScore(t: string, n: nat, e: nat)
    requires e <= |t| && FindScore(t, 0) == Some(0) && ScoreAt(t, 0) == Some((n, e))
    ensures ParseReply(Some(t)) == LlmReply(true, Some(n), Some(ScoreFeedback(t, 0, e)))
  {
  }

  lemma ShapedFeedback(t: string, e: nat, rest: string)
    requires e <= |t| && t[e..] == " " + rest
    ensures ScoreFeedback(t, 0, e) == Strip(rest)
  {
    assert !Has(t[..0], '\n');
    assert t[e] == ' ' by {
      assert t[e..][0] == ' ';
    }
    assert ScoreFeedback(t, 0, e) == Strip(LStrip(t[e..]));
    assert LStrip(t[e..]) == LStrip(rest) by {
      assert (" " + rest)[1..] == rest;
    }
    StripAfterLStrip(rest);
  }

  /** The scan at position 0 of a text shaped `SCORE: <digits> ...`. */
  lemma ScoreAtShape(t: string, d: string)
    requires 1 <= |d| <= 3
    requires forall i :: 0 <= i < |d| ==> IsDigit(d[i])
    requires 7 + |d| < |t|
    requires t[..5] == "SCORE" && t[5] == ':' && t[6] == ' '
    requires t[7..7 + |d|] == d && t[7 + |d|] == ' '
    ensures ScoreAt(t, 0) == Some((DecimalValue(d), 7 + |d|))
  {
    ScoreKeyword(t);
    assert IsDigit(t[7]) by {
      assert t[7] == t[7..7 + |d|][0];
    }
    SepTwo(t);
    DigitsAt(t, d);
    ScoreAtUnfold(t, 0, 2, |d|);
  }

  lemma ScoreKeyword(t: string)
    requires 5 <= |t| && t[..5] == "SCORE"
    ensures MatchesIgnoreCase(t[0..5], "score")
  {
    assert t[0..5] == "SCORE";
    UpperScoreMatches();
  }

  lemma SepTwo(t: string)
    requires 8 <= |t| && t[5] == ':' && t[6] == ' ' && IsDigit(t[7])
    ensures SepRun(t[5..]) == 2
  {
    assert t[5..][1..] == t[6..];
    assert t[6..][1..] == t[7..];
    assert SepRun(t[7..]) == 0;
  }

  lemma DigitsAt(t: string, d: string)
    requires 1 <= |d| <= 3
    requires forall i :: 0 <= i < |d| ==> IsDigit(d[i])
    requires 7 + |d| < |t| && t[7..7 + |d|] == d && t[7 + |d|] == ' '
    ensures DigitRun(t[7..], 3) == |d|
  {
    assert t[7..] == d + t[7 + |d|..];
    DigitRunPrefix(d, t[7 + |d|..], 3);
  }

  lemma ScoreAtUnfold(t: string, i: nat, s: nat, k: nat)
    requires i + 5 <= |t| && MatchesIgnoreCase(t[i..i + 5], "score")
    requires SepRun(t[i + 5..]) == s && 0 < k && DigitRun(t[i + 5 + s..], 3) == k
    ensures i + 5 + s + k <= |t|
    ensures ScoreAt(t, i) == Some((DecimalValue(t[i + 5 + s..i + 5 + s + k]), i + 5 + s + k))
  {
    var j := i + 5 + s;
    assert DigitPrefix(t[j..], 3) == t[j..j + k];
  }

  lemma UpperScoreMatches()
    ensures MatchesIgnoreCase("SCORE", "score")
  {
    var u := "SCORE";
    assert FoldsTo(u[0], 's') && FoldsTo(u[1], 'c') && FoldsTo(u[2], 'o');
    assert FoldsTo(u[3], 'r') && FoldsTo(u[4], 'e');
  }

  lemma {:induction false} DigitRunPrefix(d: string, rest: string, max: nat)
    requires |d| <= max
    requires forall i :: 0 <= i < |d| ==> IsDigit(d[i])
    requires rest != [] && !IsDigit(rest[0])
    ensures DigitRun(d + rest, max) == |d|
    decreases |d|
  {
    if d == [] {
      assert d + rest == rest;
    } else {
      assert (d + rest)[1..] == d[1..] + rest;
      DigitRunPrefix(d[1..], rest, max - 1);
    }
  }

  lemma StripAfterLStrip(s: string)
    ensures Strip(LStrip(s)) == Strip(s)
  {
    LStripOfTrimmed(LStrip(s));
  }
}

=== FILE: resume_analysis.dfy ===
/** The resume-analysis service (backend/resume-analysis-service/app.py):
    the upload checks, the skill filter and score, the keyword sets behind
    the job-description similarity, the ATS score and the missing keywords,
    the grammar snippets and the text preview. Text extraction, the grammar
    checker and the document store are parameters. */
module ResumeAnalysis {
  import opened Values
  import opened Text

  // ---------------------------------------------------------------------
  // Upload checks

  /** `filename.rsplit('.', 1)[1]`: the text after the last '.', when there
      is one. */
  function Extension(name: string): (e: Option<string>)
    ensures e.Some? <==> Has(name, '.')
    ensures e.Some? ==> EndsWith(name, "." + e.value) && !Has(e.value, '.')
  {
    var dot := RFind(name, '.');
    if dot == -1 then None
    else
      assert name[dot..] == "." + name[dot + 1..];
      Some(name[dot + 1..])
  }

  /** allowed_file: a '.' in the name and the lower-cased text after the
      last one among the allowed extensions. The extensions are ASCII
      without a 'k' or an 'i', so ASCII lower-casing decides membership
      exactly as str.lower() does. */
  predicate AllowedFile(name: string, allowed: set<string>)
  {
    Extension(name).Some? && Lower(Extension(name).value) in allowed
  }

  const BackendExtensions: set<string> := {"pdf", "docx", "doc"}

  /** A name built as stem + "." + ext, with no '.' in ext, is allowed
      exactly when ext, lower-cased, is an allowed extension; the stem does
      not matter, dots included. */
  lemma AllowedFileSplit(stem: string, ext: string, allowed: set<string>)
    requires !Has(ext, '.')
    ensures Extension(stem + "." + ext) == Some(ext)
    ensures AllowedFile(stem + "." + ext, allowed) <==> Lower(ext) in allowed
  {
    var s := stem + "." + ext;
    var p := |stem|;
    assert s[p] == '.';
    assert s[p + 1..] == ext;
    LastDot(s, p);
  }

  /** The last '.' of s is at p when none follows it. */
  lemma LastDot(s: string, p: nat)
    requires p < |s| && s[p] == '.' && !Has(s[p + 1..], '.')
    ensures RFind(s, '.') == p
  {
    assert Has(s, '.');
    var r := RFind(s, '.');
    forall k | r < k < |s|
      ensures s[k] != '.'
    {
      assert s[r + 1..][k - r - 1] == s[k];
    }
    forall k | p < k < |s|
      ensures s[k] != '.'
    {
      assert s[p + 1..][k - p - 1] == s[k];
    }
  }

  // ---------------------------------------------------------------------
  // Skills and the skill score

  /** `skill.lower() in text.lower()`. */
  predicate Mentions(text: string, skill: string)
  {
    Contains(Lower(text), Lower(skill))
  }

  /** a is b with some elements left out, the rest in their order. */
  predicate Subsequence<T(==)>(a: seq<T>, b: seq<T>)
    decreases |b|
  {
    if a == [] then true
    else if b == [] then false
    else (a[0] == b[0] && Subsequence(a[1..], b[1..])) || Subsequence(a, b[1..])
  }

  /** found_skills (line 111): the skills the text mentions, in the order of
      the skill list. */
  function FoundSkills(skills: seq<string>, text: string): (found: seq<string>)
    ensures |found| <= |skills|
    ensures forall s :: s in found <==> s in skills && Mentions(text, s)
    ensures Subsequence(found, skills)
    ensures forall s :: multiset(found)[s] == if Mentions(text, s) then multiset(skills)[s] else 0
  {
    if skills == [] then []
    else
      var rest := FoundSkills(skills[1..], text);
      assert skills == [skills[0]] + skills[1..];
      assert multiset(skills) == multiset{skills[0]} + multiset(skills[1..]);
      if Mentions(text, skills[0]) then
        assert ([skills[0]] + rest)[1..] == rest;
        assert multiset([skills[0]] + rest) == multiset{skills[0]} + multiset(rest);
        [skills[0]] + rest
      else rest
  }

  function Dist(a: int, b: int): nat
  {
    if a >= b then a - b else b - a
  }

  /** Python's round() applied to part / whole * 100, computed exactly:
      the nearest integer, ties to the even one. */
  function RoundPercent(part: nat, whole: nat): (r: nat)
    requires whole > 0
    ensures 2 * Dist(whole * r, 100 * part) <= whole
    ensures 2 * Dist(whole * r, 100 * part) == whole ==> r % 2 == 0
    ensures part <= whole ==> r <= 100
  {
    var q := (100 * part) / whole;
    var rem := (100 * part) % whole;
    QuotientBound(part, whole);
    DivModParts(100 * part, whole);
    var r := if 2 * rem < whole then q
             else if 2 * rem > whole then q + 1
             else if q % 2 == 0 then q
             else q + 1;
    RoundChoice(part, whole, q, rem, r);
    r
  }

  lemma DivModParts(x: nat, w: nat)
    requires w > 0
    ensures x == w * (x / w) + x % w && x % w < w
  {
  }

  /** The rounding choice between the two neighbours w * q and w * (q + 1)
      of 100 * part. */
  lemma RoundChoice(part: nat, whole: nat, q: nat, rem: nat, r: nat)
    requires whole > 0 && 100 * part == whole * q + rem && rem < whole
    requires r == if 2 * rem < whole then q
                  else if 2 * rem > whole then q + 1
                  else if q % 2 == 0 then q
                  else q + 1
    requires part <= whole ==> q <= 100 && (q == 100 ==> rem == 0)
    ensures 2 * Dist(whole * r, 100 * part) <= whole
    ensures 2 * Dist(whole * r, 100 * part) == whole ==> r % 2 == 0
    ensures part <= whole ==> r <= 100
  {
    Neighbours(whole, q, rem, 100 * part);
  }

  /** x lies rem above w * q and w - rem below w * (q + 1). */
  lemma Neighbours(w: nat, q: nat, rem: nat, x: nat)
    requires x == w * q + rem && rem < w
    ensures Dist(w * q, x) == rem
    ensures Dist(w * (q + 1), x) == w - rem
  {
    MulSucc(w, q);
  }

  lemma MulSucc(w: nat, q: nat)
    ensures w * (q + 1) == w * q + w
  {
  }

  /** When part <= whole the quotient is at most 100, and exactly 100 only
      without remainder. */
  lemma QuotientBound(part: nat, whole: nat)
    requires whole > 0
    ensures part <= whole ==> (100 * part) / whole <= 100
    ensures part <= whole && (100 * part) / whole == 100 ==> (100 * part) % whole == 0
  {
    var q := (100 * part) / whole;
    var rem := (100 * part) % whole;
    assert 100 * part == whole * q + rem;
    if part <= whole {
      assert whole * q <= 100 * whole;
      MulMonotone(whole, q, 100);
    }
  }

  /** w * a <= w * b gives a <= b; and with equality the remainder vanishes. */
  lemma MulMonotone(w: nat, a: nat, b: nat)
    requires w > 0 && w * a <= w * b
    ensures a <= b
  {
    if a > b {
      MulStrict(w, b, a);
    }
  }

  lemma MulStrict(w: nat, b: nat, a: nat)
    requires w > 0 && b < a
    ensures w * b < w * a
  {
    assert w * a == w * b + w * (a - b);
  }

  /** A whole share rounds to 100 and an empty one to 0. */
  lemma RoundPercentExtremes(whole: nat)
    requires whole > 0
    ensures RoundPercent(0, whole) == 0
    ensures RoundPercent(whole, whole) == 100
  {
    assert (100 * whole) / whole == 100 && (100 * whole) % whole == 0 by {
      DivExact(whole, 100);
    }
  }

  lemma DivExact(w: nat, k: nat)
    requires w > 0
    ensures (w * k) / w == k && (w * k) % w == 0
  {
    var q := (w * k) / w;
    var rem := (w * k) % w;
    assert w * k == w * q + rem;
    MulMonotone(w, q, k);
    MulSucc(w, q);
    MulMonotoneStrict(w, k, q + 1);
  }

  lemma MulMonotoneStrict(w: nat, a: nat, b: nat)
    requires w > 0 && w * a < w * b
    ensures a < b
  {
    if a >= b {
      MulLe(w, b, a);
    }
  }

  lemma MulLe(w: nat, b: nat, a: nat)
    requires b <= a
    ensures w * b <= w * a
  {
    assert w * a == w * b + w * (a - b);
  }

  /** Lines 111-120: the share of skills found, as a rounded percentage;
      0 for an empty skill list. */
  function SkillScore(skills: seq<string>, text: string): (score: nat)
    ensures score <= 100
    ensures skills == [] ==> score == 0
    ensures skills != [] ==>
              2 * Dist(|skills| * score, 100 * |FoundSkills(skills, text)|) <= |skills|
  {
    var found := FoundSkills(skills, text);
    var skillScore := if |skills| > 0 then RoundPercent(|found|, |skills|) else 0;
    Clamp(skillScore)
  }

  function Clamp(n: int): int
  {
    if n < 0 then 0 else if n > 100 then 100 else n
  }

  /** Every skill mentioned gives 100, none gives 0. */
  lemma SkillScoreExtremes(skills: seq<string>, text: string)
    requires skills != []
    ensures (forall i :: 0 <= i < |skills| ==> Mentions(text, skills[i])) ==> SkillScore(skills, text) == 100
    ensures (forall i :: 0 <= i < |skills| ==> !Mentions(text, skills[i])) ==> SkillScore(skills, text) == 0
  {
    RoundPercentExtremes(|skills|);
    if forall i :: 0 <= i < |skills| ==> Mentions(text, skills[i]) {
      AllKept(skills, text);
    }
    if forall i :: 0 <= i < |skills| ==> !Mentions(text, skills[i]) {
      NoneKept(skills, text);
    }
  }

  lemma {:induction false} AllKept(skills: seq<string>, text: string)
    requires forall i :: 0 <= i < |skills| ==> Mentions(text, skills[i])
    ensures FoundSkills(skills, text) == skills
  {
    if skills != [] {
      AllKept(skills[1..], text);
    }
  }

  lemma {:induction false} NoneKept(skills: seq<string>, text: string)
    requires forall i :: 0 <= i < |skills| ==> !Mentions(text, skills[i])
    ensures FoundSkills(skills, text) == []
  {
    if skills != [] {
      NoneKept(skills[1..], text);
    }
  }

  // ---------------------------------------------------------------------
  // Keywords

  /** The characters `.,:;()[]{}"'` stripped from both ends of a word. */
  const Punctuation: set<char> := {'.', ',', ':', ';', '(', ')', '[', ']', '{', '}', '"', '\''}

  function CleanWord(w: string): string
  {
    StripChars(Lower(w), Punctuation)
  }

  /** Lines 126-127 and 136-137: the words of the whitespace split longer
      than minLength, lower-cased and stripped of punctuation. The length
      test looks at the word before the clean-up. */
  function Keywords(s: string, minLength: nat): set<string>
  {
    KeywordsOf(Split(s), minLength)
  }

  /** A whitespace character separates keywords: the keywords of the two
      sides, together. */
  lemma KeywordsAround(a: string, c: char, b: string, minLength: nat)
    requires IsSpace(c)
    ensures Keywords(a + [c] + b, minLength) == Keywords(a, minLength) + Keywords(b, minLength)
  {
    SplitAround(a, c, b);
    KeywordsOfAppend(Split(a), Split(b), minLength);
  }

  /** The cleaned forms of the words longer than minLength. */
  function KeywordsOf(ws: seq<string>, minLength: nat): set<string>
  {
    set w | w in ws && |w| > minLength :: CleanWord(w)
  }

  lemma KeywordsOfAppend(x: seq<string>, y: seq<string>, minLength: nat)
    ensures KeywordsOf(x + y, minLength) == KeywordsOf(x, minLength) + KeywordsOf(y, minLength)
  {
    var l := KeywordsOf(x + y, minLength);
    var r := KeywordsOf(x, minLength) + KeywordsOf(y, minLength);
    forall k | k in l
      ensures k in r
    {
      var w :| w in x + y && |w| > minLength && CleanWord(w) == k;
      if w in x {
        assert k in KeywordsOf(x, minLength);
      } else {
        assert k in KeywordsOf(y, minLength);
      }
    }
    forall k | k in r
      ensures k in l
    {
      if k in KeywordsOf(x, minLength) {
        var w :| w in x && |w| > minLength && CleanWord(w) == k;
        assert w in x + y;
      } else {
        var w :| w in y && |w| > minLength && CleanWord(w) == k;
        assert w in x + y;
      }
    }
  }

  /** A single word gives its cleaned form when it is longer than
      minLength, and nothing otherwise. */
  lemma KeywordsOfWord(w: string, minLength: nat)
    requires w != "" && !HasSpace(w)
    ensures Keywords(w, minLength) == if |w| > minLength then {CleanWord(w)} else {}
  {
    SplitWord(w);
    KeywordsOfSingle(w, minLength);
  }

  lemma KeywordsOfSingle(w: string, minLength: nat)
    ensures KeywordsOf([w], minLength) == if |w| > minLength then {CleanWord(w)} else {}
  {
    var l := KeywordsOf([w], minLength);
    forall k | k in l
      ensures k == CleanWord(w) && |w| > minLength
    {
      var v :| v in [w] && |v| > minLength && CleanWord(v) == k;
    }
    if |w| > minLength {
      assert CleanWord(w) in l;
    }
  }

  /** A blank text has no keywords. */
  lemma KeywordsOfBlank(s: string, minLength: nat)
    requires AllSpace(s)
    ensures Keywords(s, minLength) == {}
  {
    SplitEmptyIff(s);
  }

  /** Two words separated by a space, both longer than minLength, give
      their two cleaned forms. */
  lemma KeywordsOfTwoWords(a: string, b: string, minLength: nat)
    requires a != "" && !HasSpace(a) && |a| > minLength
    requires b != "" && !HasSpace(b) && |b| > minLength
    ensures Keywords(a + " " + b, minLength) == {CleanWord(a), CleanWord(b)}
  {
    KeywordsAround(a, ' ', b, minLength);
    KeywordsOfWord(a, minLength);
    KeywordsOfWord(b, minLength);
  }

  /** A lower-case word followed by a full stop cleans to the word. */
  lemma CleanFullStop(w: string)
    requires w != [] && forall i :: 0 <= i < |w| ==> 'a' <= w[i] <= 'z'
    ensures CleanWord(w + ".") == w
  {
    LowerFullStop(w);
    StripFullStop(w);
  }

  lemma LowerFullStop(w: string)
    requires forall i :: 0 <= i < |w| ==> 'a' <= w[i] <= 'z'
    ensures Lower(w + ".") == w + "."
  {
    var x := w + ".";
    forall i | 0 <= i < |x|
      ensures Lower(x)[i] == x[i]
    {
      if i < |w| {
        assert x[i] == w[i];
      }
    }
  }

  lemma StripFullStop(w: string)
    requires w != [] && forall i :: 0 <= i < |w| ==> 'a' <= w[i] <= 'z'
    ensures StripChars(w + ".", Punctuation) == w
  {
    KeepsLeadingLetter(w + ".");
    DropsFullStop(w);
  }

  lemma KeepsLeadingLetter(x: string)
    requires x != [] && 'a' <= x[0] <= 'z'
    ensures StripLeading(x, Punctuation) == x
  {
    LetterNotPunctuation(x[0]);
  }

  lemma LetterNotPunctuation(c: char)
    requires 'a' <= c <= 'z'
    ensures c !in Punctuation
  {
  }

  lemma DropsFullStop(w: string)
    requires w != [] && 'a' <= w[|w| - 1] <= 'z'
    ensures StripTrailing(w + ".", Punctuation) == w
  {
    var x := w + ".";
    assert x[..|x| - 1] == w;
    LetterNotPunctuation(w[|w| - 1]);
  }

  /** A keyword has no whitespace, no ASCII capital, and no punctuation
      mark at either end. */
  lemma KeywordShape(s: string, minLength: nat, k: string)
    requires k in Keywords(s, minLength)
    ensures !HasSpace(k)
    ensures forall i :: 0 <= i < |k| ==> !('A' <= k[i] <= 'Z')
    ensures k == "" || (k[0] !in Punctuation && k[|k| - 1] !in Punctuation)
  {
    var w :| w in Split(s) && |w| > minLength && CleanWord(w) == k;
    CleanWordShape(w);
  }

  lemma CleanWordShape(w: string)
    requires !HasSpace(w)
    ensures !HasSpace(CleanWord(w))
    ensures forall i :: 0 <= i < |CleanWord(w)| ==> !('A' <= CleanWord(w)[i] <= 'Z')
  {
    var low := Lower(w);
    var l := StripLeading(low, Punctuation);
    var k := StripTrailing(l, Punctuation);
    var a := |low| - |l|;
    forall i | 0 <= i < |k|
      ensures !IsSpace(k[i]) && !('A' <= k[i] <= 'Z')
    {
      assert k[i] == l[i] == low[a + i];
      assert !IsSpace(w[a + i]);
      LowerCharKeepsSpace(w[a + i]);
    }
  }

  lemma LowerCharKeepsSpace(c: char)
    ensures IsSpace(LowerChar(c)) <==> IsSpace(c)
    ensures !('A' <= LowerChar(c) <= 'Z')
  {
  }

  /** A value part / whole * 100, kept as the two counts; whole == 0
      stands for the 0 the service returns. */
  datatype Percentage = Percentage(part: nat, whole: nat)
  {
    predicate Valid()
    {
      part <= whole
    }
  }

  /** similarity_with_jd (lines 122-134): None for a blank job description,
      otherwise the share of its long keywords (more than 3 characters)
      that the resume also has. */
  function Similarity(jobDescription: string, text: string): (r: Option<Percentage>)
    ensures r.None? <==> Strip(jobDescription) == ""
    ensures r.Some? ==> r.value.Valid()
    ensures r.Some? ==>
              && r.value.whole == |Keywords(jobDescription, 3)|
              && r.value.part == |Keywords(jobDescription, 3) * Keywords(text, 3)|
  {
    if Strip(jobDescription) == "" then None
    else
      var jd := Keywords(jobDescription, 3);
      var common := jd * Keywords(text, 3);
      assert common <= jd;
      SubsetSize(common, jd);
      Some(Percentage(|common|, |jd|))
  }

  lemma SubsetSize<T>(a: set<T>, b: set<T>)
    requires a <= b
    ensures |a| <= |b|
  {
    assert b == a + (b - a);
  }

  /** The keyword comparison of lines 136-140. */
  datatype KeywordReport = KeywordReport(present: set<string>, missing: set<string>, ats: Percentage)

  function KeywordMatch(jobDescription: string, text: string): (r: KeywordReport)
    ensures var jd := Keywords(jobDescription, 2);
            var resume := Keywords(text, 2);
            && r.present * r.missing == {}
            && r.present + r.missing == jd
            && (forall k :: k in r.missing <==> k in jd && k !in resume)
            && (forall k :: k in r.present <==> k in jd && k in resume)
            && r.ats == Percentage(|r.present|, |jd|)
            && r.ats.Valid()
  {
    var jd := Keywords(jobDescription, 2);
    var resume := Keywords(text, 2);
    PartitionBy(jd, resume);
    KeywordReport(jd * resume, jd - resume, Percentage(|jd * resume|, |jd|))
  }

  /** Intersection and difference split a set in two. */
  lemma PartitionBy<T>(a: set<T>, b: set<T>)
    ensures (a * b) * (a - b) == {} && (a * b) + (a - b) == a
    ensures |a * b| <= |a|
  {
    SubsetSize(a * b, a);
  }

  /** A blank job description has no keywords: the ATS score is 0, and
      nothing is missing. */
  lemma BlankDescription(jobDescription: string, text: string)
    requires Strip(jobDescription) == ""
    ensures KeywordMatch(jobDescription, text).ats.whole == 0
    ensures KeywordMatch(jobDescription, text).missing == {}
  {
    BlankSplit(jobDescription);
  }

  lemma BlankSplit(s: string)
    requires Strip(s) == ""
    ensures Split(s) == []
  {
    BlankStrip(s);
  }

  lemma BlankStrip(s: string)
    ensures Strip(s) == "" ==> LStrip(s) == ""
  {
    if LStrip(s) != "" {
      RStripNonEmpty(LStrip(s));
    }
  }

  lemma {:induction false} RStripNonEmpty(l: string)
    requires l != [] && !IsSpace(l[0])
    ensures RStrip(l) != ""
    decreases |l|
  {
    if IsSpace(l[|l| - 1]) {
      var init := l[..|l| - 1];
      assert init[0] == l[0];
      RStripNonEmpty(init);
    }
  }

  // ---------------------------------------------------------------------
  // Grammar issues and the preview

  /** One match of the grammar checker. */
  datatype GrammarMatch = GrammarMatch(offset: int, errorLength: int, message: string, replacements: seq<string>)

  datatype GrammarIssue = GrammarIssue(message: string, suggestions: seq<string>, context: string, offset: int, length: int)

  const MaxIssues := 8
  const MaxSuggestions := 3
  const Window := 40

  /** A slice bound as Python reads it: negative counts from the end, and
      both sides clamp to the text. */
  function SliceBound(i: int, n: nat): (b: nat)
    ensures b <= n
  {
    if i < 0 then (if i + n < 0 then 0 else i + n)
    else if i > n then n
    else i
  }

  /** s[lo:hi] in Python. */
  function PySlice(s: string, lo: int, hi: int): string
  {
    var a := SliceBound(lo, |s|);
    var b := SliceBound(hi, |s|);
    if a < b then s[a..b] else ""
  }

  /** The context of a match (lines 149-152): 40 characters on either side
      of the error, newlines turned into spaces. */
  function Snippet(text: string, m: GrammarMatch): (r: string)
    ensures !Has(r, '\n')
    ensures 0 <= m.offset && 0 <= m.errorLength ==>
              var lo := if m.offset - Window < 0 then 0 else m.offset - Window;
              var hi := if m.offset + m.errorLength + Window < |text| then m.offset + m.errorLength + Window else |text|;
              && |r| == (if lo < hi then hi - lo else 0)
              && forall i :: 0 <= i < |r| ==> r[i] == (if text[lo + i] == '\n' then ' ' else text[lo + i])
  {
    var start := if m.offset - Window < 0 then 0 else m.offset - Window;
    var end := m.offset + m.errorLength + Window;
    ReplaceChar(PySlice(text, start, end), '\n', ' ')
  }

  function Issue(text: string, m: GrammarMatch): GrammarIssue
  {
    var k := if |m.replacements| < MaxSuggestions then |m.replacements| else MaxSuggestions;
    GrammarIssue(m.message, m.replacements[..k], Snippet(text, m), m.offset, m.errorLength)
  }

  /** Lines 142-163: the first eight matches, each with at most three
      suggestions taken from the front of its replacements. */
  function GrammarIssues(text: string, matches: seq<GrammarMatch>): (r: seq<GrammarIssue>)
    ensures |r| == if |matches| < MaxIssues then |matches| else MaxIssues
    ensures forall i :: 0 <= i < |r| ==>
              && |r[i].suggestions| <= MaxSuggestions
              && r[i].suggestions <= matches[i].replacements
              && (|matches[i].replacements| >= MaxSuggestions ==> |r[i].suggestions| == MaxSuggestions)
              && r[i].message == matches[i].message
              && r[i].offset == matches[i].offset
              && r[i].length == matches[i].errorLength
              && r[i].context == Snippet(text, matches[i])
  {
    var n := if |matches| < MaxIssues then |matches| else MaxIssues;
    seq(n, i requires 0 <= i < n => Issue(text, matches[i]))
  }

  const PreviewLength := 12000

  /** text_preview (line 165): the first 12000 characters, and "..." when
      something was cut. */
  function Preview(text: string): (r: string)
    ensures |text| <= PreviewLength ==> r == text
    ensures |text| > PreviewLength ==> |r| == PreviewLength + 3 && r == text[..PreviewLength] + "..."
    ensures StartsWith(text, r) || StartsWith(r, text[..PreviewLength])
  {
    Take(text, PreviewLength) + (if |text| > PreviewLength then "..." else "")
  }

  // ---------------------------------------------------------------------
  // The endpoint

  /** An uploaded file: the name the client gave and the name
      secure_filename made of it. */
  datatype Upload = Upload(filename: string, savedName: string)

  datatype ResumeRequest = ResumeRequest(file: Option<Upload>, jobDescription: string)

  datatype ResumeReport = ResumeReport(
    skillsFound: seq<string>,
    score: nat,
    similarity: Option<Percentage>,
    keywords: KeywordReport,
    grammarIssues: seq<GrammarIssue>,
    preview: string)

  /** Rejected is a 400 answer; ExtractionFailed the 500 carrying the
      extractor's exception; Crashed an exception outside any handler;
      Analysed(text) the 200 answer whose body is the analysis of the
      extracted text (Analyse). */
  datatype ResumeResponse =
    | Rejected(error: string)
    | ExtractionFailed
    | Crashed
    | Analysed(text: string)
  {
    function Status(): int
    {
      match this
      case Rejected(_) => 400
      case Analysed(_) => 200
      case _ => 500
    }
  }

  const NoFilePart := "No file part"
  const NoSelectedFile := "No selected file"
  const InvalidFileType := "Invalid file type"
  const UnsupportedFileType := "Unsupported file type"
  const NoText := "Could not extract text from resume"

  /** The analysis of an extracted text (lines 111-175). */
  function Analyse(text: string, jobDescription: string, skills: seq<string>,
                   matches: seq<GrammarMatch>): (r: ResumeReport)
    ensures r.skillsFound == FoundSkills(skills, text)
    ensures r.score == SkillScore(skills, text)
    ensures r.score <= 100
    ensures r.similarity == Similarity(jobDescription, text)
    ensures r.keywords == KeywordMatch(jobDescription, text)
    ensures r.grammarIssues == GrammarIssues(text, matches)
    ensures |r.grammarIssues| <= MaxIssues
    ensures r.preview == Preview(text)
  {
    ResumeReport(FoundSkills(skills, text), SkillScore(skills, text), Similarity(jobDescription, text),
                 KeywordMatch(jobDescription, text), GrammarIssues(text, matches), Preview(text))
  }

  /** analyze_resume (lines 76-198). `extracted` is what pdfminer or
      docx2txt returned for the saved file, None when it raised. */
  function AnalyzeResume(req: ResumeRequest, extracted: Option<string>): (r: ResumeResponse)
    ensures req.file.None? ==> r == Rejected(NoFilePart)
    ensures req.file.Some? && req.file.value.filename == "" ==> r == Rejected(NoSelectedFile)
    ensures req.file.Some? && req.file.value.filename != "" && !AllowedFile(req.file.value.filename, BackendExtensions) ==>
              r == Rejected(InvalidFileType)
    ensures r.Rejected? ==>
              r.error == NoFilePart || r.error == NoSelectedFile || r.error == InvalidFileType ||
              r.error == UnsupportedFileType || r.error == NoText
    ensures r.Analysed? <==>
              && req.file.Some?
              && AllowedFile(req.file.value.filename, BackendExtensions)
              && AllowedFile(req.file.value.savedName, BackendExtensions)
              && extracted.Some? && Strip(extracted.value) != ""
    ensures r.Analysed? ==> r.text == extracted.value
  {
    match req.file
    case None => Rejected(NoFilePart)
    case Some(file) =>
      if file.filename == "" then Rejected(NoSelectedFile)
      else if !AllowedFile(file.filename, BackendExtensions) then Rejected(InvalidFileType)
      else
        match Extension(file.savedName)
        case None => Crashed
        case Some(e) =>
          var ext := Lower(e);
          if ext !in BackendExtensions then Rejected(UnsupportedFileType)
          else
            match extracted
            case None => ExtractionFailed
            case Some(text) =>
              if Strip(text) == "" then Rejected(NoText) else Analysed(text)
  }
}

=== FILE: resume_history.dfy ===
/** The saved resume analyses: the delete and list handlers of
    resume-analysis-service/history_api.py and the unguarded delete of
    backend/resume-analysis-service/app.py, over a store that maps document
    ids to documents. */
module ResumeHistory {
  import opened Values

  /** A saved analysis: its owner and timestamp fields and the figures the
      listing returns. A field that is absent reads as JNull; a timestamp
      is an abstract instant, None when it is absent or null. */
  datatype Doc = Doc(userId: Json, timestamp: Option<int>, score: Json, similarity: Json, ats: Json)

  type Store = map<string, Doc>

  /** A handler's status and the store it leaves behind. */
  datatype Outcome = Outcome(status: int, store: Store)

  /** Request fields of `request.json`; None for a body that is not an
      object, whose .get raises. */
  function BodyFields(body: Json): Option<map<string, Json>>
  {
    if body.JObj? then Some(body.fields) else None
  }

  /** delete_resume_history of history_api.py (lines 13-31). A body that is
      not an object raises before the try and is answered 500 by the
      framework; a docId that is not a string makes the store lookup raise
      inside the try, also 500. */
  function Delete(store: Store, body: Json): (o: Outcome)
    ensures o.status in {200, 400, 403, 404, 500}
    ensures o.status != 200 ==> o.store == store
    ensures BodyFields(body).None? ==> o.status == 500
    ensures BodyFields(body).Some? ==>
              var f := BodyFields(body).value;
              var user := Get(f, "userId", JNull);
              var doc := Get(f, "docId", JNull);
              && (!Truthy(user) || !Truthy(doc) <==> o.status == 400)
              && (o.status == 404 <==> Truthy(user) && doc.JStr? && doc.s != "" && doc.s !in store)
              && (o.status == 403 <==> Truthy(user) && doc.JStr? && doc.s != "" && doc.s in store && !PyEq(store[doc.s].userId, user))
              && (o.status == 200 <==> Truthy(user) && doc.JStr? && doc.s != "" && doc.s in store && PyEq(store[doc.s].userId, user))
    ensures o.status == 200 && BodyFields(body).Some? ==>
              var id := Get(BodyFields(body).value, "docId", JNull).s;
              && id in store
              && o.store == map k | k in store && k != id :: store[k]
  {
    match BodyFields(body)
    case None => Outcome(500, store)
    case Some(f) =>
      var user := Get(f, "userId", JNull);
      var doc := Get(f, "docId", JNull);
      if !Truthy(user) || !Truthy(doc) then Outcome(400, store)
      else if !doc.JStr? then Outcome(500, store)
      else if doc.s !in store then Outcome(404, store)
      else if !PyEq(store[doc.s].userId, user) then Outcome(403, store)
      else Outcome(200, map k | k in store && k != doc.s :: store[k])
  }

  /** The owner test is Python's `!=`: a document whose owner is stored as
      1 is deleted by a request whose userId is true. */
  lemma TrueOwnerMatchesOne(store: Store, body: Json)
    requires "d" in store && store["d"].userId == JInt(1)
    requires body == JObj(map["userId" := JBool(true), "docId" := JStr("d")])
    ensures Delete(store, body) == Outcome(200, map k | k in store && k != "d" :: store[k])
  {
    assert Get(BodyFields(body).value, "userId", JNull) == JBool(true);
    assert Get(BodyFields(body).value, "docId", JNull) == JStr("d");
  }

  /** Repeating a successful delete finds nothing: 404, store unchanged. */
  lemma DeleteTwice(store: Store, body: Json)
    requires Delete(store, body).status == 200
    ensures var after := Delete(store, body).store;
            Delete(after, body) == Outcome(404, after)
  {
    var id := Get(BodyFields(body).value, "docId", JNull).s;
    assert id !in Delete(store, body).store;
  }

  /** delete_resume_history of the backend service (lines 53-74): no
      owner check. Every failure, including a body that is not an object,
      is caught and answered 500. */
  function DeleteUnchecked(store: Store, body: Json): (o: Outcome)
    ensures o.status in {200, 400, 404, 500}
    ensures o.status != 200 ==> o.store == store
    ensures BodyFields(body).None? ==> o.status == 500
    ensures BodyFields(body).Some? && !Truthy(Get(BodyFields(body).value, "docId", JNull)) ==> o.status == 400
    ensures o.status == 200 <==>
              && BodyFields(body).Some?
              && var doc := Get(BodyFields(body).value, "docId", JNull);
                 doc.JStr? && doc.s != "" && doc.s in store
    ensures o.status == 200 && BodyFields(body).Some? ==>
              var id := Get(BodyFields(body).value, "docId", JNull).s;
              o.store == map k | k in store && k != id :: store[k]
  {
    match BodyFields(body)
    case None => Outcome(500, store)
    case Some(f) =>
      var doc := Get(f, "docId", JNull);
      if !Truthy(doc) then Outcome(400, store)
      else if !doc.JStr? then Outcome(500, store)
      else if doc.s !in store then Outcome(404, store)
      else Outcome(200, map k | k in store && k != doc.s :: store[k])
  }

  /** Where the history service refuses a stranger's delete with 403, the
      backend service deletes the document all the same. */
  lemma UncheckedDeleteIgnoresOwner(store: Store, body: Json)
    requires Delete(store, body).status == 403
    ensures DeleteUnchecked(store, body).status == 200
    ensures DeleteUnchecked(store, body).store != store
  {
    var id := Get(BodyFields(body).value, "docId", JNull).s;
    assert id !in DeleteUnchecked(store, body).store;
  }

  // ---------------------------------------------------------------------
  // Listing

  /** a may be listed before b: later instants first, absent ones last. */
  predicate NotBefore(a: Option<int>, b: Option<int>)
  {
    b.None? || (a.Some? && a.value >= b.value)
  }

  predicate Listed(store: Store, ids: seq<string>)
  {
    forall i :: 0 <= i < |ids| ==> ids[i] in store
  }

  predicate SortedByTime(store: Store, ids: seq<string>)
    requires Listed(store, ids)
  {
    forall i, j :: 0 <= i < j < |ids| ==> NotBefore(store[ids[i]].timestamp, store[ids[j]].timestamp)
  }

  /** The ids of the documents the user owns. */
  function Owned(store: Store, user: string): set<string>
  {
    set k | k in store && store[k].userId == JStr(user)
  }

  /** Places id into a list sorted by time, after every entry that may come
      before it. */
  function Insert(store: Store, id: string, ids: seq<string>): (r: seq<string>)
    requires id in store && Listed(store, ids) && SortedByTime(store, ids)
    ensures Listed(store, r) && SortedByTime(store, r)
    ensures multiset(r) == multiset(ids) + multiset{id}
    decreases |ids|
  {
    if ids == [] then [id]
    else if NotBefore(store[id].timestamp, store[ids[0]].timestamp) then
      ConsSorted(store, id, ids);
      [id] + ids
    else
      TailSorted(store, ids);
      var rest := Insert(store, id, ids[1..]);
      HeadBefore(store, ids[0], id, ids[1..], rest);
      ConsSorted(store, ids[0], rest);
      [ids[0]] + rest
  }

  /** An entry that may come before the head of a sorted list may come
      before all of it. */
  lemma ConsSorted(store: Store, x: string, xs: seq<string>)
    requires x in store && Listed(store, xs) && SortedByTime(store, xs)
    requires xs != [] ==> NotBefore(store[x].timestamp, store[xs[0]].timestamp)
    ensures Listed(store, [x] + xs) && SortedByTime(store, [x] + xs)
  {
    var r := [x] + xs;
    assert Listed(store, r) by {
      forall i | 0 <= i < |r|
        ensures r[i] in store
      {
        if i > 0 {
          assert r[i] == xs[i - 1];
        }
      }
    }
    forall i, j | 0 <= i < j < |r|
      ensures NotBefore(store[r[i]].timestamp, store[r[j]].timestamp)
    {
      assert r[j] == xs[j - 1];
      if i > 0 {
        assert r[i] == xs[i - 1];
      } else if j > 1 {
        assert NotBefore(store[xs[0]].timestamp, store[xs[j - 1]].timestamp);
      }
    }
  }

  /** The tail of a sorted list is sorted and comes after its head. */
  lemma TailSorted(store: Store, ids: seq<string>)
    requires ids != [] && Listed(store, ids) && SortedByTime(store, ids)
    ensures ids == [ids[0]] + ids[1..]
    ensures Listed(store, ids[1..]) && SortedByTime(store, ids[1..])
    ensures forall m :: 0 <= m < |ids[1..]| ==> NotBefore(store[ids[0]].timestamp, store[ids[1..][m]].timestamp)
  {
    var t := ids[1..];
    assert forall m :: 0 <= m < |t| ==> t[m] == ids[m + 1];
  }

  /** The head of the merged list comes from the old tail or is the new id,
      and the old head may come before either. */
  lemma HeadBefore(store: Store, h: string, id: string, tail: seq<string>, rest: seq<string>)
    requires h in store && id in store && Listed(store, tail) && Listed(store, rest)
    requires !NotBefore(store[id].timestamp, store[h].timestamp)
    requires forall m :: 0 <= m < |tail| ==> NotBefore(store[h].timestamp, store[tail[m]].timestamp)
    requires multiset(rest) == multiset(tail) + multiset{id}
    ensures rest != [] && NotBefore(store[h].timestamp, store[rest[0]].timestamp)
  {
    assert id in multiset(rest);
    assert rest[0] in multiset(rest);
    if rest[0] != id {
      assert rest[0] in multiset(tail);
      var m :| 0 <= m < |tail| && tail[m] == rest[0];
    }
  }

  /** The user's documents, latest first (the query of line 38). */
  method SortedOwned(store: Store, user: string) returns (ids: seq<string>)
    ensures Listed(store, ids) && SortedByTime(store, ids)
    ensures multiset(ids) == multiset(Owned(store, user))
  {
    var todo := store.Keys;
    ids := [];
    while todo != {}
      invariant todo <= store.Keys
      invariant Listed(store, ids) && SortedByTime(store, ids)
      invariant multiset(ids) == multiset(Owned(store, user) - todo)
      decreases |todo|
    {
      var k :| k in todo;
      if store[k].userId == JStr(user) {
        ids := Insert(store, k, ids);
        assert Owned(store, user) - (todo - {k}) == (Owned(store, user) - todo) + {k};
      } else {
        assert Owned(store, user) - (todo - {k}) == Owned(store, user) - todo;
      }
      todo := todo - {k};
    }
  }

  /** A listed record (lines 42-48). */
  datatype Entry = Entry(docId: string, timestamp: string, score: Json, similarity: Json, ats: Json)

  /** The timestamp as isoformat() renders it, '' when missing. */
  function StampText(t: Option<int>, iso: int -> string): string
  {
    match t
    case None => ""
    case Some(v) => iso(v)
  }

  /** get_resume_history of history_api.py (lines 34-53): the documents of
      the requested user, "demoUser" by default, latest first. */
  method ListHistory(store: Store, userArg: Option<string>, iso: int -> string) returns (entries: seq<Entry>)
    ensures var user := userArg.GetOr("demoUser");
            && (forall i :: 0 <= i < |entries| ==> entries[i].docId in Owned(store, user))
            && (forall k :: k in Owned(store, user) ==> exists i :: 0 <= i < |entries| && entries[i].docId == k)
            && (forall i, j :: 0 <= i < j < |entries| ==> entries[i].docId != entries[j].docId)
            && (forall i, j :: 0 <= i < j < |entries| ==>
                  NotBefore(store[entries[i].docId].timestamp, store[entries[j].docId].timestamp))
            && (forall i :: 0 <= i < |entries| ==>
                  var d := store[entries[i].docId];
                  entries[i] == Entry(entries[i].docId, StampText(d.timestamp, iso), d.score, d.similarity, d.ats))
  {
    var user := userArg.GetOr("demoUser");
    var ids := SortedOwned(store, user);
    entries := seq(|ids|, i requires 0 <= i < |ids| =>
      var d := store[ids[i]];
      Entry(ids[i], StampText(d.timestamp, iso), d.score, d.similarity, d.ats));
    forall i | 0 <= i < |entries|
      ensures entries[i].docId in Owned(store, user)
    {
      assert ids[i] in multiset(ids);
    }
    forall k | k in Owned(store, user)
      ensures exists i :: 0 <= i < |entries| && entries[i].docId == k
    {
      assert k in multiset(Owned(store, user));
      var i :| 0 <= i < |ids| && ids[i] == k;
      assert entries[i].docId == k;
    }
    forall i, j | 0 <= i < j < |entries|
      ensures entries[i].docId != entries[j].docId
    {
      DistinctOfSet(ids, Owned(store, user), i, j);
    }
  }

  /** A sequence with the multiset of a set holds no element twice. */
  lemma DistinctOfSet(s: seq<string>, t: set<string>, i: nat, j: nat)
    requires multiset(s) == multiset(t)
    requires i < j < |s|
    ensures s[i] != s[j]
  {
    var x := s[i];
    assert s == s[..j] + s[j..];
    assert s[..j][i] == x;
    assert multiset(s[..j])[x] >= 1;
    assert s[j..][0] == s[j];
    assert multiset(s[j..])[x] >= (if x == s[j] then 1 else 0);
    assert multiset(s)[x] >= (if x == s[j] then 2 else 1);
    assert multiset(t)[x] <= 1;
  }

  const BackendLimit := 20

  /** A record of the backend listing (lines 43-49); the timestamp is
      returned as stored. */
  datatype BackendEntry = BackendEntry(docId: string, timestamp: Option<int>, score: Json, similarity: Json, ats: Json)

  /** get_resume_history of the backend service (lines 36-51): the 20
      latest documents of the user (all of them when there are fewer),
      latest first, timestamps as stored. */
  method ListBackendHistory(store: Store, userArg: Option<string>) returns (entries: seq<BackendEntry>)
    ensures var user := userArg.GetOr("demoUser");
            |entries| == if |Owned(store, user)| < BackendLimit then |Owned(store, user)| else BackendLimit
    ensures var user := userArg.GetOr("demoUser");
            && (forall i :: 0 <= i < |entries| ==> entries[i].docId in Owned(store, user))
            && (forall i :: 0 <= i < |entries| ==> entries[i].timestamp == store[entries[i].docId].timestamp)
            && (forall i, j :: 0 <= i < j < |entries| ==> entries[i].docId != entries[j].docId)
            && (forall i, j :: 0 <= i < j < |entries| ==> NotBefore(entries[i].timestamp, entries[j].timestamp))
            && (forall i :: 0 <= i < |entries| ==>
                  var d := store[entries[i].docId];
                  entries[i].score == d.score && entries[i].similarity == d.similarity && entries[i].ats == d.ats)
    ensures var user := userArg.GetOr("demoUser");
            forall k :: k in Owned(store, user) && (forall i :: 0 <= i < |entries| ==> entries[i].docId != k) ==>
              forall i :: 0 <= i < |entries| ==> NotBefore(entries[i].timestamp, store[k].timestamp)
  {
    var user := userArg.GetOr("demoUser");
    var ids := SortedOwned(store, user);
    assert |ids| == |Owned(store, user)| by {
      assert |multiset(ids)| == |ids|;
      assert |multiset(Owned(store, user))| == |Owned(store, user)|;
    }
    var n := if |ids| < BackendLimit then |ids| else BackendLimit;
    entries := seq(n, i requires 0 <= i < n =>
      var d := store[ids[i]];
      BackendEntry(ids[i], d.timestamp, d.score, d.similarity, d.ats));
    forall i | 0 <= i < |entries|
      ensures entries[i].docId in Owned(store, user)
    {
      assert ids[i] in multiset(ids);
    }
    forall i, j | 0 <= i < j < |entries|
      ensures entries[i].docId != entries[j].docId
    {
      DistinctOfSet(ids, Owned(store, user), i, j);
    }
    forall k | k in Owned(store, user) && (forall i :: 0 <= i < |entries| ==> entries[i].docId != k)
      ensures forall i :: 0 <= i < |entries| ==> NotBefore(entries[i].timestamp, store[k].timestamp)
    {
      assert k in multiset(Owned(store, user));
      var m :| 0 <= m < |ids| && ids[m] == k;
      assert forall i :: 0 <= i < n ==> ids[i] != k by {
        forall i | 0 <= i < n
          ensures ids[i] != k
        {
          assert entries[i].docId == ids[i];
        }
      }
      assert n <= m;
      forall i | 0 <= i < |entries|
        ensures NotBefore(entries[i].timestamp, store[k].timestamp)
      {
        assert i < m;
      }
    }
  }
}

=== FILE: resume_legacy.dfy ===
/** The first resume service (resume-analysis-service/app.py): the same
    upload checks over a narrower extension set, the fixed five-skill list
    scored 20 points per skill, and a 500-character preview. */
module ResumeLegacy {
  import opened Values
  import opened Text
  import opened ResumeAnalysis

  const LegacyExtensions: set<string> := {"pdf", "docx"}

  const Skills: seq<string> := ["Python", "Machine Learning", "Data Science", "React", "SQL"]

  const PointsPerSkill := 20
  const LegacyPreviewLength := 500

  /** score (line 44): 20 points per skill found. */
  function LegacyScore(text: string): (score: nat)
    ensures score == PointsPerSkill * |FoundSkills(Skills, text)|
    ensures score <= 100
  {
    var k := |FoundSkills(Skills, text)|;
    assert k <= 5;
    PointsPerSkill * k
  }

  datatype LegacyReport = LegacyReport(preview: string, skillsFound: seq<string>, score: nat)

  /** The body of the 200 answer (lines 41-50): a 500-character preview,
      the skills found and their score. */
  function Report(text: string): (r: LegacyReport)
    ensures r.preview == Take(text, LegacyPreviewLength)
    ensures r.skillsFound == FoundSkills(Skills, text)
    ensures r.score == PointsPerSkill * |r.skillsFound| && r.score <= 100
  {
    LegacyReport(Take(text, LegacyPreviewLength), FoundSkills(Skills, text), LegacyScore(text))
  }

  /** LegacyRejected is a 400 answer; LegacyExtractionFailed the 500
      carrying the extractor's exception; LegacyCrashed an exception outside
      any handler; LegacyAnalysed(text) the 200 answer whose body is
      Report(text). */
  datatype LegacyResponse =
    | LegacyRejected(error: string)
    | LegacyExtractionFailed
    | LegacyCrashed
    | LegacyAnalysed(text: string)
  {
    function Status(): int
    {
      match this
      case LegacyRejected(_) => 400
      case LegacyAnalysed(_) => 200
      case _ => 500
    }
  }

  /** analyze_resume (lines 22-53). `extracted` is the extracted text of
      the saved file, None when extraction raised. An empty text is not
      rejected here. */
  function AnalyzeLegacy(file: Option<Upload>, extracted: Option<string>): (r: LegacyResponse)
    ensures file.None? ==> r == LegacyRejected(NoFilePart)
    ensures file.Some? && file.value.filename == "" ==> r == LegacyRejected(NoSelectedFile)
    ensures file.Some? && file.value.filename != "" && !AllowedFile(file.value.filename, LegacyExtensions) ==>
              r == LegacyRejected(InvalidFileType)
    ensures r.LegacyRejected? ==>
              r.error == NoFilePart || r.error == NoSelectedFile || r.error == InvalidFileType ||
              r.error == UnsupportedFileType
    ensures r.LegacyAnalysed? <==>
              && file.Some? && AllowedFile(file.value.filename, LegacyExtensions)
              && AllowedFile(file.value.savedName, LegacyExtensions)
              && extracted.Some?
    ensures r.LegacyAnalysed? ==> r.text == extracted.value
  {
    match file
    case None => LegacyRejected(NoFilePart)
    case Some(f) =>
      if f.filename == "" then LegacyRejected(NoSelectedFile)
      else if !AllowedFile(f.filename, LegacyExtensions) then LegacyRejected(InvalidFileType)
      else
        match Extension(f.savedName)
        case None => LegacyCrashed
        case Some(e) =>
          var ext := Lower(e);
          if ext != "pdf" && ext != "docx" then LegacyRejected(UnsupportedFileType)
          else
            match extracted
            case None => LegacyExtractionFailed
            case Some(text) => LegacyAnalysed(text)
  }

  /** A .doc upload is accepted by the newer service and rejected by this
      one. */
  lemma DocOnlyInBackend(stem: string)
    ensures AllowedFile(stem + ".doc", BackendExtensions)
    ensures !AllowedFile(stem + ".doc", LegacyExtensions)
  {
    assert stem + ".doc" == stem + "." + "doc";
    assert !Has("doc", '.');
    AllowedFileSplit(stem, "doc", BackendExtensions);
    AllowedFileSplit(stem, "doc", LegacyExtensions);
    assert Lower("doc") == "doc";
  }

  /** With the five default skills, the newer service's rounded percentage
      equals this service's 20 points per skill. */
  lemma ScoresAgreeOnDefaultSkills(text: string)
    ensures SkillScore(Skills, text) == LegacyScore(text)
  {
    var k := |FoundSkills(Skills, text)|;
    assert 100 * k == 5 * (20 * k);
    DivExact(5, 20 * k);
  }
}

=== FILE: text.dfy ===
/** Python string operations the services rely on, on strings of Unicode
    scalar values: whitespace as str.isspace and the regex class \s see it,
    strip/lstrip/rstrip, ASCII lower-casing, prefix/suffix/substring tests,
    find/rfind/count, slicing and str.split() with no separator. */
module Text {

  /** The characters Python's str.isspace() accepts (and regex \s matches
      in a str pattern): the bidirectional whitespace, segment and paragraph
      separators and the Zs space separators. */
  predicate IsSpace(c: char)
  {
    || ('\t' <= c <= '\r')
    || ('\U{1C}' <= c <= '\U{1F}')
    || c == ' '
    || c == '\U{85}'
    || c == '\U{A0}'
    || c == '\U{1680}'
    || ('\U{2000}' <= c <= '\U{200A}')
    || c == '\U{2028}'
    || c == '\U{2029}'
    || c == '\U{202F}'
    || c == '\U{205F}'
    || c == '\U{3000}'
  }

  predicate AllSpace(s: string)
  {
    forall i :: 0 <= i < |s| ==> IsSpace(s[i])
  }

  /** True when s has no whitespace at either end (every strip result). */
  predicate Trimmed(s: string)
  {
    s == "" || (!IsSpace(s[0]) && !IsSpace(s[|s| - 1]))
  }

  /** str.lstrip(): drops the leading whitespace run. */
  function LStrip(s: string): (r: string)
    ensures |r| <= |s| && r == s[|s| - |r|..]
    ensures r == "" || !IsSpace(r[0])
  {
    if s != [] && IsSpace(s[0]) then LStrip(s[1..]) else s
  }

  /** What lstrip drops is whitespace. */
  lemma {:induction false} LStripDropsSpace(s: string)
    ensures AllSpace(s[..|s| - |LStrip(s)|])
  {
    if s != [] && IsSpace(s[0]) {
      LStripDropsSpace(s[1..]);
      var k := |s| - |LStrip(s)|;
      forall i | 0 <= i < k
        ensures IsSpace(s[i])
      {
        if i > 0 {
          assert s[i] == s[1..][..k - 1][i - 1];
        }
      }
    }
  }

  /** str.rstrip(): drops the trailing whitespace run. */
  function RStrip(s: string): (r: string)
    ensures |r| <= |s| && r == s[..|r|]
    ensures r == "" || !IsSpace(r[|r| - 1])
  {
    if s != [] && IsSpace(s[|s| - 1]) then RStrip(s[..|s| - 1]) else s
  }

  /** What rstrip drops is whitespace. */
  lemma {:induction false} RStripDropsSpace(s: string)
    ensures AllSpace(s[|RStrip(s)|..])
  {
    if s != [] && IsSpace(s[|s| - 1]) {
      var init := s[..|s| - 1];
      RStripDropsSpace(init);
      var k := |RStrip(s)|;
      forall i | k <= i < |s|
        ensures IsSpace(s[i])
      {
        if i < |s| - 1 {
          assert s[i] == init[k..][i - k];
        }
      }
    }
  }

  /** str.strip(): drops the whitespace runs at both ends. */
  function Strip(s: string): (r: string)
    ensures Trimmed(r)
    ensures |r| <= |s|
  {
    RStrip(LStrip(s))
  }

  /** The stripped text is a piece of the original. */
  lemma StripWithin(s: string)
    ensures Contains(s, Strip(s))
  {
    var l := LStrip(s);
    assert StartsWith(s[|s| - |l|..], Strip(s));
  }

  lemma LStripOfTrimmed(s: string)
    requires s == "" || !IsSpace(s[0])
    ensures LStrip(s) == s
  {
  }

  lemma RStripOfTrimmed(s: string)
    requires s == "" || !IsSpace(s[|s| - 1])
    ensures RStrip(s) == s
  {
  }

  /** Stripping a string with no whitespace at either end changes nothing. */
  lemma StripOfTrimmed(s: string)
    requires Trimmed(s)
    ensures Strip(s) == s
  {
    LStripOfTrimmed(s);
    RStripOfTrimmed(s);
  }

  /** Whitespace put around a trimmed string is exactly what strip removes. */
  lemma {:induction false} StripPadding(a: string, body: string, b: string)
    requires AllSpace(a) && AllSpace(b) && Trimmed(body)
    ensures Strip(a + body + b) == body
  {
    if body == [] {
      assert a + body + b == a + b;
      AllSpaceAppend(a, b);
      LStripAllSpace(a + b);
    } else {
      assert a + body + b == a + (body + b);
      assert (body + b)[0] == body[0];
      LStripPadding(a, body + b);
      RStripPadding(body, b);
    }
  }

  lemma AllSpaceAppend(a: string, b: string)
    requires AllSpace(a) && AllSpace(b)
    ensures AllSpace(a + b)
  {
    forall i | 0 <= i < |a + b|
      ensures IsSpace((a + b)[i])
    {
      if i < |a| {
        assert (a + b)[i] == a[i];
      } else {
        assert (a + b)[i] == b[i - |a|];
      }
    }
  }

  lemma LStripAllSpace(s: string)
    requires AllSpace(s)
    ensures LStrip(s) == ""
  {
  }

  lemma {:induction false} LStripPadding(a: string, rest: string)
    requires AllSpace(a) && (rest == "" || !IsSpace(rest[0]))
    ensures LStrip(a + rest) == rest
    decreases |a|
  {
    if a == [] {
      assert a + rest == rest;
      LStripOfTrimmed(rest);
    } else {
      assert (a + rest)[1..] == a[1..] + rest;
      LStripPadding(a[1..], rest);
    }
  }

  lemma {:induction false} RStripPadding(body: string, b: string)
    requires AllSpace(b) && (body == "" || !IsSpace(body[|body| - 1]))
    ensures RStrip(body + b) == body
    decreases |b|
  {
    if b == [] {
      assert body + b == body;
      RStripOfTrimmed(body);
    } else {
      assert (body + b)[..|body + b| - 1] == body + b[..|b| - 1];
      RStripPadding(body, b[..|b| - 1]);
    }
  }

  /** The length of the leading whitespace run (what `\s*` takes). */
  function SpaceRun(s: string): (k: nat)
    ensures k <= |s|
  {
    |s| - |LStrip(s)|
  }

  /** c repeated n times (Python's c * n). */
  function Repeat(c: char, n: nat): (r: string)
    ensures |r| == n
    ensures forall i :: 0 <= i < n ==> r[i] == c
  {
    if n == 0 then [] else [c] + Repeat(c, n - 1)
  }

  predicate IsDigit(c: char)
  {
    '0' <= c <= '9'
  }

  /** The value of a string of decimal digits, as Python's int() reads it. */
  function DecimalValue(digits: string): (n: nat)
    requires forall i :: 0 <= i < |digits| ==> IsDigit(digits[i])
    ensures |digits| <= 1 ==> n <= 9
    ensures |digits| <= 2 ==> n <= 99
    ensures |digits| <= 3 ==> n <= 999
    decreases |digits|
  {
    if digits == [] then 0
    else
      var last := digits[|digits| - 1];
      assert IsDigit(last);
      10 * DecimalValue(digits[..|digits| - 1]) + (last as int - '0' as int)
  }

  /** The decimal text of n, without leading zeros ("0" for zero). */
  function NatText(n: nat): (s: string)
    ensures 1 <= |s|
    ensures forall i :: 0 <= i < |s| ==> IsDigit(s[i])
    ensures n <= 999 ==> |s| <= 3
    ensures DecimalValue(s) == n
  {
    var d := [('0' as int + n % 10) as char];
    if n < 10 then
      assert DecimalValue(d) == n by {
        assert d[..0] == [];
      }
      d
    else
      var s := NatText(n / 10) + d;
      assert s[..|s| - 1] == NatText(n / 10);
      s
  }

  /** Python's str() of an integer. */
  function IntText(i: int): string
  {
    if i < 0 then "-" + NatText(-i) else NatText(i)
  }

  /** ASCII lower-casing of one character. */
  function LowerChar(c: char): (r: char)
    ensures 'A' <= c <= 'Z' ==> r as int == c as int + 32
    ensures !('A' <= c <= 'Z') ==> r == c
  {
    if 'A' <= c <= 'Z' then (c as int + 32) as char else c
  }

  /** str.lower() restricted to ASCII letters. */
  function Lower(s: string): (r: string)
    ensures |r| == |s|
    ensures forall i :: 0 <= i < |s| ==> r[i] == LowerChar(s[i])
  {
    if s == [] then [] else [LowerChar(s[0])] + Lower(s[1..])
  }

  lemma LowerAppend(a: string, b: string)
    ensures Lower(a + b) == Lower(a) + Lower(b)
  {
    var l := Lower(a + b);
    var r := Lower(a) + Lower(b);
    forall i | 0 <= i < |l|
      ensures l[i] == r[i]
    {
      if i < |a| {
        assert (a + b)[i] == a[i];
      } else {
        assert (a + b)[i] == b[i - |a|];
      }
    }
  }

  /** The characters a lower-case ASCII letter l matches in a pattern
      compiled with re.IGNORECASE: its two ASCII cases, plus the extra
      characters whose simple lower-case form is l or that the regex engine
      treats as equivalent (LATIN SMALL LETTER LONG S for s, KELVIN SIGN for
      k, the dotless and the dotted I for i). Other characters match only
      themselves. */
  predicate FoldsTo(c: char, l: char)
  {
    || LowerChar(c) == l
    || (l == 's' && c == '\U{17F}')
    || (l == 'k' && c == '\U{212A}')
    || (l == 'i' && (c == '\U{130}' || c == '\U{131}'))
  }

  /** s matches the lower-case ASCII pattern word under re.IGNORECASE. */
  predicate MatchesIgnoreCase(s: string, word: string)
  {
    |s| == |word| && forall i :: 0 <= i < |s| ==> FoldsTo(s[i], word[i])
  }

  predicate StartsWith(s: string, p: string)
  {
    |p| <= |s| && s[..|p|] == p
  }

  predicate EndsWith(s: string, p: string)
  {
    |p| <= |s| && s[|s| - |p|..] == p
  }

  /** Python's `sub in s`: sub occurs at some position of s. */
  predicate Contains(s: string, sub: string)
  {
    exists i :: 0 <= i <= |s| - |sub| && StartsWith(s[i..], sub)
  }

  /** True when s contains the character c. */
  predicate Has(s: string, c: char)
  {
    exists i :: 0 <= i < |s| && s[i] == c
  }

  /** str.find(c) for one character: the first index of c, or -1. */
  function Find(s: string, c: char): (r: int)
    ensures -1 <= r < |s|
    ensures r >= 0 ==> s[r] == c
    ensures forall k :: 0 <= k < |s| && (r < 0 || k < r) ==> s[k] != c
  {
    if s == [] then -1
    else if s[0] == c then 0
    else
      var k := Find(s[1..], c);
      if k == -1 then -1 else k + 1
  }

  /** str.rfind(c) for one character: the last index of c, or -1. */
  function RFind(s: string, c: char): (r: int)
    ensures -1 <= r < |s|
    ensures r >= 0 ==> s[r] == c
    ensures forall k :: r < k < |s| ==> s[k] != c
  {
    if s == [] then -1
    else if s[|s| - 1] == c then |s| - 1
    else RFind(s[..|s| - 1], c)
  }

  /** str.count(c) for one character. */
  function Count(s: string, c: char): (r: nat)
    ensures r <= |s|
    ensures r == 0 <==> !Has(s, c)
  {
    if s == [] then 0
    else
      assert Has(s, c) <==> s[0] == c || Has(s[1..], c) by {
        if Has(s, c) && s[0] != c {
          var i :| 0 <= i < |s| && s[i] == c;
          assert s[1..][i - 1] == c;
        }
        if Has(s[1..], c) {
          var i :| 0 <= i < |s| - 1 && s[1..][i] == c;
          assert s[i + 1] == c;
        }
      }
      (if s[0] == c then 1 else 0) + Count(s[1..], c)
  }

  lemma {:induction false} CountAppend(a: string, b: string, c: char)
    ensures Count(a + b, c) == Count(a, c) + Count(b, c)
    decreases |a|
  {
    if a == [] {
      assert a + b == b;
    } else {
      assert (a + b)[1..] == a[1..] + b;
      CountAppend(a[1..], b, c);
    }
  }

  /** Python's s[:n] for n >= 0: at most the first n characters. */
  function Take(s: string, n: nat): (r: string)
    ensures |r| == if n < |s| then n else |s|
    ensures StartsWith(s, r)
  {
    if n < |s| then s[..n] else s
  }

  /** Python's s[lo:hi] for 0 <= lo and 0 <= hi: both bounds clamped to |s|,
      empty when lo >= hi. */
  function Slice(s: string, lo: nat, hi: nat): (r: string)
    ensures lo < hi && hi <= |s| ==> r == s[lo..hi]
    ensures hi <= lo || |s| <= lo ==> r == ""
    ensures lo <= |s| <= hi ==> r == s[lo..]
  {
    var h := if hi < |s| then hi else |s|;
    if lo < h then s[lo..h] else ""
  }

  /** str.replace(a, b) for two single characters. */
  function ReplaceChar(s: string, from: char, to: char): (r: string)
    ensures |r| == |s|
    ensures forall i :: 0 <= i < |s| ==> r[i] == (if s[i] == from then to else s[i])
  {
    if s == [] then [] else [if s[0] == from then to else s[0]] + ReplaceChar(s[1..], from, to)
  }

  /** The longest prefix of s without whitespace. */
  function Word(s: string): (r: string)
    ensures |r| <= |s| && r == s[..|r|]
    ensures s != [] && !IsSpace(s[0]) ==> r != []
  {
    if s == [] || IsSpace(s[0]) then [] else [s[0]] + Word(s[1..])
  }

  /** A word holds no whitespace. */
  lemma {:induction false} WordHasNoSpace(s: string)
    ensures !HasSpace(Word(s))
  {
    if s != [] && !IsSpace(s[0]) {
      WordHasNoSpace(s[1..]);
      assert Word(s) == [s[0]] + Word(s[1..]);
    }
  }

  /** str.split() with no separator: the maximal runs of non-whitespace. */
  function Split(s: string): (ws: seq<string>)
    ensures forall k :: 0 <= k < |ws| ==> ws[k] != "" && !HasSpace(ws[k])
    decreases |s|
  {
    var t := LStrip(s);
    if t == [] then []
    else
      var w := Word(t);
      WordHasNoSpace(t);
      var rest := Split(t[|w|..]);
      var ws := [w] + rest;
      forall k | 0 <= k < |ws|
        ensures ws[k] != "" && !HasSpace(ws[k])
      {
        if k > 0 {
          assert ws[k] == rest[k - 1];
        }
      }
      ws
  }

  /** A word scan runs through a space-free prefix and stops at the first
      whitespace. */
  lemma {:induction false} WordAppend(x: string, y: string)
    ensures HasSpace(x) ==> Word(x + y) == Word(x)
    ensures !HasSpace(x) ==> Word(x + y) == x + Word(y)
  {
    if x == [] {
      assert x + y == y;
    } else {
      assert (x + y)[0] == x[0];
      assert (x + y)[1..] == x[1..] + y;
      WordAppend(x[1..], y);
      if !IsSpace(x[0]) {
        assert HasSpace(x) <==> HasSpace(x[1..]) by {
          if HasSpace(x) {
            var i :| 0 <= i < |x| && IsSpace(x[i]);
            assert x[1..][i - 1] == x[i];
          }
          if HasSpace(x[1..]) {
            var i :| 0 <= i < |x[1..]| && IsSpace(x[1..][i]);
            assert x[i + 1] == x[1..][i];
          }
        }
      } else {
        assert HasSpace(x) by { assert IsSpace(x[0]); }
      }
    }
  }

  /** Leading whitespace does not change the split. */
  lemma {:induction false} SplitSpacePrefix(pad: string, rest: string)
    requires AllSpace(pad)
    ensures Split(pad + rest) == Split(rest)
  {
    LStripSpacePrefix(pad, rest);
  }

  lemma {:induction false} LStripSpacePrefix(pad: string, rest: string)
    requires AllSpace(pad)
    ensures LStrip(pad + rest) == LStrip(rest)
  {
    var n := |rest| - |LStrip(rest)|;
    TakeDrop(rest, n);
    LStripDropsSpace(rest);
    AllSpaceAppend(pad, rest[..n]);
    ConcatAssoc(pad, rest[..n], rest[n..]);
    LStripPadding(pad + rest[..n], rest[n..]);
  }

  lemma TakeDrop<T>(s: seq<T>, n: nat)
    requires n <= |s|
    ensures s == s[..n] + s[n..]
  {
  }

  /** lstrip() leaves nothing exactly when the text is all whitespace. */
  lemma LStripBlank(s: string)
    ensures LStrip(s) == "" <==> AllSpace(s)
  {
    LStripDropsSpace(s);
    if LStrip(s) == "" {
      assert s[..|s|] == s;
    }
    if AllSpace(s) {
      LStripAllSpace(s);
    }
  }

  /** split() gives no word exactly when the text is all whitespace. */
  lemma {:induction false} SplitEmptyIff(s: string)
    ensures Split(s) == [] <==> AllSpace(s)
  {
    if AllSpace(s) {
      LStripAllSpace(s);
    } else {
      LStripDropsSpace(s);
      assert s[..|s|] == s;
    }
  }

  /** A single word splits to itself. */
  lemma {:induction false} SplitWord(w: string)
    requires w != "" && !HasSpace(w)
    ensures Split(w) == [w]
  {
    assert !IsSpace(w[0]);
    assert [] + w == w;
    LStripPadding([], w);
    WordAppend(w, []);
    assert w + [] == w;
    assert Word(w) == w;
  }

  /** A text that starts with a non-whitespace character splits into its
      first word and the split of what follows it. */
  lemma SplitLed(t: string)
    requires t != [] && !IsSpace(t[0])
    ensures Split(t) == [Word(t)] + Split(t[|Word(t)|..])
  {
    assert [] + t == t;
    LStripPadding([], t);
  }

  /** Whitespace separates: the words around a whitespace character are the
      words of each side, in order. */
  lemma {:induction false} SplitAround(a: string, c: char, b: string)
    requires IsSpace(c)
    ensures Split(a + [c] + b) == Split(a) + Split(b)
    decreases |a|, 1
  {
    if AllSpace(a) {
      SplitAroundBlank(a, c, b);
    } else {
      SplitSkipsLeading(a, c, b);
      SplitAroundLed(LStrip(a), c, b);
    }
  }

  lemma SplitAroundBlank(a: string, c: char, b: string)
    requires IsSpace(c) && AllSpace(a)
    ensures Split(a) == [] && Split(a + [c] + b) == Split(b)
  {
    assert AllSpace([c]);
    SplitEmptyIff(a);
    AllSpaceAppend(a, [c]);
    SplitSpacePrefix(a + [c], b);
  }

  /** The leading whitespace of a text with a word in it does not count. */
  lemma SplitSkipsLeading(a: string, c: char, b: string)
    requires !AllSpace(a)
    ensures LStrip(a) != [] && !IsSpace(LStrip(a)[0])
    ensures Split(a) == Split(LStrip(a)) && Split(a + [c] + b) == Split(LStrip(a) + [c] + b)
  {
    var la := LStrip(a);
    var p := |a| - |la|;
    LStripDropsSpace(a);
    LStripBlank(a);
    Regroup(a, p, c, b);
    SplitSpacePrefix(a[..p], la + [c] + b);
    SplitSpacePrefix(a[..p], la);
  }

  lemma Regroup<T>(a: seq<T>, p: nat, c: T, z: seq<T>)
    requires p <= |a|
    ensures a == a[..p] + a[p..]
    ensures a + [c] + z == a[..p] + (a[p..] + [c] + z)
  {
  }

  /** SplitAround for a left side that starts with a word. */
  lemma {:induction false} SplitAroundLed(la: string, c: char, b: string)
    requires IsSpace(c) && la != [] && !IsSpace(la[0])
    ensures Split(la + [c] + b) == Split(la) + Split(b)
    decreases |la|, 0
  {
    if HasSpace(la) {
      var wa := Word(la);
      WordBeforeSpace(la, c, b);
      FirstOfAppend(la, c, b);
      SplitLed(la + [c] + b);
      SplitLed(la);
      DropFromAppend(la, |wa|, c, b);
      SplitAround(la[|wa|..], c, b);
      ConcatAssoc([wa], Split(la[|wa|..]), Split(b));
    } else {
      SplitAroundWord(la, c, b);
      SplitWord(la);
    }
  }

  /** SplitAround for a single word on the left. */
  lemma SplitAroundWord(w: string, c: char, b: string)
    requires IsSpace(c) && w != [] && !HasSpace(w)
    ensures Split(w + [c] + b) == [w] + Split(b)
  {
    WordBeforeSpace(w, c, b);
    FirstOfAppend(w, c, b);
    SplitLed(w + [c] + b);
    DropFromAppend(w, |w|, c, b);
    assert w[|w|..] + [c] + b == [c] + b;
    SplitAfterSpace(c, b);
  }

  /** The first word of `x + [c] + y`, for a whitespace c. */
  lemma WordBeforeSpace(x: string, c: char, y: string)
    requires IsSpace(c)
    ensures Word(x + [c] + y) == if HasSpace(x) then Word(x) else x
  {
    assert x + [c] + y == x + ([c] + y);
    WordAppend(x, [c] + y);
    assert Word([c] + y) == [];
  }

  lemma SplitAfterSpace(c: char, y: string)
    requires IsSpace(c)
    ensures Split([c] + y) == Split(y)
  {
    assert AllSpace([c]);
    SplitSpacePrefix([c], y);
  }

  lemma FirstOfAppend<T>(x: seq<T>, c: T, y: seq<T>)
    requires x != []
    ensures (x + [c] + y)[0] == x[0]
  {
  }

  lemma DropFromAppend<T>(x: seq<T>, n: nat, c: T, y: seq<T>)
    requires n <= |x|
    ensures (x + [c] + y)[n..] == x[n..] + [c] + y
  {
  }

  lemma ConcatAssoc<T>(x: seq<T>, y: seq<T>, z: seq<T>)
    ensures x + (y + z) == (x + y) + z
  {
  }

  /** Visible ASCII characters are not whitespace. */
  lemma PrintableHasNoSpace(s: string)
    requires forall i :: 0 <= i < |s| ==> '!' <= s[i] <= '~'
    ensures !HasSpace(s)
  {
  }

  predicate HasSpace(s: string)
  {
    exists i :: 0 <= i < |s| && IsSpace(s[i])
  }

  /** Python's str.strip(chars): drops characters in the set from both ends. */
  function StripChars(s: string, chars: set<char>): (r: string)
    ensures |r| <= |s|
    ensures r == "" || (r[0] !in chars && r[|r| - 1] !in chars)
  {
    StripTrailing(StripLeading(s, chars), chars)
  }

  /** strip(chars) leaves a slice of the text and removes only characters
      of the set, from the two ends. */
  lemma StripCharsSlice(s: string, chars: set<char>)
    ensures exists i, j :: 0 <= i <= j <= |s| && StripChars(s, chars) == s[i..j]
              && AllIn(s[..i], chars) && AllIn(s[j..], chars)
  {
    var l := StripLeading(s, chars);
    var r := StripTrailing(l, chars);
    var i := |s| - |l|;
    var j := i + |r|;
    StripLeadingDrops(s, chars);
    StripTrailingDrops(l, chars);
    assert s[j..] == l[|r|..];
    assert StripChars(s, chars) == s[i..j];
  }

  predicate AllIn(s: string, chars: set<char>)
  {
    forall k :: 0 <= k < |s| ==> s[k] in chars
  }

  /** The text strip(chars) leaves is a piece of the original. */
  lemma StripCharsWithin(s: string, chars: set<char>)
    ensures Contains(s, StripChars(s, chars))
  {
    var l := StripLeading(s, chars);
    assert StartsWith(s[|s| - |l|..], StripChars(s, chars));
  }

  function StripLeading(s: string, chars: set<char>): (r: string)
    ensures |r| <= |s| && r == s[|s| - |r|..]
    ensures r == "" || r[0] !in chars
  {
    if s != [] && s[0] in chars then StripLeading(s[1..], chars) else s
  }

  /** What the leading strip removes is in the set. */
  lemma {:induction false} StripLeadingDrops(s: string, chars: set<char>)
    ensures AllIn(s[..|s| - |StripLeading(s, chars)|], chars)
  {
    if s != [] && s[0] in chars {
      StripLeadingDrops(s[1..], chars);
      var n := |s| - |StripLeading(s, chars)|;
      forall k | 0 < k < n
        ensures s[..n][k] in chars
      {
        assert s[..n][k] == s[1..][..n - 1][k - 1];
      }
    }
  }

  function StripTrailing(s: string, chars: set<char>): (r: string)
    ensures |r| <= |s| && r == s[..|r|]
    ensures r == "" || r[|r| - 1] !in chars
  {
    if s != [] && s[|s| - 1] in chars then StripTrailing(s[..|s| - 1], chars) else s
  }

  /** What the trailing strip removes is in the set. */
  lemma {:induction false} StripTrailingDrops(s: string, chars: set<char>)
    ensures AllIn(s[|StripTrailing(s, chars)|..], chars)
  {
    if s != [] && s[|s| - 1] in chars {
      StripTrailingDrops(s[..|s| - 1], chars);
      var n := |StripTrailing(s, chars)|;
      forall k | 0 <= k < |s| - n - 1
        ensures s[n..][k] in chars
      {
        assert s[n..][k] == s[..|s| - 1][n..][k];
      }
    }
  }
}

=== FILE: values.dfy ===
/** Values shared by every service model: an optional value, the JSON values
    the services read from parsed LLM replies and store documents, and
    Python's truthiness test on them. */
module Values {

  datatype Option<T> = None | Some(value: T) {
    /** Returns the wrapped value, or the default when there is none. */
    function GetOr(default: T): (r: T)
      ensures Some? ==> r == value
      ensures None? ==> r == default
    {
      match this
      case Some(v) => v
      case None => default
    }
  }

  /** A JSON value as produced by Python's json.loads. Floating-point numbers
      are not modelled; a JSON object is a map from keys to values. */
  datatype Json =
    | JNull
    | JBool(b: bool)
    | JInt(i: int)
    | JStr(s: string)
    | JList(items: seq<Json>)
    | JObj(fields: map<string, Json>)

  /** Python's truth value of a JSON value: null, false, 0, "", [] and {} are falsy. */
  predicate Truthy(v: Json)
  {
    match v
    case JNull => false
    case JBool(b) => b
    case JInt(i) => i != 0
    case JStr(s) => s != ""
    case JList(items) => |items| > 0
    case JObj(fields) => |fields| > 0
  }

  /** The number a bool or an int stands for in Python, where bool is a
      subtype of int: False is 0 and True is 1. */
  function NumberOf(v: Json): Option<int>
  {
    match v
    case JBool(b) => Some(if b then 1 else 0)
    case JInt(i) => Some(i)
    case _ => None
  }

  /** Python's `==` on decoded JSON values: numbers compare by value, so
      True == 1 and False == 0; lists compare element-wise and dicts key by
      key; null, strings and the rest compare only with their own kind. */
  predicate PyEq(a: Json, b: Json)
    decreases a
  {
    match a
    case JNull => b.JNull?
    case JBool(_) => NumberOf(b).Some? && NumberOf(b) == NumberOf(a)
    case JInt(_) => NumberOf(b).Some? && NumberOf(b) == NumberOf(a)
    case JStr(s) => b.JStr? && b.s == s
    case JList(xs) =>
      && b.JList? && |xs| == |b.items|
      && forall i :: 0 <= i < |xs| ==> PyEq(xs[i], b.items[i])
    case JObj(m) =>
      && b.JObj? && m.Keys == b.fields.Keys
      && forall k :: k in m ==> PyEq(m[k], b.fields[k])
  }

  /** Equal values are equal in Python too. */
  lemma {:induction false} PyEqReflexive(a: Json)
    ensures PyEq(a, a)
    decreases a
  {
    match a
    case JList(xs) =>
      forall i | 0 <= i < |xs|
        ensures PyEq(xs[i], xs[i])
      {
        PyEqReflexive(xs[i]);
      }
    case JObj(m) =>
      forall k | k in m
        ensures PyEq(m[k], m[k])
      {
        PyEqReflexive(m[k]);
      }
    case _ =>
  }

  /** Python's equality is symmetric. */
  lemma {:induction false} PyEqSymmetric(a: Json, b: Json)
    requires PyEq(a, b)
    ensures PyEq(b, a)
    decreases a
  {
    match a
    case JList(xs) =>
      forall i | 0 <= i < |xs|
        ensures PyEq(b.items[i], xs[i])
      {
        PyEqSymmetric(xs[i], b.items[i]);
      }
    case JObj(m) =>
      forall k | k in b.fields
        ensures PyEq(b.fields[k], m[k])
      {
        PyEqSymmetric(m[k], b.fields[k]);
      }
    case _ =>
  }

  /** True equals 1 and False equals 0, inside lists as well, while true
      and the string "1" differ. */
  lemma BoolsAreNumbers()
    ensures PyEq(JBool(true), JInt(1)) && PyEq(JBool(false), JInt(0))
    ensures PyEq(JList([JBool(true)]), JList([JInt(1)]))
    ensures !PyEq(JBool(true), JStr("1")) && !PyEq(JBool(true), JInt(2))
  {
  }

  /** dict.get(key, default): the stored value when the key is present (even
      a null one), otherwise the default. */
  function Get(fields: map<string, Json>, key: string, default: Json): (r: Json)
    ensures key in fields ==> r == fields[key]
    ensures key !in fields ==> r == default
  {
    if key in fields then fields[key] else default
  }

  /** Python's `a or b`: the first operand when it is truthy, else the second. */
  function Or(a: Json, b: Json): (r: Json)
    ensures Truthy(a) ==> r == a
    ensures !Truthy(a) ==> r == b
  {
    if Truthy(a) then a else b
  }

  /** Python's `a or b` on optional strings, where None and "" are falsy. */
  function OrText(a: Option<string>, b: string): (r: string)
    ensures a.Some? && a.value != "" ==> r == a.value
    ensures a.None? || a.value == "" ==> r == b
  {
    if a.Some? && a.value != "" then a.value else b
  }
}
